=== FILE: README.md ===
# Map dashboard core in Dafny

A model of the logic of a Next.js map dashboard. The dashboard loads GeoJSON
from preset or custom URLs, falling back to generated mock data. It also loads
OpenAQ PM2.5 readings. It draws both on a MapLibre map above switchable base
layers (vector, Sentinel-2, Esri imagery), a NASA CO₂ raster and 3D buildings.
It offers a 30-day CO₂ timeline, a compass read-out, a camera tour and a
feature listing.

The model is functional:

- GeoJSON is a `Json` value checked by the source's type guards and then read
  as typed features.
- The map is an abstract engine: a map of named sources and an ordered stack
  of layers. It carries MapLibre's acceptance conditions as preconditions.
- Each React effect is a pure transformer of that engine.
- Each hook is a state machine whose network outcome is a parameter.
- Time is a parameter too: "today", the animation frame timestamps and the
  random draws of the mock generator.

Modules, one per concern:

| module | file | models |
|---|---|---|
| `Wrappers` | wrappers.dfy | `Option`, `Result` |
| `Strings` | strings.dfy | decimal printing, `padStart`, `toFixed`, `trim` |
| `GeoJson` | geojson.dfy | JSON values, the type guards, typed features |
| `Bounds` | bounds.dfy | `bboxFromGeometry`, `computeBBox`, `padBBox` |
| `MockData` | mockdata.dfy | `generateMockGeoJSON` |
| `Http` | http.dfy | fetch outcomes and their error messages |
| `GeoData` | geodata.dfy | `useGeoData`: `fetchByUrl`, `fetchPreset`, `clear` |
| `OpenAQ` | openaq.dfy | `useOpenAQ`: `toGeoJSON`, `refresh` |
| `MapEngine` | mapengine.dfy | the MapLibre calls the viewport makes |
| `Viewport` | viewport.dfy | `MapViewport`: load handler, effects, click, CO₂ URL |
| `CrossFade` | crossfade.dfy | the base-layer cross-fade animation |
| `Tour` | tour.dfy | `startCinematicTour` |
| `Calendar` | calendar.dfy | civil dates and `formatDateYYYYMMDD` |
| `Timeline` | timeline.dfy | `TimelineSlider` |
| `Compass` | compass.dfy | `bearingToCompass` |
| `Dashboard` | dashboard.dfy | `MapDashboard` wiring |
| `DataListing` | datalisting.dfy | `DataListing` |

## Model

| member | source | states |
|---|---|---|
| GeoJson.GuardsExclusive | hooks/use-geodata.ts:16-36 | no value is both a FeatureCollection and a Feature by the guards |
| GeoJson.DecodeGeometry | hooks/use-geodata.ts:38-51 | a value failing `isGeometry` (not an object, no `type`, or a type outside the six) is read as no supported geometry |
| GeoJson.DecodeFeature | hooks/use-geodata.ts:110-111 | a feature has no geometry exactly when its `geometry` is missing or falsy |
| GeoJson.DecodeFeatures | hooks/use-geodata.ts:245-246 | every element of `features` is read as a feature, in order, none dropped |
| GeoJson.DecodePositionsExact | hooks/use-geodata.ts:53-55 | a list of positions written as `[lon, lat]` arrays reads back as the same positions |
| GeoJson.DecodeLineStringRoundTrip | hooks/use-geodata.ts:53-55 | a LineString's `[lon, lat]` coordinate arrays read back as exactly the positions they encode |
| GeoJson.AsCollection | hooks/use-geodata.ts:245-246 | the cast of a FeatureCollection has one feature per element of `features`, the i-th being the decoded i-th element |
| GeoJson.WrapFeature | hooks/use-geodata.ts:249-253 | a single Feature becomes a one-feature collection whose feature is the decoded raw value |
| GeoJson.WrapFeatureIsCollectionOfOne | hooks/use-geodata.ts:249-253 | the object `{type: "FeatureCollection", features: [raw]}` passes the collection guard, and casting it gives the wrapped feature |
| Bounds.BBoxFromGeometry | hooks/use-geodata.ts:57-102 | null for unsupported types and for geometries with no positions; otherwise min ≤ max on both axes, every position inside, and each edge attained by a position |
| Bounds.BoxOf | hooks/use-geodata.ts:53-101 | no box for no positions; otherwise an ordered box holding every position, each edge attained by one |
| Bounds.IncludeKeepsAttained | hooks/use-geodata.ts:57-101 | widening the box by one more position keeps every edge attained by a position seen |
| Bounds.ComputeBBox | hooks/use-geodata.ts:104-129 | null exactly when no feature contributes a box; otherwise ordered and containing every contributing feature's box |
| Bounds.ComputeBBoxIsBoxOfAllPositions | hooks/use-geodata.ts:104-129 | the union of the per-feature boxes equals the box of all positions of supported geometries taken together |
| Bounds.BoxOfAppend | hooks/use-geodata.ts:114-118 | the box of two position lists is the min/max union of their boxes |
| Bounds.SinglePointBox | hooks/use-geodata.ts:104-129 | one Point (10, 20) gives the box [10, 20, 10, 20] |
| Bounds.PadBBox | hooks/use-geodata.ts:132-144 | the padded box has the same centre and `padding` times the width and height |
| Bounds.PadContains | hooks/use-geodata.ts:132-144 | with padding ≥ 1 the padded box is ordered and contains the original |
| Bounds.PadPointBox | hooks/use-geodata.ts:132-144 | a zero-size box stays the same box |
| Bounds.DefaultPaddingContains | hooks/use-geodata.ts:131-132 | with the default padding of 1.2 the padded box contains the original and is 1.2 times as wide |
| Bounds.PadByOne | hooks/use-geodata.ts:132-144 | padding by 1 changes nothing |
| MockData.MockFeature | hooks/use-geodata.ts:160-214 | each mock feature is a Point inside the jitter box around the random centre |
| MockData.GenerateMock | hooks/use-geodata.ts:155-218 | 24, 40 or 15 Point features per preset, never empty, all inside the jitter box, so a bounding box always exists |
| Http.FailureMessage | hooks/use-geodata.ts:243 | an HTTP failure's message is "HTTP " followed by the status code |
| Http.HttpMessagesDistinct | hooks/use-geodata.ts:243 | different status codes give different messages |
| GeoData.Begin | hooks/use-geodata.ts:238-240 | a fetch starts with loading on, no error, no mock flag, and the old data still shown |
| GeoData.UrlOutcome | hooks/use-geodata.ts:241-259 | a collection is committed as is; a Feature is wrapped; any other payload is "Invalid GeoJSON"; HTTP and network failures carry their message |
| GeoData.FetchByUrl | hooks/use-geodata.ts:237-263 | loading ends, the mock flag stays off, and exactly one of data and error is set: the collection (even empty), the wrapped Feature, or the error with no data |
| GeoData.FetchPreset | hooks/use-geodata.ts:265-293 | loading ends with no error and non-empty data; the mock flag is set exactly when the response is not a non-empty collection or a Feature, and the data is then the mock collection |
| GeoData.Clear | hooks/use-geodata.ts:295-299 | data, error and the mock flag are reset and loading is untouched |
| GeoData.ClearIdempotent | hooks/use-geodata.ts:295-299 | clearing twice is clearing once |
| GeoData.DerivedBBox | hooks/use-geodata.ts:301 | no box without data; with data, the box of its features |
| GeoData.FetchByUrlForgetsPast | hooks/use-geodata.ts:237-263 | a completed URL fetch leaves a state that does not depend on the state before it |
| GeoData.FetchPresetForgetsPast | hooks/use-geodata.ts:265-293 | a completed preset fetch leaves a state that does not depend on the state before it |
| GeoData.OverlappingUrlFetchesKeepStaleError | hooks/use-geodata.ts:237-263 | two overlapping URL fetches, the first failing before the second succeeds, end with the second's data and the first's error both set |
| OpenAQ.FindPm25 | hooks/use-openaq.ts:36-38 | the first measurement whose parameter is "pm25" or whose parameterId is 2, or none |
| OpenAQ.ResolvePm25 | hooks/use-openaq.ts:34-42 | with measurements, the found measurement's value, falling back to `row.value` when none is found or its value is nullish; without measurements, `row.value` |
| OpenAQ.RowFeature | hooks/use-openaq.ts:30-56 | a row yields a feature exactly when it has latitude, longitude and a numeric pm25; the point is [lon, lat]; locationId and datetime appear exactly when present |
| OpenAQ.ToFeatures | hooks/use-openaq.ts:29-57 | at most one feature per row; each is a numeric-pm25 Point made from some row |
| OpenAQ.ToFeaturesAppend | hooks/use-openaq.ts:29-57 | the conversion works row by row in order: converting a concatenation concatenates the results |
| OpenAQ.ToFeaturesCount | hooks/use-openaq.ts:29-57 | the feature count is the number of accepted rows |
| OpenAQ.MissingCoordinatesSkipped | hooks/use-openaq.ts:30-32 | a row without latitude or longitude produces no feature |
| OpenAQ.SingleRow | hooks/use-openaq.ts:29-57 | a one-row response gives that row's feature or nothing |
| OpenAQ.ToGeoJSON | hooks/use-openaq.ts:25-60 | no `results` gives an empty collection; otherwise the features are the converted rows, in row order, never more than the rows, each a Point reading with a numeric `pm25` |
| OpenAQ.Refresh | hooks/use-openaq.ts:74-88 | loading ends; success sets the converted data with no error; failure sets the error with no data |
| MapEngine.IndexOf | components/map/map-viewport.tsx:163-168 | the first position of a layer id |
| MapEngine.AddSource | components/map/map-viewport.tsx:149-153 | adds exactly the new source; layers and other sources unchanged; well-formedness kept |
| MapEngine.RemoveSource | components/map/map-viewport.tsx:390 | removes exactly that unused source; layers unchanged; well-formedness kept |
| MapEngine.AddLayer | components/map/map-viewport.tsx:178-188 | the layer lands just below the anchor, or on top without one; one layer more; sources unchanged |
| MapEngine.AddLayerKeepsOthers | components/map/map-viewport.tsx:178-188 | the layers below the insertion point stay in place and those above shift up by one |
| MapEngine.AddLayerIds | components/map/map-viewport.tsx:178-188 | afterwards the ids are the old ones plus the new layer's |
| MapEngine.AddLayerWellFormed | components/map/map-viewport.tsx:178-188 | adding a layer keeps ids distinct and every layer's source present |
| MapEngine.RemoveLayer | components/map/map-viewport.tsx:389 | the id is gone and the stack is shorter; sources unchanged |
| MapEngine.RemoveLayerKeepsOthers | components/map/map-viewport.tsx:389 | every other layer and id is kept, and no layer appears from nowhere |
| MapEngine.RemoveLayerWellFormed | components/map/map-viewport.tsx:389 | on a well-formed map exactly one layer goes and the map stays well formed |
| MapEngine.RemoveUndoesAdd | components/map/map-viewport.tsx:389-395 | removing the layer just added restores the map |
| MapEngine.RemoveUndoesAddSource | components/map/map-viewport.tsx:390-394 | removing the source just added restores the map |
| MapEngine.SetVisibility | components/map/map-viewport.tsx:339-343 | only the named layer's visibility changes; ids and well-formedness kept |
| MapEngine.SetVisibilityTwice | components/map/map-viewport.tsx:339-343 | only the last visibility written counts |
| MapEngine.SetOpacity | components/map/map-viewport.tsx:324-325 | only the named layer's opacity changes; ids and well-formedness kept |
| MapEngine.SetTiles | components/map/map-viewport.tsx:353-355 | only that source's tile list changes; layers unchanged |
| Viewport.Co2TileUrl | components/map/map-viewport.tsx:37-39 | the URL is the fixed prefix, the date verbatim, and the fixed suffix |
| Viewport.Co2TimeRoundTrip | components/map/map-viewport.tsx:37-39 | the date can be read back out of the URL |
| Viewport.Co2TileUrlInjective | components/map/map-viewport.tsx:37-39 | different dates give different URLs |
| Viewport.FirstLabel | components/map/map-viewport.tsx:163-168 | the first symbol layer with a text field, or none |
| Viewport.FindBeforeId | components/map/map-viewport.tsx:161-168 | the loop's anchor is the first text-label layer's id, which is also what the `find` at lines 231-233 returns |
| Viewport.LabelAnchor | components/map/map-viewport.tsx:231-233 | the anchor, when there is one, is a layer of the map |
| Viewport.EnsureSource | components/map/map-viewport.tsx:148-158 | an existence-guarded `addSource`: the source is present afterwards, an existing one is never replaced, layers untouched |
| Viewport.LoadBase | components/map/map-viewport.tsx:148-223 | the terrain, sentinel, esri and CO₂ sources exist afterwards, nothing earlier is lost, and the CO₂ layer is not created yet |
| Viewport.LoadOverlays | components/map/map-viewport.tsx:226-289 | the buildings source and the CO₂ layer exist afterwards, nothing earlier is lost, and only the buildings source is new |
| Viewport.EnsureSourceAndLayer | components/map/map-viewport.tsx:169-189 | an existence-guarded add: no change when the source exists; otherwise the source and the layer at the anchor |
| Viewport.OnLoad | components/map/map-viewport.tsx:143-293 | after load every handler source and layer exists, and every earlier source and layer is kept unchanged |
| Viewport.OnLoadWellFormed | components/map/map-viewport.tsx:143-293 | the load handler keeps ids distinct and sources resolved |
| Viewport.OnLoadIdempotent | components/map/map-viewport.tsx:148-289 | running the handler again adds nothing: every add is guarded |
| Viewport.OnLoadFresh | components/map/map-viewport.tsx:160-289 | on a fresh style the stack gains sentinel, esri, co2, 3d-buildings as one block just below the first text label, or on top; the CO₂ source shows the chosen date |
| Viewport.OnLoadCo2Hidden | components/map/map-viewport.tsx:276-289 | after the load handler the CO₂ layer exists, ids are distinct, and it starts hidden |
| Viewport.Co2ShownOnlyWhenEnabled | components/map/map-viewport.tsx:277-288 | the CO₂ layer is hidden after load and visible only when the overlay is enabled |
| Viewport.ToggleLayer | components/map/map-viewport.tsx:335-344 | before load nothing changes; after load only the named layer's visibility follows the flag, and absent layers are skipped |
| Viewport.ToggleLastWins | components/map/map-viewport.tsx:335-344 | only the last toggle counts |
| Viewport.ToggleWellFormed | components/map/map-viewport.tsx:335-344 | a toggle keeps every id in place and the map well formed |
| Viewport.OpenAQVisibilityEffect | components/map/map-viewport.tsx:479-486 | only the two OpenAQ layers' visibility changes, and only after load |
| Viewport.Co2DateEffect | components/map/map-viewport.tsx:347-356 | after load with a date, only the CO₂ source's tiles become that date's URL; before load or without a date nothing changes; layers never change |
| Viewport.Co2DateRoundTrip | components/map/map-viewport.tsx:347-356 | the CO₂ tiles show the last date chosen, and it can be read back |
| Viewport.Co2DateAppliesAfterLoad | components/map/map-viewport.tsx:216-223 | the CO₂ source created at load is a tile source, so later date changes apply to it |
| Viewport.CinematicFlyTo | components/map/map-viewport.tsx:90-112 | the camera request frames the box with padding 80, max zoom 14, pitch 45, bearing 0, 3200 ms |
| Viewport.FlyToEffect | components/map/map-viewport.tsx:371-374 | a flight is requested exactly when there is a box and the map is loaded |
| Viewport.FlyToFramesBox | components/map/map-viewport.tsx:90-112 | every point of the box lies within the requested corners |
| Viewport.DropLayer | components/map/map-viewport.tsx:389 | the guarded removal removes the layer when present and does nothing otherwise |
| Viewport.DropSource | components/map/map-viewport.tsx:390 | the guarded removal removes exactly that source |
| Viewport.ReconcileGeodata | components/map/map-viewport.tsx:385-414 | no change before load; afterwards the geodata source and layer exist exactly when there is data, the layer on top and the source holding that data; everything else unchanged |
| Viewport.ReconcileGeodataKeepsOthers | components/map/map-viewport.tsx:385-414 | the rest of the stack and the other sources are unchanged, and there is at most one geodata layer |
| Viewport.ReconcileGeodataReplaces | components/map/map-viewport.tsx:385-414 | reconciling twice is reconciling once with the newer data, so the same data twice gives the same state |
| Viewport.ReconcileGeodataDependsOnRest | components/map/map-viewport.tsx:389-390 | the result does not depend on what geodata layer or source was there before |
| Viewport.WithoutOpenAQ | components/map/map-viewport.tsx:421-422 | neither OpenAQ layer remains |
| Viewport.ClearOpenAQ | components/map/map-viewport.tsx:421-423 | the OpenAQ layers and source are removed and nothing else |
| Viewport.AddOpenAQ | components/map/map-viewport.tsx:427-475 | the source is added and the two layers are inserted as [openaq-layer, openaq-glow] just below 3d-buildings |
| Viewport.ReconcileOpenAQWith | components/map/map-viewport.tsx:417-476 | no change before load; afterwards the OpenAQ source and layers exist exactly when there is data, with everything else unchanged |
| Viewport.ReconcileOpenAQOrder | components/map/map-viewport.tsx:428-475 | openaq-layer, then openaq-glow, then 3d-buildings, directly adjacent |
| Viewport.ReconcileOpenAQKeepsOthers | components/map/map-viewport.tsx:417-476 | the other layers keep their ids and at most one of each OpenAQ layer exists |
| Viewport.ReconcileOpenAQReplaces | components/map/map-viewport.tsx:417-476 | reconciling twice is reconciling once with the newer data |
| Viewport.ReconcileOpenAQ | components/map/map-viewport.tsx:417-476 | with data, both OpenAQ layers are present and visible, whatever the toggle |
| Viewport.OpenAQRefreshIgnoresToggle | components/map/map-viewport.tsx:417-486 | after a data refresh the layers are visible, and applying the "off" toggle would change them |
| Viewport.ReconcileOpenAQShown | components/map/map-viewport.tsx:479-486 | the corrected reconcile creates the layers with the toggle's visibility, so the toggle effect has nothing left to change |
| Viewport.OpenAQShownSettled | components/map/map-viewport.tsx:417-486 | after the corrected reconcile the visibility effect is a no-op, whatever the toggle |
| Viewport.OnClick | components/map/map-viewport.tsx:489-518 | a feature is reported exactly when the geodata layer exists, the query succeeds, hits something and the first hit has a geometry; its properties default to {} |
| Viewport.ClickNeedsData | components/map/map-viewport.tsx:489-518 | with no data loaded every click reports nothing |
| CrossFade.TargetsExclusive | components/map/map-viewport.tsx:309-310 | sentinel is 1 only for satellite and esri is 1 only for high-res, so at most one target is 1 |
| CrossFade.Progress | components/map/map-viewport.tsx:317-318 | t lies in [0, 1] for elapsed ≥ 0 and is 1 exactly from 600 ms |
| CrossFade.EaseEnds | components/map/map-viewport.tsx:319 | the easing maps 0, 0.5 and 1 to themselves |
| CrossFade.EaseRange | components/map/map-viewport.tsx:319 | the easing stays in [0, 1] |
| CrossFade.EaseMonotone | components/map/map-viewport.tsx:319 | the easing is monotone |
| CrossFade.LerpBetween | components/map/map-viewport.tsx:320-321 | the interpolated value lies between start and target, equal to them at the ends |
| CrossFade.Weight | components/map/map-viewport.tsx:317-319 | the eased weight lies in [0, 1], is 0 at the start and 1 once the fade is complete |
| CrossFade.Begin | components/map/map-viewport.tsx:305-315 | a fade starts from the current refs and aims at the chosen base layer's targets |
| CrossFade.Tick | components/map/map-viewport.tsx:316-327 | each frame's opacities lie between start and target; another frame is scheduled exactly while under 600 ms; the last frame is the target; the first instant is the start |
| CrossFade.Play | components/map/map-viewport.tsx:316-328 | at most one sample per frame; the refs end at the last sample, or unchanged with none |
| CrossFade.TickMonotone | components/map/map-viewport.tsx:316-327 | the opacities move monotonically toward the target over time |
| CrossFade.PlayBetween | components/map/map-viewport.tsx:316-328 | every sampled frame of a fade lies between start and target |
| CrossFade.PlayFinishes | components/map/map-viewport.tsx:326-328 | frames stop at the first one past 600 ms, which leaves the refs at the target |
| CrossFade.RetargetContinuous | components/map/map-viewport.tsx:311-312 | a new fade starts from the last sampled opacities |
| CrossFade.ApplyFrame | components/map/map-viewport.tsx:324-325 | a frame sets exactly the two base layers' opacities; every layer id is kept |
| CrossFade.ApplyFrameTwice | components/map/map-viewport.tsx:324-325 | a later frame overwrites everything an earlier frame wrote |
| CrossFade.ApplyAllLast | components/map/map-viewport.tsx:316-328 | after a run of frames the map shows exactly the last one |
| CrossFade.FrameShows | components/map/map-viewport.tsx:324-325 | after a frame the Sentinel-2 and Esri layers carry its two opacities |
| CrossFade.CrossFadeEffect | components/map/map-viewport.tsx:303-331 | before load or with either raster missing nothing changes; otherwise the refs end where the played fade leaves them and no source changes |
| CrossFade.CrossFadeSettles | components/map/map-viewport.tsx:303-331 | once a frame comes 600 ms after the change, the refs and both layers' opacities are the new base layer's targets |
| CrossFade.FadeStaysInUnit | components/map/map-viewport.tsx:311-323 | from refs in [0, 1], every written opacity and the final refs stay in [0, 1] |
| CrossFade.FirstFadeInUnit | components/map/map-viewport.tsx:84-85 | the refs start at 0, the first fade stays in [0, 1], and a first fade to the vector map keeps both at 0 |
| Tour.Start | components/map/map-viewport.tsx:535-549 | without a map nothing happens; otherwise the Alps flight is issued and a listener waits |
| Tour.MoveEnd | components/map/map-viewport.tsx:549-571 | a waiting listener stays within the three stops |
| Tour.MoveEnds | components/map/map-viewport.tsx:549-571 | any number of `moveend` events keeps the tour within its three stops |
| Tour.MoveEndsAdvance | components/map/map-viewport.tsx:549-571 | each `moveend` issues the next stop in order until the three are flown |
| Tour.TourIssuesPrefix | components/map/map-viewport.tsx:535-572 | after n `moveend` events the flights issued are the first min(n+1, 3) of Alps, New York, Global |
| Tour.NoMapNoFlights | components/map/map-viewport.tsx:536 | with no map no flight is ever issued |
| Strings.ParseNatToString | components/map/timeline-slider.tsx:8-9 | printing a number in decimal and reading it back gives the number |
| Strings.NatToString | components/map/timeline-slider.tsx:8-9 | `String(n)`: at least one digit, no leading zero |
| Strings.NatToStringInjective | components/map/data-listing.tsx:60 | different numbers print differently |
| Strings.IntToString | components/map/timeline-slider.tsx:7 | `String(year)`: non-empty, with a minus sign exactly for negative years |
| Strings.IntToStringInjective | components/map/timeline-slider.tsx:7-10 | different years print differently |
| Strings.PadTwo | components/map/timeline-slider.tsx:8-9 | `padStart(2, "0")` gives digits reading back as the number, two of them below 100 |
| Strings.PadTwoInjective | components/map/timeline-slider.tsx:8-9 | different months or days pad differently |
| Strings.ToFixed | hooks/use-geodata.ts:172 | `toFixed` gives digits with a point before the last `digits`, reading back as the value rounded half up |
| Strings.Trim | components/map/map-dashboard.tsx:41 | the result is the input less leading and trailing whitespace, and empty exactly for all-whitespace input |
| Strings.TrimIdempotent | components/map/map-dashboard.tsx:41 | trimming twice is trimming once |
| Calendar.NextPrev | components/map/timeline-slider.tsx:19-20 | going back a day and forward a day, in either order, returns the date |
| Calendar.NextDay | components/map/timeline-slider.tsx:19-20 | the next calendar day of a valid date is valid |
| Calendar.PrevDay | components/map/timeline-slider.tsx:19-20 | `setDate(getDate() - 1)`: the previous calendar day of a valid date is valid |
| Calendar.DaysInMonth | components/map/timeline-slider.tsx:19-20 | every month has 28 to 31 days |
| Calendar.PrevDayEarlier | components/map/timeline-slider.tsx:19-20 | the previous day is strictly earlier |
| Calendar.KeyInjective | components/map/timeline-slider.tsx:19-20 | the chronological key tells valid dates apart |
| Calendar.Format | components/map/timeline-slider.tsx:6-11 | the year, a dash, the two-digit month, a dash, the two-digit day |
| Calendar.FormatFields | components/map/timeline-slider.tsx:8-9 | the month and day fields read back as the 1-based month and the day |
| Calendar.FormatInjective | components/map/timeline-slider.tsx:6-11 | different dates give different texts |
| Timeline.Window | components/map/timeline-slider.tsx:14-24 | exactly 30 entries, entry i being the date 29 − i days before today |
| Timeline.WindowEndsToday | components/map/timeline-slider.tsx:18-22 | the last entry is today |
| Timeline.WindowConsecutive | components/map/timeline-slider.tsx:18-22 | neighbouring entries are consecutive days |
| Timeline.WindowOrdered | components/map/timeline-slider.tsx:18-22 | entries run from oldest to newest |
| Timeline.DaysBeforeEarlier | components/map/timeline-slider.tsx:18-22 | stepping further back always reaches a strictly earlier day |
| Timeline.WindowDistinct | components/map/timeline-slider.tsx:14-24 | no date appears twice |
| Timeline.FirstIndex | components/map/timeline-slider.tsx:31 | `indexOf`: the first position holding the string, or −1 exactly when absent |
| Timeline.DateToIndex | components/map/timeline-slider.tsx:30-33 | always in [0, 29]; the date's position when present, 29 otherwise |
| Timeline.DateToIndexExact | components/map/timeline-slider.tsx:26-33 | looking up entry i gives i |
| Timeline.DisplayDate | components/map/timeline-slider.tsx:43-44 | the badge always shows a window date: the value when in the window, today otherwise |
| Timeline.Clamp | components/map/timeline-slider.tsx:48 | any position is clamped into [0, 29], in-range positions unchanged |
| Timeline.SliderChange | components/map/timeline-slider.tsx:46-50 | the slider always emits a window date |
| Timeline.SliderRoundTrip | components/map/timeline-slider.tsx:30-50 | the emitted date's position is the clamped slider position |
| Compass.Normalize | components/map/performance-hud.tsx:10 | the normalised bearing lies in [0, 360) for every input |
| Compass.NormalizeIsEuclidean | components/map/performance-hud.tsx:10 | the double truncating remainder equals the bearing less a whole number of turns, reduced into [0, 360) |
| Compass.NormalizePeriodic | components/map/performance-hud.tsx:10 | bearings a turn apart normalise alike |
| Compass.DirIndex | components/map/performance-hud.tsx:11 | the index is always in [0, 16) |
| Compass.BearingToCompass | components/map/performance-hud.tsx:8-12 | the result is always one of the sixteen points |
| Compass.DirSector | components/map/performance-hud.tsx:11 | point i covers the 22.5° sector centred on 22.5·i; from 348.75° the index wraps to north |
| Compass.CompassPeriodic | components/map/performance-hud.tsx:8-12 | bearings b and b + 360 name the same point |
| Compass.CompassInSector | components/map/performance-hud.tsx:9-11 | a bearing in point i's sector names point i |
| Compass.CompassCardinals | components/map/performance-hud.tsx:9-11 | k quarter turns (k = 0..3) name N, E, S and W |
| Compass.CompassWraps | components/map/performance-hud.tsx:9-11 | a negative bearing is read modulo a turn (−90 → W) and 350 wraps to N |
| Dashboard.Initial | components/map/map-dashboard.tsx:20-24 | vector base map, 3D buildings and CO₂ off, empty URL, yesterday selected |
| Dashboard.InitialDateOnTimeline | components/map/map-dashboard.tsx:12-22 | when UTC and local days agree, the initial date sits at the timeline's second-to-last position and is shown as is |
| Dashboard.FlyToBbox | components/map/map-dashboard.tsx:38 | there is a box to fly to exactly when there is a data box |
| Dashboard.FlyToContainsData | components/map/map-dashboard.tsx:38 | the padded box keeps the data's centre and contains the data box |
| Dashboard.NoDataNoFlight | components/map/map-dashboard.tsx:38 | without data there is nothing to fly to |
| Dashboard.CustomUrlRequest | components/map/map-dashboard.tsx:40-42 | a fetch is requested exactly when the URL is not all whitespace, with the trimmed URL |
| Dashboard.CustomUrlIgnoresPadding | components/map/map-dashboard.tsx:40-42 | surrounding whitespace does not change the request |
| Dashboard.FetchCustomUrl | components/map/map-dashboard.tsx:40-42 | a blank URL leaves the data state alone; otherwise the trimmed URL is fetched |
| Dashboard.FetchCustomUrlIgnoresPadding | components/map/map-dashboard.tsx:40-42 | surrounding whitespace does not change the outcome |
| Dashboard.HasData | components/map/map-dashboard.tsx:80 | `hasData` holds exactly when there is at least one feature |
| Dashboard.HasDataAfterFetches | components/map/map-dashboard.tsx:77-80 | after a preset fetch there is always data; after clearing there is none |
| DataListing.FirstPresent | components/map/data-listing.tsx:55-59 | the `??` chain picks the first key whose value is neither null nor missing |
| DataListing.RowLabel | components/map/data-listing.tsx:55-60 | the fallback "Feature i+1" is used exactly when title, place, common_name and id are all null or missing |
| DataListing.TitleWins | components/map/data-listing.tsx:56 | a non-null title is the label, even an empty one |
| DataListing.FallbackLabelsDistinct | components/map/data-listing.tsx:60 | fallback labels of different rows differ |
| DataListing.RowSubLabel | components/map/data-listing.tsx:61-65 | a truthy mag wins, then a truthy height, then a non-null anomaly type, else nothing |
| DataListing.SubLabelShownWhen | components/map/data-listing.tsx:61-93 | the styled second line is drawn exactly when mag, height or anomaly type is truthy |
| DataListing.SubLineOf | components/map/data-listing.tsx:86-93 | a truthy sub-label gives the styled line, the anomaly type 0 gives React's bare "0", any other falsy value gives nothing |
| DataListing.SubLineWhen | components/map/data-listing.tsx:61-93 | the bare "0" appears exactly for `anomaly_type: 0` behind a falsy mag and height; nothing is drawn exactly when none of the three is truthy and the anomaly type is not 0 |
| DataListing.ZeroAnomalyShowsBareZero | components/map/data-listing.tsx:61-93 | a feature whose properties are just `{anomaly_type: 0}` shows a bare "0" under its label |
| DataListing.Render | components/map/data-listing.tsx:21-53 | nothing for null or empty data; otherwise the count equals the number of rows and of features, one row per feature in order |
| DataListing.RenderMatchesViewport | components/map/data-listing.tsx:21-24 | the listing is drawn exactly when the viewport draws the geodata layer |
| DataListing.RowReadsOwnFeature | components/map/data-listing.tsx:53-65 | each row's label and sub-label come from its own feature |
| DataListing.ToggleVisible | components/map/data-listing.tsx:32 | the list's visibility flips and the expanded row is kept |
| DataListing.ToggleExpanded | components/map/data-listing.tsx:100 | a row toggle expands that row unless it was expanded, in which case nothing is |
| DataListing.ExpandedIsLastTapped | components/map/data-listing.tsx:100 | after any taps the expanded row is the last one tapped, so at most one row is expanded |
| DataListing.ToggleTwice | components/map/data-listing.tsx:100 | toggling a row twice restores that row and leaves the others collapsed |
| DataListing.ToggleCollapsesOthers | components/map/data-listing.tsx:100 | expanding a row collapses any other |

## Left out

- Network, CORS, JSON parsing and HTTP are an abstract `Response` (network error, HTTP status, or a parsed body). The URL fetched is a parameter. Which error message a network failure carries is not modelled beyond "some message".
- `Math.random`, `Date.now()` and the clock are parameters. They appear as the mock generator's draws, "today" (a civil date) for the timeline, the UTC "yesterday" string for the dashboard, and frame timestamps for the cross-fade.
- MockData.MockFeature: `Date.now()` and `new Date()` are read once per generation, as `nowMs` and `today`, and shared by every feature. The source reads the clock again for each feature (hooks/use-geodata.ts:174 and :211). So consecutive earthquake `time` values can differ by slightly more than 3600000 ms, and the anomalies' `date` can change if midnight passes during the loop. No contract depends on this.
- Dashboard.InitialDateOnTimeline: `getYesterdayYYYYMMDD` takes the UTC date, while the timeline uses local dates. The lemma assumes the two agree. Around midnight in zones far from UTC they differ, and the initial date can then fall outside the window.
- Numbers are mathematical reals and integers. NaN, infinities and IEEE rounding are not modelled. This covers `Number(e.target.value)` being NaN, and `toFixed` on huge values. `toFixed` is modelled only for non-negative inputs, which are all the mock generator produces.
- GeoJson.DecodeFeature: a `null` element of `features` passes `isFeatureCollection` and is committed by the source. The source then throws a TypeError during render, when `computeBBox` reads `f.geometry` or the data listing reads `f.properties`. The model has no render crash and reads `null` as a feature with no geometry and no properties. Other non-object elements (a number, a string, a boolean, an array) do not crash the source: `f.geometry` is `undefined`, so `computeBBox` skips them, and `f.properties ?? {}` gives `{}`. That is what the model does for them.
- GeoJson.DecodeGeometry: malformed coordinates under a supported geometry type read as an unsupported geometry. The source would compute NaN or throw on them.
- The map is abstract. Style loading (`getStyle()` returning null), `setTerrain`, camera maths inside `fitBounds`/`flyTo`, paint expressions (colour ramps) and tile fetching are not modelled. Layer paint is reduced to an opacity and layout to a visibility.
- MapLibre's rejections (a duplicate id, a missing anchor or source, a source still in use) are preconditions of the engine operations, not error paths. The viewport code guards or orders its calls so that none is hit.
- `Viewport.Co2DateEffect`: `setTiles` exists only on tile sources, so the effect is modelled as doing nothing on any other source type. An undefined or empty `selectedDate` is one case, the empty string.
- A missing map instance (`mapInstanceRef.current` null) is folded into the `loaded` flag, as both guards end the effect the same way.
- `queryRenderedFeatures` is a parameter of the click handler: the list of hits or a thrown error.
- React scheduling (when effects run, re-renders, `useMemo`), `requestAnimationFrame` and the cancel on clean-up are not modelled. Frames are a sequence of timestamps, and one effect run is one function application.
- Overlapping fetches: the code commits whichever response settles last and never discards a stale one. `GeoData.OverlappingUrlFetchesKeepStaleError` shows this leaves both data and an error. No stale-response guard is modelled, because the code has none.
- OpenAQ.Row: the row follows the declared TypeScript types of the API response. `locationId` and `datetime` are strings, and the coordinates are numbers or absent. The `String(...)` conversions of hooks/use-openaq.ts:53-54 are then the identity. A non-numeric latitude or longitude, which passes the `== null` test at hooks/use-openaq.ts:32 and would be copied into the Point, is not modelled.
- Concurrent tours: each call of `startCinematicTour` is its own state machine. Interleaved `moveend` listeners from two tours are not modelled.
- The HUD other than `bearingToCompass` (FPS, zoom and pitch read-outs, the map subscription) is not modelled.
- The remaining components (controls, legend, data inspector, mock webpage) and the pages and configuration are pure presentation. `ROW_HEIGHT_REM` and the other layout constants are presentation too.
- `String(label)` and `${props.mag}` print arbitrary JSON values. The listing keeps the value itself, `PropertyLabel`, rather than its printed text.

## Findings

| source | as written | input that shows it | evidently intended | confidence | as-written member | corrected member |
|---|---|---|---|---|---|---|
| components/map/map-viewport.tsx:417-486 | the OpenAQ reconcile re-creates both layers without a `visibility` layout, so they are visible. The visibility effect runs only when `loaded` or `openaqEnabled` changes, not when the data changes | loaded map with `openaqEnabled` false, then new non-empty `openaqData`: both OpenAQ layers are shown although the overlay is off | layers created with the visibility the toggle asks for | not executed | Viewport.OpenAQRefreshIgnoresToggle | Viewport.ReconcileOpenAQShown |

`Viewport.ReconcileOpenAQ` is the reconcile as written. `Viewport.ReconcileOpenAQShown` is the corrected one: it creates the layers with `VisibilityOf(enabled)`. The dashboard does not pass `openaqData` or `openaqEnabled` today, so nothing on screen shows this yet.

=== FILE: bounds.dfy ===
/** Bounding boxes of GeoJSON data (hooks/use-geodata.ts): `bboxFromGeometry`,
    `computeBBox` and `padBBox`, over exact reals. JavaScript's running
    `Infinity` / `-Infinity` accumulators are modelled as "no box yet" (`None`). */
module Bounds {
  import opened Wrappers
  import opened GeoJson

  /** `[minLon, minLat, maxLon, maxLat]`. */
  datatype BBox = BBox(minLon: real, minLat: real, maxLon: real, maxLat: real)

  predicate Ordered(b: BBox) {
    b.minLon <= b.maxLon && b.minLat <= b.maxLat
  }

  predicate Inside(p: Position, b: BBox) {
    b.minLon <= p.lon <= b.maxLon && b.minLat <= p.lat <= b.maxLat
  }

  predicate ContainsBox(outer: BBox, inner: BBox) {
    && outer.minLon <= inner.minLon && inner.maxLon <= outer.maxLon
    && outer.minLat <= inner.minLat && inner.maxLat <= outer.maxLat
  }

  function Min(a: real, b: real): real { if a <= b then a else b }
  function Max(a: real, b: real): real { if a >= b then a else b }

  /** One step of `expand`: widen the running box to take in `p`. */
  function Include(acc: Option<BBox>, p: Position): BBox {
    match acc
    case None => BBox(p.lon, p.lat, p.lon, p.lat)
    case Some(b) => BBox(Min(b.minLon, p.lon), Min(b.minLat, p.lat), Max(b.maxLon, p.lon), Max(b.maxLat, p.lat))
  }

  /** Every bound of `b` is attained by some position of `ps`. */
  predicate Attained(ps: seq<Position>, b: BBox) {
    && (exists i :: 0 <= i < |ps| && ps[i].lon == b.minLon)
    && (exists i :: 0 <= i < |ps| && ps[i].lat == b.minLat)
    && (exists i :: 0 <= i < |ps| && ps[i].lon == b.maxLon)
    && (exists i :: 0 <= i < |ps| && ps[i].lat == b.maxLat)
  }

  /** The `expand` loop over a list of positions, visited in order. */
  function Fold(ps: seq<Position>): Option<BBox> {
    if |ps| == 0 then None else Some(Include(Fold(ps[..|ps| - 1]), ps[|ps| - 1]))
  }

  lemma FoldBounds(ps: seq<Position>)
    ensures Fold(ps).None? <==> |ps| == 0
    ensures Fold(ps).Some? ==> Ordered(Fold(ps).value)
    ensures Fold(ps).Some? ==> forall i :: 0 <= i < |ps| ==> Inside(ps[i], Fold(ps).value)
    ensures Fold(ps).Some? ==> Attained(ps, Fold(ps).value)
  {
    FoldInside(ps);
    FoldAttained(ps);
  }

  /** Widening keeps the box ordered and every earlier position inside it. */
  lemma IncludeKeepsInside(prefix: seq<Position>, acc: Option<BBox>, p: Position)
    requires acc.None? ==> |prefix| == 0
    requires acc.Some? ==> Ordered(acc.value) && forall i :: 0 <= i < |prefix| ==> Inside(prefix[i], acc.value)
    ensures Ordered(Include(acc, p))
    ensures forall i :: 0 <= i < |prefix| + 1 ==> Inside((prefix + [p])[i], Include(acc, p))
  {
    assert forall i :: 0 <= i < |prefix| ==> (prefix + [p])[i] == prefix[i];
  }

  lemma {:induction false} FoldInside(ps: seq<Position>)
    ensures Fold(ps).Some? ==> Ordered(Fold(ps).value)
    ensures Fold(ps).Some? ==> forall i :: 0 <= i < |ps| ==> Inside(ps[i], Fold(ps).value)
  {
    if |ps| > 0 {
      var prefix := ps[..|ps| - 1];
      FoldInside(prefix);
      FoldAttained(prefix);
      IncludeKeepsInside(prefix, Fold(prefix), ps[|ps| - 1]);
      assert ps == prefix + [ps[|ps| - 1]];
    }
  }

  lemma {:induction false} FoldAttained(ps: seq<Position>)
    ensures Fold(ps).None? <==> |ps| == 0
    ensures Fold(ps).Some? ==> Attained(ps, Fold(ps).value)
  {
    if |ps| > 0 {
      var prefix := ps[..|ps| - 1];
      FoldAttained(prefix);
      IncludeKeepsAttained(prefix, Fold(prefix), ps[|ps| - 1]);
      assert ps == prefix + [ps[|ps| - 1]];
    }
  }

  /** The box the `expand` loop leaves: none for no positions, otherwise the
      least box holding all of them. */
  function BoxOf(ps: seq<Position>): (r: Option<BBox>)
    ensures r.None? <==> |ps| == 0
    ensures r.Some? ==> Ordered(r.value)
    ensures r.Some? ==> forall i :: 0 <= i < |ps| ==> Inside(ps[i], r.value)
    ensures r.Some? ==> Attained(ps, r.value)
  {
    FoldBounds(ps);
    Fold(ps)
  }

  lemma IncludeKeepsAttained(prefix: seq<Position>, acc: Option<BBox>, p: Position)
    requires acc.None? <==> |prefix| == 0
    requires acc.Some? ==> Attained(prefix, acc.value)
    ensures Attained(prefix + [p], Include(acc, p))
  {
    var ps := prefix + [p];
    var n := |prefix|;
    assert ps[n] == p;
    if acc.Some? {
      var b := acc.value;
      var i0 :| 0 <= i0 < n && prefix[i0].lon == b.minLon;
      var i1 :| 0 <= i1 < n && prefix[i1].lat == b.minLat;
      var i2 :| 0 <= i2 < n && prefix[i2].lon == b.maxLon;
      var i3 :| 0 <= i3 < n && prefix[i3].lat == b.maxLat;
      assert ps[i0] == prefix[i0] && ps[i1] == prefix[i1] && ps[i2] == prefix[i2] && ps[i3] == prefix[i3];
    }
  }

  /** Concatenates a list of lists. */
  function Flatten(xss: seq<seq<Position>>): (r: seq<Position>)
    ensures forall i :: 0 <= i < |xss| ==> forall p :: p in xss[i] ==> p in r
  {
    if |xss| == 0 then [] else xss[0] + Flatten(xss[1..])
  }

  function Flatten2(xsss: seq<seq<seq<Position>>>): seq<Position> {
    if |xsss| == 0 then [] else Flatten(xsss[0]) + Flatten2(xsss[1..])
  }

  /** Every position of a geometry, in the order `bboxFromGeometry` visits them. */
  function Positions(g: Geometry): seq<Position> {
    match g
    case Point(p) => [p]
    case MultiPoint(ps) => ps
    case LineString(ps) => ps
    case MultiLineString(ls) => Flatten(ls)
    case Polygon(rs) => Flatten(rs)
    case MultiPolygon(polys) => Flatten2(polys)
    case Other => []
  }

  /** `bboxFromGeometry`: null for geometry types outside the six and for
      geometries without positions; otherwise an ordered box holding every
      position, each of its bounds attained by one of them. */
  function BBoxFromGeometry(g: Geometry): (r: Option<BBox>)
    ensures r.None? <==> g.Other? || |Positions(g)| == 0
    ensures r.Some? ==> Ordered(r.value)
    ensures r.Some? ==> forall p :: p in Positions(g) ==> Inside(p, r.value)
    ensures r.Some? ==> Attained(Positions(g), r.value)
  {
    if g.Other? then None else BoxOf(Positions(g))
  }

  /** The box one feature contributes to `computeBBox`, if any. */
  function Contribution(f: Feature): Option<BBox> {
    if f.geometry.None? then None else BBoxFromGeometry(f.geometry.value)
  }

  /** Union of two optional boxes (min of mins, max of maxes). */
  function Union(a: Option<BBox>, b: Option<BBox>): Option<BBox> {
    match (a, b)
    case (None, _) => b
    case (_, None) => a
    case (Some(x), Some(y)) =>
      Some(BBox(Min(x.minLon, y.minLon), Min(x.minLat, y.minLat), Max(x.maxLon, y.maxLon), Max(x.maxLat, y.maxLat)))
  }

  /** The `for` loop of `computeBBox`, features visited in order. */
  function UnionAll(fs: seq<Feature>): Option<BBox> {
    if |fs| == 0 then None else Union(UnionAll(fs[..|fs| - 1]), Contribution(fs[|fs| - 1]))
  }

  lemma {:induction false} UnionAllBounds(fs: seq<Feature>)
    ensures UnionAll(fs).None? <==> forall i :: 0 <= i < |fs| ==> Contribution(fs[i]).None?
    ensures UnionAll(fs).Some? ==> Ordered(UnionAll(fs).value)
    ensures UnionAll(fs).Some? ==> forall i :: 0 <= i < |fs| && Contribution(fs[i]).Some? ==>
                                     ContainsBox(UnionAll(fs).value, Contribution(fs[i]).value)
  {
    if |fs| > 0 {
      var prefix := fs[..|fs| - 1];
      UnionAllBounds(prefix);
      assert forall i :: 0 <= i < |fs| - 1 ==> prefix[i] == fs[i];
      UnionContains(UnionAll(prefix), Contribution(fs[|fs| - 1]));
    }
  }

  /** `computeBBox`: skips features without geometry or without a box; null
      when none contributes; otherwise an ordered box containing every
      contributed box. */
  function ComputeBBox(fs: seq<Feature>): (r: Option<BBox>)
    ensures r.None? <==> forall i :: 0 <= i < |fs| ==> Contribution(fs[i]).None?
    ensures r.Some? ==> Ordered(r.value)
    ensures r.Some? ==> forall i :: 0 <= i < |fs| && Contribution(fs[i]).Some? ==>
                          ContainsBox(r.value, Contribution(fs[i]).value)
  {
    UnionAllBounds(fs);
    UnionAll(fs)
  }

  /** The union of ordered boxes is ordered, contains both, and is missing
      only when both are. */
  lemma UnionContains(a: Option<BBox>, b: Option<BBox>)
    requires a.Some? ==> Ordered(a.value)
    requires b.Some? ==> Ordered(b.value)
    ensures Union(a, b).None? <==> a.None? && b.None?
    ensures Union(a, b).Some? ==> Ordered(Union(a, b).value)
    ensures a.Some? ==> ContainsBox(Union(a, b).value, a.value)
    ensures b.Some? ==> ContainsBox(Union(a, b).value, b.value)
  {
  }

  /** Widening a union by one position is the union with the widened
      second box. */
  lemma IncludeUnion(x: Option<BBox>, y: Option<BBox>, p: Position)
    ensures Some(Include(Union(x, y), p)) == Union(x, Some(Include(y, p)))
  {
  }

  lemma {:induction false} FoldAppend(a: seq<Position>, b: seq<Position>)
    ensures Fold(a + b) == Union(Fold(a), Fold(b))
  {
    if |b| > 0 {
      var b' := b[..|b| - 1];
      var p := b[|b| - 1];
      var ab := a + b;
      assert ab[..|ab| - 1] == a + b' && ab[|ab| - 1] == p;
      FoldAppend(a, b');
      IncludeUnion(Fold(a), Fold(b'), p);
    } else {
      assert a + b == a;
    }
  }

  /** Boxing two lists of positions one after the other is the union of
      their boxes. */
  lemma BoxOfAppend(a: seq<Position>, b: seq<Position>)
    ensures BoxOf(a + b) == Union(BoxOf(a), BoxOf(b))
  {
    FoldAppend(a, b);
  }

  lemma ContributionFold(f: Feature)
    ensures Contribution(f) == Fold(SupportedPositions(f))
  {
  }

  lemma {:induction false} UnionAllFold(fs: seq<Feature>)
    ensures UnionAll(fs) == Fold(AllPositionsOfSupported(fs))
  {
    if |fs| > 0 {
      var prefix := fs[..|fs| - 1];
      var f := fs[|fs| - 1];
      UnionAllFold(prefix);
      FoldAppend(AllPositionsOfSupported(prefix), SupportedPositions(f));
      ContributionFold(f);
    }
  }

  /** `computeBBox` is the box of every position of every feature with a
      geometry of one of the six types: unioning per-feature boxes is the
      same as one `expand` pass over all their positions. */
  lemma ComputeBBoxIsBoxOfAllPositions(fs: seq<Feature>)
    ensures ComputeBBox(fs) == BoxOf(AllPositionsOfSupported(fs))
  {
    UnionAllFold(fs);
  }

  /** The positions one feature contributes (none for a missing geometry;
      `Positions` has none for a geometry outside the six types). */
  function SupportedPositions(f: Feature): seq<Position> {
    if f.geometry.None? then [] else Positions(f.geometry.value)
  }

  function AllPositionsOfSupported(fs: seq<Feature>): seq<Position> {
    if |fs| == 0 then []
    else AllPositionsOfSupported(fs[..|fs| - 1]) + SupportedPositions(fs[|fs| - 1])
  }

  /** The single Point (10, 20) has the box [10, 20, 10, 20]. */
  lemma SinglePointBox()
    ensures ComputeBBox([Feature(Some(Point(Position(10.0, 20.0))), map[])]) == Some(BBox(10.0, 20.0, 10.0, 20.0))
  {
    var fs := [Feature(Some(Point(Position(10.0, 20.0))), map[])];
    assert fs[..0] == [];
  }

  /** The default `padding` of `padBBox`. */
  const DefaultPadding: real := 1.2

  function Center(a: real, b: real): real { (a + b) / 2.0 }

  /** `padBBox`: the same centre, half-width and half-height scaled by `padding`. */
  function PadBBox(b: BBox, padding: real): (r: BBox)
    ensures Center(r.minLon, r.maxLon) == Center(b.minLon, b.maxLon)
    ensures Center(r.minLat, r.maxLat) == Center(b.minLat, b.maxLat)
    ensures r.maxLon - r.minLon == padding * (b.maxLon - b.minLon)
    ensures r.maxLat - r.minLat == padding * (b.maxLat - b.minLat)
  {
    var cLon := (b.minLon + b.maxLon) / 2.0;
    var cLat := (b.minLat + b.maxLat) / 2.0;
    var halfW := ((b.maxLon - b.minLon) / 2.0) * padding;
    var halfH := ((b.maxLat - b.minLat) / 2.0) * padding;
    BBox(cLon - halfW, cLat - halfH, cLon + halfW, cLat + halfH)
  }

  /** With `padding >= 1` the padded box contains the original one. */
  lemma PadContains(b: BBox, padding: real)
    requires Ordered(b) && padding >= 1.0
    ensures Ordered(PadBBox(b, padding))
    ensures ContainsBox(PadBBox(b, padding), b)
  {
    var w := b.maxLon - b.minLon;
    var h := b.maxLat - b.minLat;
    assert padding * w >= w;
    assert padding * h >= h;
  }

  /** The default padding also contains the original box, and grows each
      side by a fifth. */
  lemma DefaultPaddingContains(b: BBox)
    requires Ordered(b)
    ensures ContainsBox(PadBBox(b, DefaultPadding), b)
    ensures PadBBox(b, DefaultPadding).maxLon - PadBBox(b, DefaultPadding).minLon == 1.2 * (b.maxLon - b.minLon)
  {
    PadContains(b, DefaultPadding);
  }

  /** A zero-size box stays the same box whatever the padding. */
  lemma PadPointBox(b: BBox, padding: real)
    requires b.minLon == b.maxLon && b.minLat == b.maxLat
    ensures PadBBox(b, padding) == b
  {
  }

  /** Padding by 1 changes nothing. */
  lemma PadByOne(b: BBox)
    ensures PadBBox(b, 1.0) == b
  {
  }
}

=== FILE: calendar.dfy ===
/** Civil dates as the timeline and the dashboard handle them: the
    proleptic Gregorian calendar, one day forward or back, and the
    `YYYY-MM-DD` text of `formatDateYYYYMMDD`
    (components/map/timeline-slider.tsx). */
module Calendar {
  import opened Strings

  datatype Date = Date(year: int, month: nat, day: nat)

  predicate IsLeap(y: int) {
    (y % 4 == 0 && y % 100 != 0) || y % 400 == 0
  }

  function DaysInMonth(y: int, m: nat): (n: nat)
    requires 1 <= m <= 12
    ensures 28 <= n <= 31
  {
    if m == 2 then (if IsLeap(y) then 29 else 28)
    else if m == 4 || m == 6 || m == 9 || m == 11 then 30
    else 31
  }

  /** A date that exists: a month of 1 to 12 and a day within that month. */
  predicate Valid(d: Date) {
    1 <= d.month <= 12 && 1 <= d.day <= DaysInMonth(d.year, d.month)
  }

  /** The next calendar day. */
  function NextDay(d: Date): (r: Date)
    requires Valid(d)
    ensures Valid(r)
  {
    if d.day < DaysInMonth(d.year, d.month) then Date(d.year, d.month, d.day + 1)
    else if d.month < 12 then Date(d.year, d.month + 1, 1)
    else Date(d.year + 1, 1, 1)
  }

  /** The previous calendar day (`setDate(getDate() - 1)`). */
  function PrevDay(d: Date): (r: Date)
    requires Valid(d)
    ensures Valid(r)
  {
    if d.day > 1 then Date(d.year, d.month, d.day - 1)
    else if d.month > 1 then Date(d.year, d.month - 1, DaysInMonth(d.year, d.month - 1))
    else Date(d.year - 1, 12, 31)
  }

  /** Going back a day and forward a day, in either order, returns the date. */
  lemma NextPrev(d: Date)
    requires Valid(d)
    ensures NextDay(PrevDay(d)) == d && PrevDay(NextDay(d)) == d
  {
  }

  /** A number that orders dates chronologically. */
  function Key(d: Date): int {
    d.year * 416 + d.month * 32 + d.day
  }

  /** The previous day comes strictly earlier. */
  lemma PrevDayEarlier(d: Date)
    requires Valid(d)
    ensures Key(PrevDay(d)) < Key(d)
  {
  }

  /** Dates with the same key are the same date. */
  lemma KeyInjective(a: Date, b: Date)
    requires Valid(a) && Valid(b) && Key(a) == Key(b)
    ensures a == b
  {
    var ra := a.month * 32 + a.day;
    var rb := b.month * 32 + b.day;
    assert 33 <= ra < 416 && 33 <= rb < 416;
    assert (a.year - b.year) * 416 == rb - ra;
    assert a.month * 32 + a.day == b.month * 32 + b.day;
    assert (a.month - b.month) * 32 == b.day - a.day;
  }

  /** The fields of `y-m-d` with two-character month and day sit at fixed
      distances from the end. */
  lemma DashedFields(y: string, m: string, dd: string)
    requires |m| == 2 && |dd| == 2
    ensures var s := y + "-" + m + "-" + dd;
            && |s| == |y| + 6
            && s[..|s| - 6] == y && s[|s| - 6] == '-'
            && s[|s| - 5..|s| - 3] == m && s[|s| - 3] == '-'
            && s[|s| - 2..] == dd
  {
    var s := y + "-" + m + "-" + dd;
    assert s[|s| - 5..|s| - 3] == m;
    assert s[|s| - 2..] == dd;
    assert s[..|s| - 6] == y;
  }

  /** `formatDateYYYYMMDD`: the year, a dash, the 1-based month as two
      digits, a dash, the day as two digits. */
  function Format(d: Date): (s: string)
    requires Valid(d)
    ensures |s| == |IntToString(d.year)| + 6
    ensures s[..|s| - 6] == IntToString(d.year) && s[|s| - 6] == '-'
    ensures s[|s| - 5..|s| - 3] == PadTwo(d.month) && s[|s| - 3] == '-'
    ensures s[|s| - 2..] == PadTwo(d.day)
  {
    var y := IntToString(d.year);
    var m := PadTwo(d.month);
    var dd := PadTwo(d.day);
    DashedFields(y, m, dd);
    y + "-" + m + "-" + dd
  }

  /** The month and day fields read back as the date's month and day. */
  lemma FormatFields(d: Date)
    requires Valid(d)
    ensures var s := Format(d);
            && AllDigits(s[|s| - 5..|s| - 3]) && ParseDigits(s[|s| - 5..|s| - 3]) == d.month
            && AllDigits(s[|s| - 2..]) && ParseDigits(s[|s| - 2..]) == d.day
  {
  }

  /** Equal texts carry equal years. */
  lemma FormatSameYear(a: Date, b: Date)
    requires Valid(a) && Valid(b) && Format(a) == Format(b)
    ensures a.year == b.year
  {
    var s := Format(a);
    assert IntToString(a.year) == s[..|s| - 6] == IntToString(b.year);
    IntToStringInjective(a.year, b.year);
  }

  /** Equal texts carry equal months. */
  lemma FormatSameMonth(a: Date, b: Date)
    requires Valid(a) && Valid(b) && Format(a) == Format(b)
    ensures a.month == b.month
  {
    var s := Format(a);
    assert PadTwo(a.month) == s[|s| - 5..|s| - 3] == PadTwo(b.month);
    PadTwoInjective(a.month, b.month);
  }

  /** Equal texts carry equal days. */
  lemma FormatSameDay(a: Date, b: Date)
    requires Valid(a) && Valid(b) && Format(a) == Format(b)
    ensures a.day == b.day
  {
    var s := Format(a);
    assert PadTwo(a.day) == s[|s| - 2..] == PadTwo(b.day);
    PadTwoInjective(a.day, b.day);
  }

  /** Different dates have different texts. */
  lemma FormatInjective(a: Date, b: Date)
    requires Valid(a) && Valid(b)
    ensures Format(a) == Format(b) ==> a == b
  {
    if Format(a) == Format(b) {
      FormatSameYear(a, b);
      FormatSameMonth(a, b);
      FormatSameDay(a, b);
    }
  }
}

=== FILE: compass.dfy ===
/** `bearingToCompass` (components/map/performance-hud.tsx): a map bearing
    in degrees, of any sign and size, reduced to one of the sixteen compass
    points. Numbers are reals; JavaScript's `%` (the remainder truncated
    toward zero) and `Math.round` (half rounds up) are written out. */
module Compass {

  /** The sixteen points, clockwise from north. */
  const Dirs: seq<string> :=
    ["N", "NNE", "NE", "ENE", "E", "ESE", "SE", "SSE",
     "S", "SSW", "SW", "WSW", "W", "WNW", "NW", "NNW"]

  /** Rounding toward zero. */
  function Trunc(x: real): (t: int)
    ensures x >= 0.0 ==> t as real <= x < t as real + 1.0
    ensures x < 0.0 ==> t as real - 1.0 < x <= t as real
  {
    if x >= 0.0 then x.Floor else -((-x).Floor)
  }

  /** JavaScript's `x % 360`: the sign follows `x`. */
  function Rem360(x: real): (r: real)
    ensures x >= 0.0 ==> 0.0 <= r < 360.0
    ensures x < 0.0 ==> -360.0 < r <= 0.0
  {
    x - 360.0 * Trunc(x / 360.0) as real
  }

  /** `((deg % 360) + 360) % 360`. */
  function Normalize(deg: real): (n: real)
    ensures 0.0 <= n < 360.0
  {
    Rem360(Rem360(deg) + 360.0)
  }

  /** Two angles in one turn that differ by whole turns are equal. */
  lemma OneTurnUnique(a: real, b: real, k: int)
    requires 0.0 <= a < 360.0 && 0.0 <= b < 360.0 && a - b == 360.0 * k as real
    ensures a == b
  {
  }

  /** The Euclidean reduction of an angle into [0, 360). */
  function Euclid(deg: real): real {
    deg - 360.0 * (deg / 360.0).Floor as real
  }

  /** The double remainder is the Euclidean reduction. */
  lemma NormalizeIsEuclidean(deg: real)
    ensures Normalize(deg) == Euclid(deg)
  {
    var t1 := Trunc(deg / 360.0);
    var t2 := Trunc((Rem360(deg) + 360.0) / 360.0);
    var f := (deg / 360.0).Floor;
    assert Normalize(deg) == deg - 360.0 * (t1 + t2 - 1) as real;
    assert 0.0 <= Euclid(deg) < 360.0;
    OneTurnUnique(Normalize(deg), Euclid(deg), f - (t1 + t2 - 1));
  }

  /** Bearings a whole turn apart normalise alike. */
  lemma NormalizePeriodic(deg: real)
    ensures Normalize(deg + 360.0) == Normalize(deg)
  {
    NormalizeIsEuclidean(deg);
    NormalizeIsEuclidean(deg + 360.0);
    var f := (deg / 360.0).Floor;
    var g := ((deg + 360.0) / 360.0).Floor;
    OneTurnUnique(Euclid(deg + 360.0), Euclid(deg), f + 1 - g);
  }

  /** `Math.round`: the nearest integer, halves rounding up. */
  function Round(x: real): (k: int)
    ensures x - 0.5 < k as real <= x + 0.5
  {
    (x + 0.5).Floor
  }

  /** `Math.round(normalized / 22.5) % 16`. */
  function DirIndex(deg: real): (i: nat)
    ensures i < |Dirs|
  {
    Round(Normalize(deg) / 22.5) % 16
  }

  /** `bearingToCompass`. */
  function BearingToCompass(deg: real): (s: string)
    ensures s in Dirs
  {
    Dirs[DirIndex(deg)]
  }

  /** Point `i` covers the 22.5° sector centred on `22.5 * i`; north's
      sector wraps round through 0. */
  lemma DirSector(deg: real)
    ensures var n := Normalize(deg);
            var i := DirIndex(deg);
            if n >= 348.75 then i == 0
            else 22.5 * i as real - 11.25 <= n < 22.5 * i as real + 11.25
  {
    var n := Normalize(deg);
    var k := Round(n / 22.5);
    assert 0 <= k <= 16;
    if n >= 348.75 {
      assert k == 16;
    } else {
      assert k < 16;
    }
  }

  /** Bearings a whole turn apart name the same point. */
  lemma CompassPeriodic(deg: real)
    ensures BearingToCompass(deg + 360.0) == BearingToCompass(deg)
  {
    NormalizePeriodic(deg);
  }

  /** A bearing inside one turn is its own normal form. */
  lemma NormalizeInTurn(deg: real)
    requires 0.0 <= deg < 360.0
    ensures Normalize(deg) == deg
  {
    NormalizeIsEuclidean(deg);
    assert (deg / 360.0).Floor == 0;
  }

  /** A bearing inside point `i`'s sector (north's sector read up to 360)
      names point `i`. */
  lemma CompassInSector(deg: real, i: nat)
    requires i < |Dirs| && 0.0 <= deg < 360.0
    requires if i == 0 then deg < 11.25 || deg >= 348.75
             else 22.5 * i as real - 11.25 <= deg < 22.5 * i as real + 11.25
    ensures BearingToCompass(deg) == Dirs[i]
  {
    NormalizeInTurn(deg);
    DirSector(deg);
  }

  /** The four cardinal points: a bearing of k quarter turns names
      N, E, S or W. */
  lemma CompassCardinals(k: nat)
    requires k < 4
    ensures BearingToCompass(90.0 * k as real) == ["N", "E", "S", "W"][k]
  {
    CompassInSector(90.0 * k as real, 4 * k);
  }

  /** A negative bearing, and a bearing just short of a full turn that wraps
      back to north. */
  lemma CompassWraps()
    ensures BearingToCompass(-90.0) == "W"
    ensures BearingToCompass(350.0) == "N"
  {
    assert BearingToCompass(270.0) == "W" by { CompassInSector(270.0, 12); }
    assert BearingToCompass(-90.0) == "W" by { CompassPeriodic(-90.0); }
    assert BearingToCompass(350.0) == "N" by { CompassInSector(350.0, 0); }
  }
}

=== FILE: crossfade.dfy ===
/** The base-layer cross-fade of `MapViewport`
    (components/map/map-viewport.tsx): on every change of base layer the
    Sentinel-2 and Esri raster opacities are animated from their last
    written values to the new targets over 600 ms with an ease-in-out
    curve, one animation frame at a time. */
module CrossFade {
  import opened MapEngine
  import opened Viewport

  /** `BaseLayerId`: "vector", "satellite" or "high-res". */
  datatype BaseLayerId = Vector | Satellite | HighRes

  /** The opacities of the Sentinel-2 and Esri layers, as held by the
      component's two opacity refs. */
  datatype Opacities = Opacities(sentinel: real, esri: real)

  /** Both refs start at 0, like the layers. */
  const InitialOpacities: Opacities := Opacities(0.0, 0.0)

  const DurationMs: real := 600.0

  /** The target opacities of a base layer. */
  function Targets(b: BaseLayerId): Opacities {
    Opacities(if b == Satellite then 1.0 else 0.0, if b == HighRes then 1.0 else 0.0)
  }

  /** Each target is 0 or 1, and the two rasters are never both fully shown:
      Sentinel-2 only for "satellite", Esri only for "high-res", neither for
      "vector". */
  lemma TargetsExclusive(b: BaseLayerId)
    ensures Targets(b).sentinel in {0.0, 1.0} && Targets(b).esri in {0.0, 1.0}
    ensures !(Targets(b).sentinel == 1.0 && Targets(b).esri == 1.0)
    ensures Targets(b).sentinel == 1.0 <==> b == Satellite
    ensures Targets(b).esri == 1.0 <==> b == HighRes
  {
  }

  /** `Math.min(elapsed / duration, 1)`. */
  function Progress(elapsed: real): (t: real)
    ensures elapsed >= 0.0 ==> 0.0 <= t <= 1.0
    ensures t == 1.0 <==> elapsed >= DurationMs
    ensures t <= 1.0
  {
    if elapsed / DurationMs < 1.0 then elapsed / DurationMs else 1.0
  }

  /** The ease-in-out quadratic: `2t²` on the first half,
      `1 - (-2t + 2)² / 2` on the second. */
  function Ease(t: real): real {
    if t < 0.5 then 2.0 * t * t else 1.0 - (-2.0 * t + 2.0) * (-2.0 * t + 2.0) / 2.0
  }

  /** The curve starts at 0, passes 1/2 at the midpoint and ends at 1. */
  lemma EaseEnds()
    ensures Ease(0.0) == 0.0 && Ease(0.5) == 0.5 && Ease(1.0) == 1.0
  {
  }

  /** On [0, 1] the curve stays in [0, 1]. */
  lemma EaseRange(t: real)
    requires 0.0 <= t <= 1.0
    ensures 0.0 <= Ease(t) <= 1.0
  {
    if t < 0.5 {
      assert t * t <= 0.5 * t;
    } else {
      var u := -2.0 * t + 2.0;
      assert 0.0 <= u <= 1.0;
      assert u * u <= u;
    }
  }

  /** On [0, 1] the curve never goes back. */
  lemma EaseMonotone(s: real, t: real)
    requires 0.0 <= s <= t <= 1.0
    ensures Ease(s) <= Ease(t)
  {
    if t < 0.5 {
      SquareMono(s, t);
      assert Ease(s) == 2.0 * (s * s) && Ease(t) == 2.0 * (t * t);
    } else if s >= 0.5 {
      var u := -2.0 * t + 2.0;
      var v := -2.0 * s + 2.0;
      SquareMono(u, v);
      assert Ease(s) == 1.0 - (v * v) / 2.0 && Ease(t) == 1.0 - (u * u) / 2.0;
    } else {
      SquareMono(s, 0.5);
      var u := -2.0 * t + 2.0;
      SquareMono(u, 1.0);
      assert Ease(s) == 2.0 * (s * s) <= 0.5;
      assert Ease(t) == 1.0 - (u * u) / 2.0 >= 0.5;
    }
  }

  /** Squaring keeps the order of non-negative reals. */
  lemma SquareMono(a: real, b: real)
    requires 0.0 <= a <= b
    ensures a * a <= b * b
  {
    MulMono(a, b, a);
    MulMono(a, b, b);
  }

  lemma MulMono(a: real, b: real, c: real)
    requires 0.0 <= a <= b && 0.0 <= c
    ensures a * c <= b * c
  {
  }

  /** `start + (target - start) * eased`. */
  function Lerp(start: real, target: real, x: real): real {
    start + (target - start) * x
  }

  function Min(a: real, b: real): real { if a <= b then a else b }
  function Max(a: real, b: real): real { if a >= b then a else b }

  /** Each opacity of `v` lies between its start and its target. */
  predicate Between(start: Opacities, target: Opacities, v: Opacities) {
    && Min(start.sentinel, target.sentinel) <= v.sentinel <= Max(start.sentinel, target.sentinel)
    && Min(start.esri, target.esri) <= v.esri <= Max(start.esri, target.esri)
  }

  /** An interpolation weight in [0, 1] lands between the ends, at the start
      for 0 and at the target for 1. */
  lemma LerpBetween(a: real, b: real, x: real)
    ensures 0.0 <= x <= 1.0 ==> Min(a, b) <= Lerp(a, b, x) <= Max(a, b)
    ensures x == 0.0 ==> Lerp(a, b, x) == a
    ensures x == 1.0 ==> Lerp(a, b, x) == b
  {
    if 0.0 <= x <= 1.0 {
      if a <= b {
        LerpRising(a, b, x);
      } else {
        LerpFalling(a, b, x);
      }
    }
  }

  lemma LerpRising(a: real, b: real, x: real)
    requires a <= b && 0.0 <= x <= 1.0
    ensures a <= Lerp(a, b, x) <= b
  {
    var c := b - a;
    ScaleBounds(c, x);
    var p := c * x;
    assert Lerp(a, b, x) == a + p;
  }

  lemma LerpFalling(a: real, b: real, x: real)
    requires a >= b && 0.0 <= x <= 1.0
    ensures b <= Lerp(a, b, x) <= a
  {
    var c := a - b;
    ScaleBounds(c, x);
    var p := c * x;
    assert (b - a) * x == -p;
    assert Lerp(a, b, x) == a - p;
  }

  /** Scaling a non-negative number by a weight in [0, 1] stays between 0 and it. */
  lemma ScaleBounds(c: real, x: real)
    requires c >= 0.0 && 0.0 <= x <= 1.0
    ensures 0.0 <= c * x <= c
  {
    assert c * (1.0 - x) >= 0.0;
  }

  /** The weight a frame uses after `elapsed` ms: in [0, 1] once the clock
      has passed the start, 0 at the start, 1 from 600 ms on. */
  lemma Weight(elapsed: real)
    ensures elapsed >= 0.0 ==> 0.0 <= Ease(Progress(elapsed)) <= 1.0
    ensures elapsed == 0.0 ==> Ease(Progress(elapsed)) == 0.0
    ensures Progress(elapsed) == 1.0 ==> Ease(Progress(elapsed)) == 1.0
  {
    EaseEnds();
    if elapsed >= 0.0 {
      EaseRange(Progress(elapsed));
    }
  }

  /** One animation: where it starts, where it goes, and when it began. */
  datatype Fade = Fade(start: Opacities, target: Opacities, startTime: real)

  /** The effect on a base-layer change: start from the refs, aim at the new
      targets. It only runs once the map is loaded and both raster layers
      exist. */
  function Begin(refs: Opacities, b: BaseLayerId, now: real): (f: Fade)
    ensures f.start == refs && f.target == Targets(b)
  {
    Fade(refs, Targets(b), now)
  }

  /** Whether the effect starts an animation at all. */
  predicate FadeRuns(e: Engine, loaded: bool) {
    loaded && HasId(e.layers, SentinelLayerId) && HasId(e.layers, EsriLayerId)
  }

  /** One `tick(now)`: the interpolated opacities, and whether another frame
      is requested. */
  datatype Frame = Frame(values: Opacities, again: bool)

  /** A frame at time `now`: with the clock past the start, the opacities lie
      between start and target; another frame is requested exactly while
      less than 600 ms have passed, and the last frame lands on the targets. */
  function Tick(f: Fade, now: real): (fr: Frame)
    ensures now >= f.startTime ==> Between(f.start, f.target, fr.values)
    ensures fr.again <==> now - f.startTime < DurationMs
    ensures !fr.again ==> fr.values == f.target
    ensures now == f.startTime ==> fr.values == f.start
  {
    var t := Progress(now - f.startTime);
    var eased := Ease(t);
    Weight(now - f.startTime);
    LerpBetween(f.start.sentinel, f.target.sentinel, eased);
    LerpBetween(f.start.esri, f.target.esri, eased);
    Frame(Opacities(Lerp(f.start.sentinel, f.target.sentinel, eased), Lerp(f.start.esri, f.target.esri, eased)), t < 1.0)
  }

  /** Later frames are never further from the target: each opacity moves
      monotonically from start to target. */
  lemma TickMonotone(f: Fade, now1: real, now2: real)
    requires f.startTime <= now1 <= now2
    ensures var a := Tick(f, now1).values;
            var b := Tick(f, now2).values;
            && (f.start.sentinel <= f.target.sentinel ==> a.sentinel <= b.sentinel)
            && (f.start.sentinel >= f.target.sentinel ==> a.sentinel >= b.sentinel)
            && (f.start.esri <= f.target.esri ==> a.esri <= b.esri)
            && (f.start.esri >= f.target.esri ==> a.esri >= b.esri)
  {
    var t1 := Progress(now1 - f.startTime);
    var t2 := Progress(now2 - f.startTime);
    assert t1 <= t2;
    EaseMonotone(t1, t2);
    var x1 := Ease(t1);
    var x2 := Ease(t2);
    LerpMonotone(f.start.sentinel, f.target.sentinel, x1, x2);
    LerpMonotone(f.start.esri, f.target.esri, x1, x2);
  }

  lemma LerpMonotone(a: real, b: real, x1: real, x2: real)
    requires x1 <= x2
    ensures a <= b ==> Lerp(a, b, x1) <= Lerp(a, b, x2)
    ensures a >= b ==> Lerp(a, b, x1) >= Lerp(a, b, x2)
  {
    if a <= b {
      assert (b - a) * x1 <= (b - a) * x2;
    } else {
      assert (a - b) * x1 <= (a - b) * x2;
    }
  }

  /** What a run of frames wrote, and what the refs hold afterwards. */
  datatype Playback = Playback(samples: seq<Opacities>, refs: Opacities)

  /** The frames of one animation at the given timestamps, starting with the
      refs at `refs`: every frame writes its values to the refs and to the
      layers, and the chain stops after the first frame that requests no
      successor. */
  function Play(f: Fade, refs: Opacities, frames: seq<real>): (p: Playback)
    decreases |frames|
    ensures |p.samples| <= |frames|
    ensures |p.samples| == 0 ==> p.refs == refs
    ensures |p.samples| > 0 ==> p.refs == p.samples[|p.samples| - 1]
  {
    if |frames| == 0 then Playback([], refs)
    else
      var fr := Tick(f, frames[0]);
      if !fr.again then Playback([fr.values], fr.values)
      else
        var rest := Play(f, fr.values, frames[1..]);
        Playback([fr.values] + rest.samples, rest.refs)
  }

  /** Frame times at or after the start of the animation. */
  predicate AfterStart(f: Fade, frames: seq<real>) {
    forall i :: 0 <= i < |frames| ==> frames[i] >= f.startTime
  }

  /** Every value written lies between start and target. */
  lemma {:induction false} PlayBetween(f: Fade, refs: Opacities, frames: seq<real>)
    requires AfterStart(f, frames)
    decreases |frames|
    ensures forall i :: 0 <= i < |Play(f, refs, frames).samples| ==> Between(f.start, f.target, Play(f, refs, frames).samples[i])
  {
    if |frames| > 0 && Tick(f, frames[0]).again {
      var fr := Tick(f, frames[0]);
      assert AfterStart(f, frames[1..]) by {
        forall i | 0 <= i < |frames[1..]|
          ensures frames[1..][i] >= f.startTime
        {
          assert frames[1..][i] == frames[i + 1];
        }
      }
      PlayBetween(f, fr.values, frames[1..]);
    }
  }

  /** Once a frame comes 600 ms or more after the start, the animation ends
      there on the targets: the frames up to and including the first such
      frame are played, and no later one. */
  lemma {:induction false} PlayFinishes(f: Fade, refs: Opacities, frames: seq<real>, k: nat)
    requires k < |frames| && frames[k] - f.startTime >= DurationMs
    requires forall i :: 0 <= i < k ==> frames[i] - f.startTime < DurationMs
    ensures |Play(f, refs, frames).samples| == k + 1
    ensures Play(f, refs, frames).refs == f.target
    decreases k
  {
    if k > 0 {
      var fr := Tick(f, frames[0]);
      assert frames[1..][k - 1] == frames[k];
      forall i | 0 <= i < k - 1
        ensures frames[1..][i] - f.startTime < DurationMs
      {
        assert frames[1..][i] == frames[i + 1];
      }
      PlayFinishes(f, fr.values, frames[1..], k - 1);
    }
  }

  /** A base-layer change in the middle of an animation starts the next one
      from the last values written, so its first frame (at the moment it
      begins) shows no jump. */
  lemma RetargetContinuous(f: Fade, refs: Opacities, frames: seq<real>, b: BaseLayerId, now: real)
    ensures var p := Play(f, refs, frames);
            Tick(Begin(p.refs, b, now), now).values == p.refs
  {
  }

  /** What a frame does to one layer: the Sentinel-2 and Esri layers take
      their opacity from the frame, every other layer is left alone. */
  function FrameLayer(l: Layer, v: Opacities): Layer {
    if l.id == SentinelLayerId then l.(opacity := v.sentinel)
    else if l.id == EsriLayerId then l.(opacity := v.esri)
    else l
  }

  /** Writing a frame: the two `raster-opacity` paint properties. */
  function ApplyFrame(e: Engine, v: Opacities): (r: Engine)
    requires HasId(e.layers, SentinelLayerId) && HasId(e.layers, EsriLayerId)
    ensures r.sources == e.sources && |r.layers| == |e.layers|
    ensures forall i :: 0 <= i < |e.layers| ==> r.layers[i] == FrameLayer(e.layers[i], v)
    ensures forall x :: HasId(r.layers, x) <==> HasId(e.layers, x)
  {
    HandlerIdsDistinct();
    SetOpacity(SetOpacity(e, SentinelLayerId, v.sentinel), EsriLayerId, v.esri)
  }

  /** A later frame overwrites everything an earlier one wrote to a layer. */
  lemma FrameLayerTwice(l: Layer, v: Opacities, w: Opacities)
    ensures FrameLayer(FrameLayer(l, v), w) == FrameLayer(l, w)
  {
  }

  /** Only the last frame written shows: a frame overwrites both opacities. */
  lemma ApplyFrameTwice(e: Engine, v: Opacities, w: Opacities)
    requires HasId(e.layers, SentinelLayerId) && HasId(e.layers, EsriLayerId)
    ensures ApplyFrame(ApplyFrame(e, v), w) == ApplyFrame(e, w)
  {
    var e1 := ApplyFrame(e, v);
    LayersTwice(e.layers, e1.layers, ApplyFrame(e1, w).layers, ApplyFrame(e, w).layers, v, w);
  }

  /** Stacks obtained layer by layer with `FrameLayer`: writing `v` then
      `w` gives what writing `w` alone gives. */
  lemma LayersTwice(ls: seq<Layer>, a: seq<Layer>, b: seq<Layer>, c: seq<Layer>, v: Opacities, w: Opacities)
    requires |a| == |ls| && forall i :: 0 <= i < |ls| ==> a[i] == FrameLayer(ls[i], v)
    requires |b| == |a| && forall i :: 0 <= i < |a| ==> b[i] == FrameLayer(a[i], w)
    requires |c| == |ls| && forall i :: 0 <= i < |ls| ==> c[i] == FrameLayer(ls[i], w)
    ensures b == c
  {
    forall i | 0 <= i < |b|
      ensures b[i] == c[i]
    {
      FrameLayerTwice(ls[i], v, w);
    }
  }

  /** After a frame the two rasters show its opacities. */
  lemma FrameShows(e: Engine, v: Opacities)
    requires HasId(e.layers, SentinelLayerId) && HasId(e.layers, EsriLayerId)
    ensures LayerNamed(ApplyFrame(e, v).layers, SentinelLayerId).opacity == v.sentinel
    ensures LayerNamed(ApplyFrame(e, v).layers, EsriLayerId).opacity == v.esri
  {
    var r := ApplyFrame(e, v).layers;
    assert FrameLayer(e.layers[IndexOf(r, SentinelLayerId)], v).id == SentinelLayerId;
    assert FrameLayer(e.layers[IndexOf(r, EsriLayerId)], v).id == EsriLayerId;
    HandlerIdsDistinct();
  }

  /** Every frame of a run written to the map, in order. */
  function ApplyAll(e: Engine, vs: seq<Opacities>): (r: Engine)
    requires HasId(e.layers, SentinelLayerId) && HasId(e.layers, EsriLayerId)
    ensures HasId(r.layers, SentinelLayerId) && HasId(r.layers, EsriLayerId)
    ensures r.sources == e.sources
    decreases |vs|
  {
    if |vs| == 0 then e else ApplyAll(ApplyFrame(e, vs[0]), vs[1..])
  }

  /** After a run of frames the map shows the last one. */
  lemma {:induction false} ApplyAllLast(e: Engine, vs: seq<Opacities>)
    requires HasId(e.layers, SentinelLayerId) && HasId(e.layers, EsriLayerId)
    requires |vs| > 0
    ensures ApplyAll(e, vs) == ApplyFrame(e, vs[|vs| - 1])
    decreases |vs|
  {
    if |vs| > 1 {
      var e1 := ApplyFrame(e, vs[0]);
      ApplyAllLast(e1, vs[1..]);
      ApplyFrameTwice(e, vs[0], vs[|vs| - 1]);
    }
  }

  /** The outcome of the cross-fade effect: the map after the frames that
      ran, and the two refs. */
  datatype FadeOutcome = FadeOutcome(engine: Engine, refs: Opacities)

  /** The cross-fade effect on a base-layer change at time `now`, followed by
      the animation frames at `frames`: nothing happens unless the map is
      loaded and both rasters exist; otherwise a fade starts from the refs
      and every frame is written to the refs and to the two layers. */
  function CrossFadeEffect(e: Engine, loaded: bool, refs: Opacities, b: BaseLayerId, now: real, frames: seq<real>): (r: FadeOutcome)
    ensures !FadeRuns(e, loaded) ==> r == FadeOutcome(e, refs)
    ensures FadeRuns(e, loaded) ==> r.refs == Play(Begin(refs, b, now), refs, frames).refs
    ensures r.engine.sources == e.sources
  {
    if !FadeRuns(e, loaded) then FadeOutcome(e, refs)
    else
      var p := Play(Begin(refs, b, now), refs, frames);
      FadeOutcome(ApplyAll(e, p.samples), p.refs)
  }

  /** When a frame comes 600 ms after the change, the effect leaves both
      the refs and the two layers' opacities on the new base layer's
      targets, so the chosen raster is fully shown and the other hidden. */
  lemma CrossFadeSettles(e: Engine, refs: Opacities, b: BaseLayerId, now: real, frames: seq<real>, k: nat)
    requires FadeRuns(e, true)
    requires k < |frames| && frames[k] - now >= DurationMs
    requires forall i :: 0 <= i < k ==> frames[i] - now < DurationMs
    ensures var r := CrossFadeEffect(e, true, refs, b, now, frames);
            && r.refs == Targets(b)
            && LayerNamed(r.engine.layers, SentinelLayerId).opacity == Targets(b).sentinel
            && LayerNamed(r.engine.layers, EsriLayerId).opacity == Targets(b).esri
  {
    var f := Begin(refs, b, now);
    PlayFinishes(f, refs, frames, k);
    ApplyAllLast(e, Play(f, refs, frames).samples);
    FrameShows(e, Targets(b));
  }

  /** Both opacities in [0, 1]. */
  predicate InUnit(v: Opacities) {
    0.0 <= v.sentinel <= 1.0 && 0.0 <= v.esri <= 1.0
  }

  /** Starting from refs in [0, 1], a fade writes only opacities in [0, 1]
      and leaves the refs there, so by induction over base-layer changes the
      refs, which start at `InitialOpacities`, never leave [0, 1]. */
  lemma FadeStaysInUnit(refs: Opacities, b: BaseLayerId, now: real, frames: seq<real>)
    requires InUnit(refs)
    requires forall i :: 0 <= i < |frames| ==> frames[i] >= now
    ensures var p := Play(Begin(refs, b, now), refs, frames);
            && InUnit(p.refs)
            && forall i :: 0 <= i < |p.samples| ==> InUnit(p.samples[i])
  {
    var f := Begin(refs, b, now);
    PlayBetween(f, refs, frames);
  }

  /** The first fade after mount starts from the zero refs and stays in [0, 1]. */
  lemma FirstFadeInUnit(b: BaseLayerId, now: real, frames: seq<real>)
    requires forall i :: 0 <= i < |frames| ==> frames[i] >= now
    ensures var p := Play(Begin(InitialOpacities, b, now), InitialOpacities, frames);
            && InUnit(p.refs)
            && (forall i :: 0 <= i < |p.samples| ==> InUnit(p.samples[i]))
            && (b == Vector ==> p.refs == InitialOpacities)
  {
    FadeStaysInUnit(InitialOpacities, b, now, frames);
    var p := Play(Begin(InitialOpacities, b, now), InitialOpacities, frames);
    if b == Vector {
      PlayBetween(Begin(InitialOpacities, b, now), InitialOpacities, frames);
      if |p.samples| > 0 {
        assert Between(InitialOpacities, Targets(b), p.samples[|p.samples| - 1]);
      }
    }
  }
}

=== FILE: dashboard.dfy ===
/** `MapDashboard` (components/map/map-dashboard.tsx): the page-level state,
    the padded box the viewport flies to, the guard on the custom-URL
    fetch, and the `hasData` flag passed to the controls. The clock read of
    `getYesterdayYYYYMMDD` is a parameter. */
module Dashboard {
  import opened Wrappers
  import opened GeoJson
  import opened Bounds
  import opened Strings
  import Calendar
  import Timeline
  import GeoData
  import MockData
  import Http
  import CrossFade
  import Viewport

  /** The dashboard's own `useState` hooks. */
  datatype DashboardState = DashboardState(
    baseLayer: CrossFade.BaseLayerId,
    buildings3dVisible: bool,
    selectedDate: string,
    co2Enabled: bool,
    customUrl: string)

  /** The first render: vector base map, no 3D buildings, no CO₂ layer, an
      empty URL box, and yesterday's date selected. */
  function Initial(yesterday: string): (s: DashboardState)
    ensures s.baseLayer == CrossFade.Vector
    ensures !s.buildings3dVisible && !s.co2Enabled
    ensures s.selectedDate == yesterday && s.customUrl == ""
  {
    DashboardState(CrossFade.Vector, false, yesterday, false, "")
  }

  /** When the UTC calendar day agrees with the local one, the initial date
      is the timeline's second-to-last entry, so the slider starts one step
      left of today and the badge shows that date. */
  lemma InitialDateOnTimeline(today: Calendar.Date)
    requires Calendar.Valid(today)
    ensures var s := Initial(Calendar.Format(Calendar.PrevDay(today)));
            && Timeline.DateToIndex(today, s.selectedDate) == Timeline.MaxIndex - 1
            && Timeline.DisplayDate(today, s.selectedDate) == s.selectedDate
  {
    Timeline.DateToIndexExact(today, Timeline.MaxIndex - 1);
  }

  /** The padding the dashboard applies before flying. */
  const FlyPadding: real := 1.25

  /** `bbox ? padBBox(bbox, 1.25) : null`. */
  function FlyToBbox(bbox: Option<BBox>): (r: Option<BBox>)
    ensures r.Some? <==> bbox.Some?
  {
    match bbox
    case None => None
    case Some(b) => Some(PadBBox(b, FlyPadding))
  }

  /** The box flown to keeps the data's centre, is a quarter larger each
      way, and contains every feature's box. */
  lemma FlyToContainsData(s: GeoData.GeoState)
    requires GeoData.DerivedBBox(s).Some? && Ordered(GeoData.DerivedBBox(s).value)
    ensures var b := GeoData.DerivedBBox(s).value;
            var r := FlyToBbox(GeoData.DerivedBBox(s));
            && r.Some?
            && ContainsBox(r.value, b)
            && Center(r.value.minLon, r.value.maxLon) == Center(b.minLon, b.maxLon)
            && Center(r.value.minLat, r.value.maxLat) == Center(b.minLat, b.maxLat)
  {
    PadContains(GeoData.DerivedBBox(s).value, FlyPadding);
  }

  /** Without data there is nothing to fly to. */
  lemma NoDataNoFlight(s: GeoData.GeoState)
    requires s.data.None?
    ensures FlyToBbox(GeoData.DerivedBBox(s)).None?
  {
  }

  /** `handleFetchCustomUrl`'s guard: the URL handed to `fetchByUrl`, if any. */
  function CustomUrlRequest(customUrl: string): (r: Option<string>)
    ensures r.Some? <==> !AllWhitespace(customUrl)
    ensures r.Some? ==> |r.value| > 0 && !IsJsWhitespace(r.value[0]) && !IsJsWhitespace(r.value[|r.value| - 1])
    ensures r.Some? ==> exists lo :: PaddedAt(customUrl, r.value, lo)
  {
    var t := Trim(customUrl);
    if |t| > 0 then Some(t) else None
  }

  /** Typing the same URL with extra surrounding blanks sends the same
      request. */
  lemma CustomUrlIgnoresPadding(customUrl: string)
    ensures CustomUrlRequest(Trim(customUrl)) == CustomUrlRequest(customUrl)
  {
    TrimIdempotent(customUrl);
  }

  /** Pressing the fetch button, `respond` giving the response each URL
      would get: with a blank URL the hook's state is left as it is;
      otherwise `fetchByUrl` runs on the trimmed URL. */
  function FetchCustomUrl(s: GeoData.GeoState, customUrl: string, respond: string -> Http.Response<Json>): (r: GeoData.GeoState)
    ensures AllWhitespace(customUrl) ==> r == s
    ensures !AllWhitespace(customUrl) ==> r == GeoData.FetchByUrl(s, respond(Trim(customUrl))) && !r.loading
  {
    match CustomUrlRequest(customUrl)
    case None => s
    case Some(url) => GeoData.FetchByUrl(s, respond(url))
  }

  /** Blanks around the URL change neither whether a fetch happens nor what
      it commits. */
  lemma FetchCustomUrlIgnoresPadding(s: GeoData.GeoState, customUrl: string, respond: string -> Http.Response<Json>)
    ensures FetchCustomUrl(s, Trim(customUrl), respond) == FetchCustomUrl(s, customUrl, respond)
  {
    CustomUrlIgnoresPadding(customUrl);
    TrimIdempotent(customUrl);
  }

  /** `!!geodata?.features?.length`, the viewport's notion of having data. */
  function HasData(data: Option<FeatureCollection>): (b: bool)
    ensures b <==> data.Some? && |data.value.features| > 0
  {
    Viewport.HasData(data)
  }

  /** A preset fetch always leaves data to show; clearing never does. */
  lemma HasDataAfterFetches(s: GeoData.GeoState, p: MockData.PresetId, resp: Http.Response<Json>,
                            draws: seq<real>, nowMs: int, today: string)
    requires |draws| >= MockData.DrawsNeeded(p) && MockData.ValidDraws(draws)
    ensures HasData(GeoData.FetchPreset(s, p, resp, draws, nowMs, today).data)
    ensures !HasData(GeoData.Clear(s).data)
  {
  }
}

=== FILE: datalisting.dfy ===
/** `DataListing` (components/map/data-listing.tsx): the collapsible list of
    the loaded features, one row per feature with a label and an optional
    sub-label, at most one row's text expanded. */
module DataListing {
  import opened Wrappers
  import opened GeoJson
  import opened Strings
  import Viewport

  /** `props.key` is `null` or `undefined`, so `??` moves past it. */
  predicate Nullish(props: map<string, Json>, key: string) {
    key !in props || props[key] == JNull
  }

  /** The properties tried for a row's label, in order. */
  const LabelKeys: seq<string> := ["title", "place", "common_name", "id"]

  /** `props[keys[0]] ?? props[keys[1]] ?? …`: the first value that is
      neither null nor missing. */
  function FirstPresent(props: map<string, Json>, keys: seq<string>): (r: Option<Json>)
    ensures r.None? <==> forall k :: 0 <= k < |keys| ==> Nullish(props, keys[k])
    ensures r.Some? ==> exists k :: 0 <= k < |keys| && !Nullish(props, keys[k]) && r.value == props[keys[k]]
                                    && forall m :: 0 <= m < k ==> Nullish(props, keys[m])
  {
    if |keys| == 0 then None
    else if !Nullish(props, keys[0]) then Some(props[keys[0]])
    else
      var r := FirstPresent(props, keys[1..]);
      assert forall k :: 1 <= k < |keys| ==> keys[1..][k - 1] == keys[k];
      if r.Some? then
        var k :| 0 <= k < |keys[1..]| && !Nullish(props, keys[1..][k]) && r.value == props[keys[1..][k]]
                  && forall m :: 0 <= m < k ==> Nullish(props, keys[1..][m]);
        assert forall m :: 0 <= m < k + 1 ==> Nullish(props, keys[m]);
        r
      else r
  }

  /** What a row shows as its label: a property value (passed through
      `String`) or the fallback text. */
  datatype Label = PropertyLabel(value: Json) | FallbackLabel(text: string)

  /** The label of the feature at position `i`. */
  function RowLabel(props: map<string, Json>, i: nat): (l: Label)
    ensures l.FallbackLabel? <==> forall k :: 0 <= k < |LabelKeys| ==> Nullish(props, LabelKeys[k])
    ensures l.FallbackLabel? ==> l.text == "Feature " + NatToString(i + 1)
  {
    match FirstPresent(props, LabelKeys)
    case Some(j) => PropertyLabel(j)
    case None => FallbackLabel("Feature " + NatToString(i + 1))
  }

  /** A title that is present and not null is the label, even when it is the
      empty string or another falsy value. */
  lemma TitleWins(props: map<string, Json>, i: nat)
    requires !Nullish(props, "title")
    ensures RowLabel(props, i) == PropertyLabel(props["title"])
  {
  }

  /** With every label property missing or null, rows get distinct fallback
      labels numbered from 1. */
  lemma FallbackLabelsDistinct(props: map<string, Json>, i: nat, j: nat)
    requires forall k :: 0 <= k < |LabelKeys| ==> Nullish(props, LabelKeys[k])
    requires i != j
    ensures RowLabel(props, i) != RowLabel(props, j)
  {
    var a := "Feature " + NatToString(i + 1);
    var b := "Feature " + NatToString(j + 1);
    if a == b {
      assert a[8..] == NatToString(i + 1);
      assert b[8..] == NatToString(j + 1);
      NatToStringInjective(i + 1, j + 1);
    }
  }

  /** The sub-label: the magnitude, the height, the anomaly type, or nothing. */
  datatype SubLabel = Magnitude(mag: Json) | Height(height: Json) | Anomaly(kind: Json) | NoSubLabel

  /** `props.mag ? … : props.height_m ? … : props.anomaly_type ?? ""`. */
  function RowSubLabel(props: map<string, Json>): (s: SubLabel)
    ensures s.Magnitude? <==> "mag" in props && Truthy(props["mag"])
    ensures s.Height? <==> !("mag" in props && Truthy(props["mag"])) && "height_m" in props && Truthy(props["height_m"])
    ensures s.Anomaly? ==> "anomaly_type" in props && s.kind == props["anomaly_type"] && s.kind != JNull
    ensures s.NoSubLabel? <==> (&& !("mag" in props && Truthy(props["mag"]))
                                && !("height_m" in props && Truthy(props["height_m"]))
                                && Nullish(props, "anomaly_type"))
  {
    if "mag" in props && Truthy(props["mag"]) then Magnitude(props["mag"])
    else if "height_m" in props && Truthy(props["height_m"]) then Height(props["height_m"])
    else if !Nullish(props, "anomaly_type") then Anomaly(props["anomaly_type"])
    else NoSubLabel
  }

  /** `{sublabel && …}`: the styled line under the label is drawn when the
      sub-label is truthy. The magnitude and height texts carry a fixed
      prefix or suffix, so they are never empty. */
  predicate SubLabelShown(s: SubLabel) {
    match s
    case Magnitude(_) => true
    case Height(_) => true
    case Anomaly(k) => Truthy(k)
    case NoSubLabel => false
  }

  /** A second line appears exactly when the feature has a truthy magnitude,
      height or anomaly type. */
  lemma SubLabelShownWhen(props: map<string, Json>)
    ensures SubLabelShown(RowSubLabel(props)) <==>
              || ("mag" in props && Truthy(props["mag"]))
              || ("height_m" in props && Truthy(props["height_m"]))
              || ("anomaly_type" in props && Truthy(props["anomaly_type"]))
  {
  }

  /** What `{sublabel && (<div>…</div>)}` puts under the label. A truthy
      sub-label gives the styled line. A falsy one is itself the value of
      `&&`, and React prints nothing for `""`, `false` or `null` but prints
      the number 0 as the bare text "0". */
  datatype SubLine = StyledLine | BareZero | NoLine

  function SubLineOf(s: SubLabel): (l: SubLine)
    ensures l.StyledLine? <==> SubLabelShown(s)
    ensures l.BareZero? <==> s == Anomaly(JNum(0.0))
  {
    match s
    case Magnitude(_) => StyledLine
    case Height(_) => StyledLine
    case Anomaly(k) => if Truthy(k) then StyledLine else if k == JNum(0.0) then BareZero else NoLine
    case NoSubLabel => NoLine
  }

  /** The bare "0" appears exactly for a zero anomaly type behind a falsy
      magnitude and height; nothing at all is drawn exactly when none of
      the three is truthy and the anomaly type is not the number 0. */
  lemma SubLineWhen(props: map<string, Json>)
    ensures SubLineOf(RowSubLabel(props)).BareZero? <==>
              && !("mag" in props && Truthy(props["mag"]))
              && !("height_m" in props && Truthy(props["height_m"]))
              && "anomaly_type" in props && props["anomaly_type"] == JNum(0.0)
    ensures SubLineOf(RowSubLabel(props)).NoLine? <==>
              && !("mag" in props && Truthy(props["mag"]))
              && !("height_m" in props && Truthy(props["height_m"]))
              && !("anomaly_type" in props && Truthy(props["anomaly_type"]))
              && !("anomaly_type" in props && props["anomaly_type"] == JNum(0.0))
  {
    SubLabelShownWhen(props);
  }

  /** A feature whose only sub-label property is `anomaly_type: 0` shows a
      bare "0" under its label. */
  lemma ZeroAnomalyShowsBareZero()
    ensures SubLineOf(RowSubLabel(map["anomaly_type" := JNum(0.0)])) == BareZero
  {
  }

  datatype Row = Row(feature: Feature, caption: Label, detail: SubLabel)

  /** The listing as drawn: the header count and the rows. */
  datatype Listing = Listing(count: nat, rows: seq<Row>)

  /** The rows of `features.map((f, i) => …)`. */
  function Rows(fs: seq<Feature>): (rows: seq<Row>)
    ensures |rows| == |fs|
    ensures forall i :: 0 <= i < |fs| ==> rows[i].feature == fs[i]
  {
    seq(|fs|, i requires 0 <= i < |fs| => Row(fs[i], RowLabel(fs[i].properties, i), RowSubLabel(fs[i].properties)))
  }

  /** The component: nothing for no data or an empty collection, otherwise
      the count and one row per feature in collection order. */
  function Render(data: Option<FeatureCollection>): (r: Option<Listing>)
    ensures r.None? <==> data.None? || |data.value.features| == 0
    ensures r.Some? ==> r.value.count == |r.value.rows| == |data.value.features|
    ensures r.Some? ==> forall i :: 0 <= i < |r.value.rows| ==> r.value.rows[i].feature == data.value.features[i]
  {
    var fs := if data.Some? then data.value.features else [];
    if |fs| == 0 then None else Some(Listing(|fs|, Rows(fs)))
  }

  /** The listing is drawn exactly when the viewport draws the data layer. */
  lemma RenderMatchesViewport(data: Option<FeatureCollection>)
    ensures Render(data).Some? <==> Viewport.HasData(data)
  {
  }

  /** Each row's label and sub-label are read from its own feature. */
  lemma RowReadsOwnFeature(data: Option<FeatureCollection>, i: nat)
    requires Render(data).Some? && i < Render(data).value.count
    ensures var row := Render(data).value.rows[i];
            var props := data.value.features[i].properties;
            row.caption == RowLabel(props, i) && row.detail == RowSubLabel(props)
  {
  }

  /** The component's own state: whether the list is open and which row, if
      any, has its text expanded. */
  datatype ListState = ListState(visible: bool, expanded: Option<nat>)

  /** The list opens shown with nothing expanded. */
  const InitialList: ListState := ListState(true, None)

  /** `setVisible((v) => !v)`. */
  function ToggleVisible(s: ListState): (r: ListState)
    ensures r.visible != s.visible && r.expanded == s.expanded
  {
    s.(visible := !s.visible)
  }

  /** `setExpandedIndex((prev) => (prev === i ? null : i))`. */
  function ToggleExpanded(s: ListState, i: nat): (r: ListState)
    ensures r.visible == s.visible
    ensures r.expanded == Some(i) <==> s.expanded != Some(i)
    ensures r.expanded.None? <==> s.expanded == Some(i)
  {
    s.(expanded := if s.expanded == Some(i) then None else Some(i))
  }

  /** Whether row `j` shows its full text. */
  predicate IsExpanded(s: ListState, j: nat) {
    s.expanded == Some(j)
  }

  /** The state after the rows in `taps` are toggled in turn. */
  function ToggleAll(s: ListState, taps: seq<nat>): (r: ListState)
    ensures r.visible == s.visible
    decreases |taps|
  {
    if |taps| == 0 then s
    else ToggleExpanded(ToggleAll(s, taps[..|taps| - 1]), taps[|taps| - 1])
  }

  /** After any taps, the expanded row, if any, is the last row tapped, so
      at most one row is ever expanded. */
  lemma ExpandedIsLastTapped(s: ListState, taps: seq<nat>, j: nat)
    requires |taps| > 0 && IsExpanded(ToggleAll(s, taps), j)
    ensures j == taps[|taps| - 1]
  {
  }

  /** Toggling a row twice puts that row back as it was and leaves every
      other row collapsed. */
  lemma ToggleTwice(s: ListState, i: nat, j: nat)
    ensures var r := ToggleExpanded(ToggleExpanded(s, i), i);
            && (IsExpanded(r, i) <==> IsExpanded(s, i))
            && (j != i ==> !IsExpanded(r, j))
  {
  }

  /** Expanding a row collapses whichever row was expanded before. */
  lemma ToggleCollapsesOthers(s: ListState, i: nat, j: nat)
    requires i != j
    ensures !IsExpanded(ToggleExpanded(s, i), j)
  {
  }
}

=== FILE: geodata.dfy ===
/** The `useGeoData` hook (hooks/use-geodata.ts) as a state machine over
    `(data, loading, error, isMocked)`. A fetch is a `Begin` step (the
    synchronous setters before the first `await`) followed by a `Settle`
    step (the setters after the response arrives). */
module GeoData {
  import opened Wrappers
  import opened GeoJson
  import opened Bounds
  import opened MockData
  import opened Http

  datatype GeoState = GeoState(data: Option<FeatureCollection>, loading: bool, error: Option<string>, isMocked: bool)

  /** The hook's initial state. */
  const Initial: GeoState := GeoState(None, false, None, false)

  /** `PRESET_URLS`. */
  function PresetUrl(p: PresetId): string {
    match p
    case Earthquakes => "https://earthquake.usgs.gov/earthquakes/feed/v1.0/summary/all_day.geojson"
    case CityTrees => "https://opendata.paris.fr/api/explore/v2.1/catalog/datasets/les-arbres/exports/geojson"
    case SatelliteAnomalies => "https://raw.githubusercontent.com/datasets/geo-boundaries-world-110m/master/countries.geojson"
  }

  /** `setLoading(true); setError(null); setIsMocked(false)`; the data shown
      so far stays until the response settles. */
  function Begin(s: GeoState): (r: GeoState)
    ensures r.loading && r.error.None? && !r.isMocked && r.data == s.data
  {
    s.(loading := true, error := None, isMocked := false)
  }

  /** What a custom URL's response commits: a collection, the single feature
      wrapped as one, or the thrown error's message. */
  function UrlOutcome(resp: Response<Json>): (o: Result<FeatureCollection>)
    ensures resp.Body? && IsFeatureCollection(resp.value) ==> o == Ok(AsCollection(resp.value))
    ensures resp.Body? && IsFeature(resp.value) ==> o == Ok(WrapFeature(resp.value))
    ensures resp.Body? && !IsFeatureCollection(resp.value) && !IsFeature(resp.value) ==> o == Err("Invalid GeoJSON")
    ensures !resp.Body? ==> o == Err(FailureMessage(resp))
  {
    match resp
    case Body(raw) =>
      if IsFeatureCollection(raw) then Ok(AsCollection(raw))
      else if IsFeature(raw) then Ok(WrapFeature(raw))
      else Err("Invalid GeoJSON")
    case _ => Err(FailureMessage(resp))
  }

  /** The `try`/`catch`/`finally` of `fetchByUrl` once the response is in. */
  function SettleUrl(s: GeoState, resp: Response<Json>): GeoState {
    match UrlOutcome(resp)
    case Ok(fc) => s.(data := Some(fc), loading := false)
    case Err(m) => s.(error := Some(m), data := None, loading := false)
  }

  /** `fetchByUrl(url)` with `resp` the outcome of fetching `url`: loading
      ends, the mock flag is off, and exactly one of data and error is set:
      the collection (even an empty one), the single feature wrapped as a
      collection, or the error message with no data. */
  function FetchByUrl(s: GeoState, resp: Response<Json>): (r: GeoState)
    ensures !r.loading && !r.isMocked
    ensures r.data.Some? <==> r.error.None?
    ensures resp.Body? && IsFeatureCollection(resp.value) ==> r.data == Some(AsCollection(resp.value))
    ensures resp.Body? && IsFeature(resp.value) ==> r.data == Some(WrapFeature(resp.value))
    ensures resp.Body? && !IsFeatureCollection(resp.value) && !IsFeature(resp.value) ==>
              r.data.None? && r.error == Some("Invalid GeoJSON")
    ensures !resp.Body? ==> r.data.None? && r.error == Some(FailureMessage(resp))
  {
    SettleUrl(Begin(s), resp)
  }

  /** Whether a preset response is committed as real data: a non-empty
      collection or a single feature. */
  predicate PresetAccepts(resp: Response<Json>) {
    && resp.Body?
    && ((IsFeatureCollection(resp.value) && |Field(resp.value, "features").value.items| > 0)
        || IsFeature(resp.value))
  }

  /** The `try`/`catch`/`finally` of `fetchPreset` once the response is in;
      any rejection falls back to the mock collection. */
  function SettlePreset(s: GeoState, p: PresetId, resp: Response<Json>, draws: seq<real>, nowMs: int, today: string): GeoState
    requires |draws| >= DrawsNeeded(p) && ValidDraws(draws)
  {
    if resp.Body? && IsFeatureCollection(resp.value) && |Field(resp.value, "features").value.items| > 0 then
      s.(data := Some(AsCollection(resp.value)), loading := false)
    else if resp.Body? && IsFeature(resp.value) then
      s.(data := Some(WrapFeature(resp.value)), loading := false)
    else
      s.(data := Some(GenerateMock(p, draws, nowMs, today)), isMocked := true, loading := false)
  }

  /** `fetchPreset(preset)`: never an error, never empty. Real data when the
      response is a non-empty collection or a feature; otherwise (empty or
      invalid payload, HTTP or network failure) the mock collection, flagged. */
  function FetchPreset(s: GeoState, p: PresetId, resp: Response<Json>, draws: seq<real>, nowMs: int, today: string): (r: GeoState)
    requires |draws| >= DrawsNeeded(p) && ValidDraws(draws)
    ensures !r.loading && r.error.None?
    ensures r.data.Some? && |r.data.value.features| > 0
    ensures r.isMocked <==> !PresetAccepts(resp)
    ensures r.isMocked ==> r.data == Some(GenerateMock(p, draws, nowMs, today))
    ensures resp.Body? && IsFeatureCollection(resp.value) && PresetAccepts(resp) ==> r.data == Some(AsCollection(resp.value))
    ensures resp.Body? && IsFeature(resp.value) ==> r.data == Some(WrapFeature(resp.value))
  {
    SettlePreset(Begin(s), p, resp, draws, nowMs, today)
  }

  /** `clear()`: no data, no error, no mock flag; `loading` untouched. */
  function Clear(s: GeoState): (r: GeoState)
    ensures r.data.None? && r.error.None? && !r.isMocked && r.loading == s.loading
  {
    s.(data := None, error := None, isMocked := false)
  }

  /** `const bbox = data ? computeBBox(data) : null`: no box without data. */
  function DerivedBBox(s: GeoState): (b: Option<BBox>)
    ensures s.data.None? ==> b.None?
    ensures s.data.Some? ==> b == ComputeBBox(s.data.value.features)
  {
    if s.data.None? then None else ComputeBBox(s.data.value.features)
  }

  /** A completed fetch overwrites every field: its result depends on the
      response alone, so the last completed fetch decides the state. */
  lemma FetchByUrlForgetsPast(s1: GeoState, s2: GeoState, resp: Response<Json>)
    ensures FetchByUrl(s1, resp) == FetchByUrl(s2, resp)
  {
  }

  lemma FetchPresetForgetsPast(s1: GeoState, s2: GeoState, p: PresetId, resp: Response<Json>, draws: seq<real>, nowMs: int, today: string)
    requires |draws| >= DrawsNeeded(p) && ValidDraws(draws)
    ensures FetchPreset(s1, p, resp, draws, nowMs, today) == FetchPreset(s2, p, resp, draws, nowMs, today)
  {
  }

  /** Clearing twice is clearing once. */
  lemma ClearIdempotent(s: GeoState)
    ensures Clear(Clear(s)) == Clear(s)
  {
  }

  /** Two overlapping `fetchByUrl` calls, the first failing after the second
      began: nothing discards the stale outcome, so the state ends with both
      the second call's data and the first call's error. */
  lemma OverlappingUrlFetchesKeepStaleError(s: GeoState, fc: Json)
    requires IsFeatureCollection(fc)
    ensures var r := SettleUrl(SettleUrl(Begin(Begin(s)), HttpErr(500)), Body(fc));
            r.data.Some? && r.error.Some?
  {
  }
}

=== FILE: geojson.dfy ===
/** GeoJSON as the dashboard sees it (hooks/use-geodata.ts): a raw JSON value
    checked by the `isFeatureCollection` / `isFeature` / `isGeometry` guards,
    and the typed features the rest of the dashboard reads after the cast. */
module GeoJson {
  import opened Wrappers

  /** A parsed JSON value. Objects are maps from key to value. */
  datatype Json =
    | JNull
    | JBool(b: bool)
    | JNum(n: real)
    | JStr(s: string)
    | JArr(items: seq<Json>)
    | JObj(fields: map<string, Json>)

  /** JavaScript truthiness of a JSON value (`NaN` is not a JSON value). */
  predicate Truthy(j: Json) {
    match j
    case JNull => false
    case JBool(b) => b
    case JNum(n) => n != 0.0
    case JStr(s) => s != ""
    case _ => true
  }

  /** `obj.key` read from an object, `None` standing for `undefined`. */
  function Field(j: Json, key: string): Option<Json> {
    if j.JObj? && key in j.fields then Some(j.fields[key]) else None
  }

  /** `isFeatureCollection`: a non-null object whose `type` is
      "FeatureCollection" and whose `features` is an array. */
  predicate IsFeatureCollection(j: Json) {
    && j.JObj?
    && Field(j, "type") == Some(JStr("FeatureCollection"))
    && Field(j, "features").Some? && Field(j, "features").value.JArr?
  }

  /** `isFeature`: a non-null object whose `type` is "Feature" and which has a
      `geometry` key (whatever its value). */
  predicate IsFeature(j: Json) {
    && j.JObj?
    && Field(j, "type") == Some(JStr("Feature"))
    && "geometry" in j.fields
  }

  /** The geometry type names the bounding-box code understands. */
  const GeometryTypes: seq<string> :=
    ["Point", "MultiPoint", "LineString", "MultiLineString", "Polygon", "MultiPolygon"]

  /** `isGeometry`: a non-null object whose `type` is one of the six names. */
  predicate IsGeometry(j: Json) {
    && j.JObj?
    && Field(j, "type").Some?
    && Field(j, "type").value.JStr?
    && Field(j, "type").value.s in GeometryTypes
  }

  /** A position's longitude and latitude (any further ordinates are ignored). */
  datatype Position = Position(lon: real, lat: real)

  /** A geometry with the coordinate nesting its type names; `Other` is every
      geometry the bounding-box code returns null for. */
  datatype Geometry =
    | Point(coordinates: Position)
    | MultiPoint(points: seq<Position>)
    | LineString(line: seq<Position>)
    | MultiLineString(lines: seq<seq<Position>>)
    | Polygon(rings: seq<seq<Position>>)
    | MultiPolygon(polygons: seq<seq<seq<Position>>>)
    | Other

  /** A feature: its geometry (`None` when the `geometry` value is falsy) and its
      properties (empty when `properties` is missing, null or not an object). */
  datatype Feature = Feature(geometry: Option<Geometry>, properties: map<string, Json>)

  datatype FeatureCollection = FeatureCollection(features: seq<Feature>)

  function DecodePosition(j: Json): Option<Position> {
    if j.JArr? && |j.items| >= 2 && j.items[0].JNum? && j.items[1].JNum?
    then Some(Position(j.items[0].n, j.items[1].n))
    else None
  }

  function DecodePositions(items: seq<Json>): (r: Option<seq<Position>>)
    ensures r.Some? ==> |r.value| == |items|
  {
    if |items| == 0 then Some([])
    else
      match (DecodePositions(items[..|items| - 1]), DecodePosition(items[|items| - 1]))
      case (Some(ps), Some(p)) => Some(ps + [p])
      case _ => None
  }

  function DecodeLines(items: seq<Json>): Option<seq<seq<Position>>> {
    if |items| == 0 then Some([])
    else
      var last := items[|items| - 1];
      match (DecodeLines(items[..|items| - 1]), if last.JArr? then DecodePositions(last.items) else None)
      case (Some(ls), Some(l)) => Some(ls + [l])
      case _ => None
  }

  function DecodePolygons(items: seq<Json>): Option<seq<seq<seq<Position>>>> {
    if |items| == 0 then Some([])
    else
      var last := items[|items| - 1];
      match (DecodePolygons(items[..|items| - 1]), if last.JArr? then DecodeLines(last.items) else None)
      case (Some(ps), Some(p)) => Some(ps + [p])
      case _ => None
  }

  /** The typed reading of a truthy geometry value: one of the six shapes when
      `isGeometry` holds and its `coordinates` have the nesting the type names,
      `Other` otherwise. */
  function DecodeGeometry(j: Json): (g: Geometry)
    ensures !IsGeometry(j) ==> g == Other
  {
    if !IsGeometry(j) then Other
    else
      var kind := Field(j, "type").value.s;
      var c := Field(j, "coordinates");
      if c.None? then Other
      else if kind == "Point" then
        (match DecodePosition(c.value) case Some(p) => Point(p) case None => Other)
      else if !c.value.JArr? then Other
      else if kind == "MultiPoint" || kind == "LineString" then
        (match DecodePositions(c.value.items)
         case Some(ps) => if kind == "MultiPoint" then MultiPoint(ps) else LineString(ps)
         case None => Other)
      else if kind == "MultiLineString" || kind == "Polygon" then
        (match DecodeLines(c.value.items)
         case Some(ls) => if kind == "Polygon" then Polygon(ls) else MultiLineString(ls)
         case None => Other)
      else
        (match DecodePolygons(c.value.items) case Some(ps) => MultiPolygon(ps) case None => Other)
  }

  /** The typed reading of one element of a `features` array. An element
      that is not an object has neither field and reads as a feature with no
      geometry and no properties. */
  function DecodeFeature(j: Json): (f: Feature)
    ensures f.geometry.None? <==> (Field(j, "geometry").None? || !Truthy(Field(j, "geometry").value))
  {
    var g := Field(j, "geometry");
    var p := Field(j, "properties");
    Feature(
      if g.Some? && Truthy(g.value) then Some(DecodeGeometry(g.value)) else None,
      if p.Some? && p.value.JObj? then p.value.fields else map[])
  }

  function DecodeFeatures(items: seq<Json>): (fs: seq<Feature>)
    ensures |fs| == |items|
    ensures forall i :: 0 <= i < |items| ==> fs[i] == DecodeFeature(items[i])
  {
    seq(|items|, i requires 0 <= i < |items| => DecodeFeature(items[i]))
  }

  /** The collection a value passing `isFeatureCollection` is cast to: one
      feature per element of its `features` array, in order. */
  function AsCollection(j: Json): (fc: FeatureCollection)
    requires IsFeatureCollection(j)
    ensures |fc.features| == |Field(j, "features").value.items|
    ensures forall i :: 0 <= i < |fc.features| ==> fc.features[i] == DecodeFeature(Field(j, "features").value.items[i])
  {
    FeatureCollection(DecodeFeatures(Field(j, "features").value.items))
  }

  /** `{ type: "FeatureCollection", features: [raw] }` for a value passing `isFeature`. */
  function WrapFeature(j: Json): (fc: FeatureCollection)
    requires IsFeature(j)
    ensures |fc.features| == 1 && fc.features[0] == DecodeFeature(j)
  {
    FeatureCollection([DecodeFeature(j)])
  }

  /** The raw feature wrapped in a one-element `FeatureCollection` object. */
  function CollectionOf(j: Json): Json {
    JObj(map["type" := JStr("FeatureCollection"), "features" := JArr([j])])
  }

  /** Wrapping a feature gives what the collection object holding just that
      feature would be cast to. */
  lemma WrapFeatureIsCollectionOfOne(j: Json)
    requires IsFeature(j)
    ensures IsFeatureCollection(CollectionOf(j))
    ensures AsCollection(CollectionOf(j)) == WrapFeature(j)
  {
    assert Field(CollectionOf(j), "features").value.items == [j];
  }

  /** The two guards never both hold. */
  lemma GuardsExclusive(j: Json)
    ensures !(IsFeatureCollection(j) && IsFeature(j))
  {
  }

  /** Decoding a well-formed position reads its first two numbers. */
  lemma {:induction false} DecodePositionsExact(ps: seq<Position>)
    ensures DecodePositions(Encode(ps)) == Some(ps)
  {
    if |ps| > 0 {
      assert Encode(ps)[..|ps| - 1] == Encode(ps[..|ps| - 1]);
      DecodePositionsExact(ps[..|ps| - 1]);
      assert ps[..|ps| - 1] + [ps[|ps| - 1]] == ps;
    }
  }

  /** The JSON text of a list of positions, `[[lon, lat], ...]`. */
  function Encode(ps: seq<Position>): (js: seq<Json>)
    ensures |js| == |ps|
  {
    seq(|ps|, i requires 0 <= i < |ps| => JArr([JNum(ps[i].lon), JNum(ps[i].lat)]))
  }

  /** A LineString written out as JSON decodes to the same LineString, so
      `isGeometry` objects with well-formed coordinates keep their shape. */
  lemma DecodeLineStringRoundTrip(ps: seq<Position>)
    ensures DecodeGeometry(JObj(map["type" := JStr("LineString"), "coordinates" := JArr(Encode(ps))]))
            == LineString(ps)
  {
    var j := JObj(map["type" := JStr("LineString"), "coordinates" := JArr(Encode(ps))]);
    assert Field(j, "type").value.s == GeometryTypes[2];
    DecodePositionsExact(ps);
  }
}

=== FILE: http.dfy ===
/** The outcome of `fetch(url)` followed by `res.json()`, as the hooks see it. */
module Http {
  import opened Wrappers
  import opened Strings

  /** `NetErr`: `fetch` or `res.json()` rejected, with the rejection's message
      when it was an `Error`; `HttpErr`: a response whose `ok` is false;
      `Body`: the parsed JSON of an ok response. */
  datatype Response<T> = NetErr(reason: Option<string>) | HttpErr(status: nat) | Body(value: T)

  /** The error message the hooks store for a failed request:
      `e instanceof Error ? e.message : "Failed to load"`, where a non-ok
      response throws `new Error("HTTP " + status)`. */
  function FailureMessage<T>(r: Response<T>): (m: string)
    requires !r.Body?
    ensures r.HttpErr? ==> |m| > 5 && m[..5] == "HTTP " && m[5..] == NatToString(r.status)
  {
    match r
    case NetErr(reason) => reason.GetOr("Failed to load")
    case HttpErr(status) => "HTTP " + NatToString(status)
  }

  /** Different failing statuses give different messages. */
  lemma HttpMessagesDistinct<T>(a: nat, b: nat)
    ensures a != b ==> FailureMessage<T>(HttpErr(a)) != FailureMessage<T>(HttpErr(b))
  {
    if FailureMessage<T>(HttpErr(a)) == FailureMessage<T>(HttpErr(b)) {
      assert FailureMessage<T>(HttpErr(a))[5..] == FailureMessage<T>(HttpErr(b))[5..];
      NatToStringInjective(a, b);
    }
  }
}

=== FILE: mapengine.dfy ===
/** An abstract MapLibre map: a set of named sources and an ordered stack of
    layers (first drawn first, so later layers are on top). Each operation
    carries, as its precondition, the condition under which MapLibre accepts
    the call rather than raising an error. This is the engine
    components/map/map-viewport.tsx drives. */
module MapEngine {
  import opened Wrappers
  import opened GeoJson

  /** The `visibility` layout property: "visible" or "none". */
  datatype Visibility = Visible | Hidden

  datatype LayerKind = Symbol | Raster | FillExtrusion | Circle | OtherKind

  /** A style layer: its id, type, source (background layers have none),
      whether it has a `text-field` layout (label layers do), its visibility,
      and its opacity paint property (1 when not set). */
  datatype Layer = Layer(
    id: string,
    kind: LayerKind,
    source: Option<string>,
    textField: bool,
    visibility: Visibility,
    opacity: real)

  datatype Source =
    | RasterTiles(tiles: seq<string>)
    | RasterDem(url: string)
    | VectorTiles(url: string)
    | GeoJsonData(data: FeatureCollection)

  datatype Engine = Engine(sources: map<string, Source>, layers: seq<Layer>)

  /** `map.getLayer(id)` is defined. */
  predicate HasId(ls: seq<Layer>, id: string) {
    exists i :: 0 <= i < |ls| && ls[i].id == id
  }

  predicate DistinctIds(ls: seq<Layer>) {
    forall i, j :: 0 <= i < j < |ls| ==> ls[i].id != ls[j].id
  }

  /** Every layer's source is a source of the map. */
  predicate SourcesResolve(e: Engine) {
    forall i :: 0 <= i < |e.layers| && e.layers[i].source.Some? ==> e.layers[i].source.value in e.sources
  }

  /** What MapLibre maintains: no two layers share an id, every layer's
      source exists. */
  predicate WellFormed(e: Engine) {
    DistinctIds(e.layers) && SourcesResolve(e)
  }

  /** Position of the layer with the given id. */
  function IndexOf(ls: seq<Layer>, id: string): (k: nat)
    requires HasId(ls, id)
    ensures k < |ls| && ls[k].id == id
    ensures forall j :: 0 <= j < k ==> ls[j].id != id
  {
    if ls[0].id == id then 0
    else
      assert HasId(ls[1..], id) by {
        var i :| 0 <= i < |ls| && ls[i].id == id;
        assert ls[1..][i - 1] == ls[i];
      }
      1 + IndexOf(ls[1..], id)
  }

  /** `map.getLayer(id)`. */
  function LayerNamed(ls: seq<Layer>, id: string): (l: Layer)
    requires HasId(ls, id)
    ensures l in ls && l.id == id
  {
    ls[IndexOf(ls, id)]
  }

  /** The stack with `block` inserted at position `k`. */
  function Splice(ls: seq<Layer>, k: nat, block: seq<Layer>): (r: seq<Layer>)
    requires k <= |ls|
    ensures |r| == |ls| + |block|
  {
    ls[..k] + block + ls[k..]
  }

  /** Where `addLayer(layer, before)` inserts: just below `before`, or on top. */
  function AnchorPos(ls: seq<Layer>, before: Option<string>): (k: nat)
    requires before.Some? ==> HasId(ls, before.value)
    ensures k <= |ls|
  {
    if before.Some? then IndexOf(ls, before.value) else |ls|
  }

  /** The stack with every layer of the given id removed (there is at most one). */
  function Without(ls: seq<Layer>, id: string): (r: seq<Layer>)
    ensures |r| <= |ls|
  {
    if |ls| == 0 then []
    else (if ls[0].id == id then [] else [ls[0]]) + Without(ls[1..], id)
  }

  /** Removal keeps exactly the layers with other ids. */
  lemma {:induction false} WithoutMembers(ls: seq<Layer>, id: string)
    ensures !HasId(Without(ls, id), id)
    ensures forall l :: l in Without(ls, id) ==> l in ls && l.id != id
    ensures forall l :: l in ls && l.id != id ==> l in Without(ls, id)
  {
    if |ls| > 0 {
      WithoutMembers(ls[1..], id);
      var r := Without(ls, id);
      var head: seq<Layer> := if ls[0].id == id then [] else [ls[0]];
      assert r == head + Without(ls[1..], id);
      forall l | l in ls && l.id != id
        ensures l in r
      {
        if l != ls[0] {
          var j :| 0 <= j < |ls| && ls[j] == l;
          assert ls[1..][j - 1] == l;
        }
      }
      forall l | l in r
        ensures l in ls && l.id != id
      {
        if l !in head {
          assert l in Without(ls[1..], id);
        }
      }
    }
  }

  lemma {:induction false} WithoutAppend(a: seq<Layer>, b: seq<Layer>, id: string)
    ensures Without(a + b, id) == Without(a, id) + Without(b, id)
  {
    if |a| == 0 {
      assert a + b == b;
    } else {
      var h := if a[0].id == id then [] else [a[0]];
      assert (a + b)[0] == a[0] && (a + b)[1..] == a[1..] + b;
      WithoutAppend(a[1..], b, id);
      assert Without(a + b, id) == h + (Without(a[1..], id) + Without(b, id));
      assert Without(a, id) == h + Without(a[1..], id);
    }
  }

  /** A slice whose layers all avoid `id` does not contain it. */
  lemma AbsentSlice(ls: seq<Layer>, lo: nat, hi: nat, id: string)
    requires lo <= hi <= |ls|
    requires forall i :: lo <= i < hi ==> ls[i].id != id
    ensures !HasId(ls[lo..hi], id)
  {
    forall i | 0 <= i < hi - lo
      ensures ls[lo..hi][i].id != id
    {
      assert ls[lo..hi][i] == ls[lo + i];
    }
  }

  lemma {:induction false} WithoutAbsent(ls: seq<Layer>, id: string)
    requires !HasId(ls, id)
    ensures Without(ls, id) == ls
  {
    if |ls| > 0 {
      AbsentSlice(ls, 1, |ls|, id);
      assert ls[1..|ls|] == ls[1..];
      WithoutAbsent(ls[1..], id);
    }
  }

  lemma {:induction false} WithoutDistinct(ls: seq<Layer>, id: string)
    requires DistinctIds(ls)
    ensures DistinctIds(Without(ls, id))
  {
    if |ls| > 0 {
      WithoutDistinct(ls[1..], id);
      WithoutMembers(ls[1..], id);
      var rest := Without(ls[1..], id);
      forall l | l in rest
        ensures l.id != ls[0].id
      {
        var j :| 0 <= j < |ls[1..]| && ls[1..][j] == l;
        assert ls[j + 1] == l;
      }
    }
  }

  lemma SpliceOneDistinct(ls: seq<Layer>, k: nat, l: Layer)
    requires k <= |ls| && DistinctIds(ls) && !HasId(ls, l.id)
    ensures DistinctIds(Splice(ls, k, [l]))
  {
    var r := Splice(ls, k, [l]);
    forall i, j | 0 <= i < j < |r|
      ensures r[i].id != r[j].id
    {
      var oi := if i < k then i else if i == k then -1 else i - 1;
      var oj := if j < k then j else if j == k then -1 else j - 1;
      if oi >= 0 && oj >= 0 {
        assert r[i] == ls[oi] && r[j] == ls[oj];
      } else if oi < 0 {
        assert r[j] == ls[oj];
      } else {
        assert r[i] == ls[oi];
      }
    }
  }

  /** `map.addSource(id, source)`: accepted only for a new id. */
  function AddSource(e: Engine, id: string, src: Source): (r: Engine)
    requires id !in e.sources
    ensures r.layers == e.layers
    ensures r.sources.Keys == e.sources.Keys + {id} && r.sources[id] == src
    ensures forall k :: k in e.sources ==> r.sources[k] == e.sources[k]
    ensures WellFormed(e) ==> WellFormed(r)
  {
    e.(sources := e.sources[id := src])
  }

  /** `map.removeSource(id)`: accepted only for an existing source that no
      layer uses. */
  function RemoveSource(e: Engine, id: string): (r: Engine)
    requires id in e.sources
    requires forall i :: 0 <= i < |e.layers| ==> e.layers[i].source != Some(id)
    ensures r.layers == e.layers
    ensures r.sources.Keys == e.sources.Keys - {id}
    ensures forall k :: k in r.sources ==> r.sources[k] == e.sources[k]
    ensures WellFormed(e) ==> WellFormed(r)
  {
    e.(sources := e.sources - {id})
  }

  /** When `map.addLayer(layer, before)` is accepted: a new id, an existing
      source, and an existing anchor when one is given. */
  predicate CanAddLayer(e: Engine, l: Layer, before: Option<string>) {
    && !HasId(e.layers, l.id)
    && (l.source.Some? ==> l.source.value in e.sources)
    && (before.Some? ==> HasId(e.layers, before.value))
  }

  /** `map.addLayer(layer, before)`: the layer lands immediately below the
      anchor, or on top of the stack when there is none; nothing else moves. */
  function AddLayer(e: Engine, l: Layer, before: Option<string>): (r: Engine)
    requires CanAddLayer(e, l, before)
    ensures r.sources == e.sources
    ensures |r.layers| == |e.layers| + 1
    ensures r.layers[AnchorPos(e.layers, before)] == l
    ensures before.Some? ==> r.layers[AnchorPos(e.layers, before) + 1].id == before.value
    ensures before.None? ==> r.layers[|r.layers| - 1] == l
  {
    e.(layers := Splice(e.layers, AnchorPos(e.layers, before), [l]))
  }

  /** Nothing but the new layer moves: the layers below the insertion point
      stay where they were and those above shift up by one. */
  lemma AddLayerKeepsOthers(e: Engine, l: Layer, before: Option<string>)
    requires CanAddLayer(e, l, before)
    ensures var k := AnchorPos(e.layers, before);
            var r := AddLayer(e, l, before);
            && (forall i :: 0 <= i < k ==> r.layers[i] == e.layers[i])
            && (forall i :: k <= i < |e.layers| ==> r.layers[i + 1] == e.layers[i])
  {
  }

  /** After `addLayer(l, before)` the layer ids are the old ones plus `l.id`. */
  lemma AddLayerIds(e: Engine, l: Layer, before: Option<string>)
    requires CanAddLayer(e, l, before)
    ensures forall x :: HasId(AddLayer(e, l, before).layers, x) <==> x == l.id || HasId(e.layers, x)
  {
    SpliceKeepsIds(e.layers, AnchorPos(e.layers, before), [l]);
    SpliceOneIds(e.layers, AnchorPos(e.layers, before), l);
  }

  /** `addLayer` keeps ids distinct and sources resolved. */
  lemma AddLayerWellFormed(e: Engine, l: Layer, before: Option<string>)
    requires CanAddLayer(e, l, before)
    ensures WellFormed(e) ==> WellFormed(AddLayer(e, l, before))
  {
    AddLayerFacts(e, l, AnchorPos(e.layers, before));
  }

  /** The block's layers sit at the insertion point, in order. */
  lemma SpliceAt(ls: seq<Layer>, k: nat, block: seq<Layer>, j: nat)
    requires k <= |ls| && j < |block|
    ensures Splice(ls, k, block)[k + j] == block[j]
  {
  }

  /** The layer that was at the insertion point now sits just past the block. */
  lemma SpliceAfterBlock(ls: seq<Layer>, k: nat, block: seq<Layer>)
    requires k < |ls|
    ensures Splice(ls, k, block)[k + |block|] == ls[k]
  {
  }

  lemma SpliceOneIds(ls: seq<Layer>, k: nat, l: Layer)
    requires k <= |ls|
    ensures forall x :: HasId(Splice(ls, k, [l]), x) ==> x == l.id || HasId(ls, x)
    ensures HasId(Splice(ls, k, [l]), l.id)
  {
    var r := Splice(ls, k, [l]);
    assert r[k] == l;
    forall x | HasId(r, x) && x != l.id
      ensures HasId(ls, x)
    {
      var i :| 0 <= i < |r| && r[i].id == x;
      if i < k {
        assert r[i] == ls[i];
      } else {
        assert r[(i - 1) + 1] == ls[i - 1];
      }
    }
  }

  lemma SpliceKeepsIds(ls: seq<Layer>, k: nat, block: seq<Layer>)
    requires k <= |ls|
    ensures forall x :: HasId(ls, x) ==> HasId(Splice(ls, k, block), x)
  {
    var r := Splice(ls, k, block);
    forall x | HasId(ls, x)
      ensures HasId(r, x)
    {
      var i :| 0 <= i < |ls| && ls[i].id == x;
      if i < k {
        assert r[i] == ls[i];
      } else {
        assert r[i + |block|] == ls[i];
      }
    }
  }

  /** Inserting `c` at the seam of an earlier insertion `a + b`. */
  lemma SpliceSplice(ls: seq<Layer>, k: nat, a: seq<Layer>, b: seq<Layer>, c: seq<Layer>)
    requires k <= |ls|
    ensures Splice(Splice(ls, k, a + b), k + |a|, c) == Splice(ls, k, a + c + b)
  {
    var s1 := Splice(ls, k, a + b);
    assert s1[..k + |a|] == ls[..k] + a;
    assert s1[k + |a|..] == b + ls[k..];
  }

  /** A layer inserted with a fresh id is found where it was inserted. */
  lemma IndexOfInserted(ls: seq<Layer>, k: nat, l: Layer)
    requires k <= |ls| && !HasId(ls, l.id)
    ensures HasId(Splice(ls, k, [l]), l.id) && IndexOf(Splice(ls, k, [l]), l.id) == k
  {
    assert Splice(ls, k, [l])[k] == l;
  }

  /** Adding `upper` below an anchor and then `lower` below `upper` lands
      the two as one block, `lower` first, where the anchor was. */
  lemma AddPairBelow(e: Engine, upper: Layer, lower: Layer, anchor: string)
    requires CanAddLayer(e, upper, Some(anchor))
    requires lower.id != upper.id && !HasId(e.layers, lower.id)
    requires lower.source.Some? ==> lower.source.value in e.sources
    ensures CanAddLayer(AddLayer(e, upper, Some(anchor)), lower, Some(upper.id))
    ensures AddLayer(AddLayer(e, upper, Some(anchor)), lower, Some(upper.id)).layers
              == Splice(e.layers, IndexOf(e.layers, anchor), [lower, upper])
  {
    var k := IndexOf(e.layers, anchor);
    IndexOfInserted(e.layers, k, upper);
    AddLayerIds(e, upper, Some(anchor));
    SpliceSplice(e.layers, k, [], [upper], [lower]);
    assert [] + [upper] == [upper];
    assert [] + [lower] + [upper] == [lower, upper];
  }

  /** In a stack of distinct ids, a layer's id locates that layer. */
  lemma IndexOfDistinct(ls: seq<Layer>, j: nat)
    requires DistinctIds(ls) && j < |ls|
    ensures HasId(ls, ls[j].id) && IndexOf(ls, ls[j].id) == j
  {
  }

  lemma AddLayerFacts(e: Engine, l: Layer, k: nat)
    requires k <= |e.layers| && !HasId(e.layers, l.id)
    requires l.source.Some? ==> l.source.value in e.sources
    ensures Without(Splice(e.layers, k, [l]), l.id) == e.layers
    ensures WellFormed(e) ==> WellFormed(e.(layers := Splice(e.layers, k, [l])))
  {
    SpliceWithout(e.layers, k, l);
    if WellFormed(e) {
      SpliceOneDistinct(e.layers, k, l);
      SpliceResolves(e, k, l);
    }
  }

  /** Removing the only layer named `l.id` from `a + [l] + b`. */
  lemma WithoutMiddle(a: seq<Layer>, l: Layer, b: seq<Layer>)
    requires !HasId(a, l.id) && !HasId(b, l.id)
    ensures Without(a + [l] + b, l.id) == a + b
  {
    WithoutAppend(a + [l], b, l.id);
    WithoutAppend(a, [l], l.id);
    WithoutAbsent(a, l.id);
    WithoutAbsent(b, l.id);
    assert Without([l], l.id) == [] by {
      assert [l][1..] == [];
    }
  }

  /** Removing the inserted layer undoes the insertion. */
  lemma SpliceWithout(ls: seq<Layer>, k: nat, l: Layer)
    requires k <= |ls| && !HasId(ls, l.id)
    ensures Without(Splice(ls, k, [l]), l.id) == ls
  {
    AbsentSlice(ls, 0, k, l.id);
    AbsentSlice(ls, k, |ls|, l.id);
    assert ls[0..k] == ls[..k] && ls[k..|ls|] == ls[k..];
    WithoutMiddle(ls[..k], l, ls[k..]);
    assert ls[..k] + ls[k..] == ls;
  }

  lemma SpliceResolves(e: Engine, k: nat, l: Layer)
    requires k <= |e.layers| && SourcesResolve(e)
    requires l.source.Some? ==> l.source.value in e.sources
    ensures SourcesResolve(e.(layers := Splice(e.layers, k, [l])))
  {
    var r := e.(layers := Splice(e.layers, k, [l]));
    forall i | 0 <= i < |r.layers| && r.layers[i].source.Some?
      ensures r.layers[i].source.value in r.sources
    {
      if i < k {
        assert r.layers[i] == e.layers[i];
      } else if i > k {
        assert r.layers[i] == e.layers[i - 1];
      }
    }
  }

  /** `map.removeLayer(id)`: accepted only for an existing layer. */
  function RemoveLayer(e: Engine, id: string): (r: Engine)
    requires HasId(e.layers, id)
    ensures r.sources == e.sources
    ensures !HasId(r.layers, id)
    ensures |r.layers| < |e.layers|
  {
    WithoutMembers(e.layers, id);
    WithoutShorter(e.layers, id);
    e.(layers := Without(e.layers, id))
  }

  lemma {:induction false} WithoutShorter(ls: seq<Layer>, id: string)
    requires HasId(ls, id)
    ensures |Without(ls, id)| < |ls|
  {
    if ls[0].id != id {
      assert HasId(ls[1..], id) by {
        var i :| 0 <= i < |ls| && ls[i].id == id;
        assert ls[1..][i - 1] == ls[i];
      }
      WithoutShorter(ls[1..], id);
    }
  }

  /** `removeLayer` keeps every other layer and every other id. */
  lemma RemoveLayerKeepsOthers(e: Engine, id: string)
    requires HasId(e.layers, id)
    ensures forall l :: l in e.layers && l.id != id ==> l in RemoveLayer(e, id).layers
    ensures forall l :: l in RemoveLayer(e, id).layers ==> l in e.layers
    ensures forall x :: x != id ==> (HasId(RemoveLayer(e, id).layers, x) <==> HasId(e.layers, x))
  {
    WithoutMembers(e.layers, id);
    WithoutKeepsIds(e.layers, id);
  }

  /** On a well-formed map `removeLayer` removes exactly one layer and keeps
      the map well-formed. */
  lemma RemoveLayerWellFormed(e: Engine, id: string)
    requires HasId(e.layers, id) && WellFormed(e)
    ensures WellFormed(RemoveLayer(e, id)) && |RemoveLayer(e, id).layers| == |e.layers| - 1
  {
    RemoveLayerFactsWF(e, id);
  }

  lemma WithoutKeepsIds(ls: seq<Layer>, id: string)
    ensures forall x :: x != id ==> (HasId(Without(ls, id), x) <==> HasId(ls, x))
  {
    WithoutMembers(ls, id);
    var r := Without(ls, id);
    forall x | x != id
      ensures HasId(r, x) <==> HasId(ls, x)
    {
      if HasId(ls, x) {
        var i :| 0 <= i < |ls| && ls[i].id == x;
        assert ls[i] in r;
      }
      if HasId(r, x) {
        var i :| 0 <= i < |r| && r[i].id == x;
        assert r[i] in ls;
      }
    }
  }

  lemma RemoveLayerFactsWF(e: Engine, id: string)
    requires HasId(e.layers, id) && WellFormed(e)
    ensures WellFormed(e.(layers := Without(e.layers, id)))
    ensures |Without(e.layers, id)| == |e.layers| - 1
  {
    WithoutDistinct(e.layers, id);
    WithoutMembers(e.layers, id);
    var r := e.(layers := Without(e.layers, id));
    forall i | 0 <= i < |r.layers| && r.layers[i].source.Some?
      ensures r.layers[i].source.value in r.sources
    {
      assert r.layers[i] in e.layers;
    }
    WithoutUnique(e.layers, IndexOf(e.layers, id));
  }

  /** In a stack of distinct ids, removing a layer's id removes just that layer. */
  lemma WithoutUnique(ls: seq<Layer>, k: nat)
    requires DistinctIds(ls) && k < |ls|
    ensures Without(ls, ls[k].id) == ls[..k] + ls[k + 1..]
  {
    UniqueAround(ls, k);
    SplitAround(ls, k);
    WithoutMiddle(ls[..k], ls[k], ls[k + 1..]);
  }

  /** A stack is the layers before position `k`, the layer at `k`, and the
      layers after it. */
  lemma SplitAround(ls: seq<Layer>, k: nat)
    requires k < |ls|
    ensures ls == ls[..k] + [ls[k]] + ls[k + 1..]
  {
  }

  /** In a stack of distinct ids, the id at `k` occurs nowhere else. */
  lemma UniqueAround(ls: seq<Layer>, k: nat)
    requires DistinctIds(ls) && k < |ls|
    ensures !HasId(ls[..k], ls[k].id) && !HasId(ls[k + 1..], ls[k].id)
  {
    AbsentSlice(ls, 0, k, ls[k].id);
    AbsentSlice(ls, k + 1, |ls|, ls[k].id);
    assert ls[0..k] == ls[..k] && ls[k + 1..|ls|] == ls[k + 1..];
  }

  /** Undoing an insertion: removing the layer just added gives back the map. */
  lemma RemoveUndoesAdd(e: Engine, l: Layer, before: Option<string>)
    requires CanAddLayer(e, l, before)
    ensures RemoveLayer(AddLayer(e, l, before), l.id) == e
  {
    AddLayerIds(e, l, before);
    SpliceWithout(e.layers, AnchorPos(e.layers, before), l);
  }

  /** Removing a source just added gives back the map. */
  lemma RemoveUndoesAddSource(e: Engine, id: string, src: Source)
    requires id !in e.sources
    requires forall i :: 0 <= i < |e.layers| ==> e.layers[i].source != Some(id)
    ensures RemoveSource(AddSource(e, id, src), id) == e
  {
    assert RemoveSource(AddSource(e, id, src), id).sources == e.sources;
  }

  /** Every layer with the given id rewritten by `f`, the rest unchanged. */
  function UpdateLayers(ls: seq<Layer>, id: string, vis: Option<Visibility>, opacity: Option<real>): (r: seq<Layer>)
    ensures |r| == |ls|
  {
    seq(|ls|, i requires 0 <= i < |ls| =>
      if ls[i].id != id then ls[i]
      else ls[i].(visibility := vis.GetOr(ls[i].visibility), opacity := opacity.GetOr(ls[i].opacity)))
  }

  /** Two stacks with the same ids at the same positions. */
  predicate SameIds(a: seq<Layer>, b: seq<Layer>) {
    |a| == |b| && forall i :: 0 <= i < |a| ==> a[i].id == b[i].id
  }

  lemma SameIdsHasId(a: seq<Layer>, b: seq<Layer>)
    requires SameIds(a, b)
    ensures forall x :: HasId(a, x) <==> HasId(b, x)
  {
    forall x
      ensures HasId(a, x) <==> HasId(b, x)
    {
      if HasId(a, x) {
        var i :| 0 <= i < |a| && a[i].id == x;
        assert b[i].id == x;
      }
      if HasId(b, x) {
        var i :| 0 <= i < |b| && b[i].id == x;
        assert a[i].id == x;
      }
    }
  }

  /** `map.setLayoutProperty(id, "visibility", v)`: only that layer's
      visibility changes. */
  function SetVisibility(e: Engine, id: string, v: Visibility): (r: Engine)
    requires HasId(e.layers, id)
    ensures r.sources == e.sources && |r.layers| == |e.layers|
    ensures forall i :: 0 <= i < |e.layers| ==>
              r.layers[i] == if e.layers[i].id == id then e.layers[i].(visibility := v) else e.layers[i]
    ensures forall name :: HasId(r.layers, name) <==> HasId(e.layers, name)
    ensures WellFormed(e) ==> WellFormed(r)
  {
    var r := e.(layers := UpdateLayers(e.layers, id, Some(v), None));
    assert forall i :: 0 <= i < |e.layers| ==> r.layers[i].id == e.layers[i].id && r.layers[i].source == e.layers[i].source;
    SameIdsHasId(r.layers, e.layers);
    r
  }

  /** Only the last visibility written to a layer counts. */
  lemma SetVisibilityTwice(e: Engine, id: string, a: Visibility, b: Visibility)
    requires HasId(e.layers, id)
    ensures SetVisibility(SetVisibility(e, id, a), id, b) == SetVisibility(e, id, b)
  {
  }

  /** `map.setPaintProperty(id, <opacity>, x)`: only that layer's opacity changes. */
  function SetOpacity(e: Engine, id: string, x: real): (r: Engine)
    requires HasId(e.layers, id)
    ensures r.sources == e.sources && |r.layers| == |e.layers|
    ensures forall i :: 0 <= i < |e.layers| ==>
              r.layers[i] == if e.layers[i].id == id then e.layers[i].(opacity := x) else e.layers[i]
    ensures forall name :: HasId(r.layers, name) <==> HasId(e.layers, name)
    ensures WellFormed(e) ==> WellFormed(r)
  {
    var r := e.(layers := UpdateLayers(e.layers, id, None, Some(x)));
    assert forall i :: 0 <= i < |e.layers| ==> r.layers[i].id == e.layers[i].id && r.layers[i].source == e.layers[i].source;
    SameIdsHasId(r.layers, e.layers);
    r
  }

  /** `source.setTiles(tiles)` on a tile-list source: replaces its tile URLs,
      touching no layer. */
  function SetTiles(e: Engine, id: string, tiles: seq<string>): (r: Engine)
    requires id in e.sources && e.sources[id].RasterTiles?
    ensures r.layers == e.layers
    ensures r.sources.Keys == e.sources.Keys
    ensures r.sources[id] == RasterTiles(tiles)
    ensures forall k :: k in e.sources && k != id ==> r.sources[k] == e.sources[k]
    ensures WellFormed(e) ==> WellFormed(r)
  {
    e.(sources := e.sources[id := RasterTiles(tiles)])
  }
}

=== FILE: mockdata.dfy ===
/** `generateMockGeoJSON` (hooks/use-geodata.ts): the synthetic collection shown
    when a preset cannot be fetched. The `Math.random()` draws are a parameter,
    consumed in the order the source makes them; `Date.now()` and today's ISO
    date are parameters too. */
module MockData {
  import opened Wrappers
  import opened Strings
  import opened GeoJson
  import opened Bounds

  datatype PresetId = Earthquakes | CityTrees | SatelliteAnomalies

  /** Number of mock features per preset. */
  function FeatureCount(p: PresetId): nat {
    match p
    case Earthquakes => 24
    case CityTrees => 40
    case SatelliteAnomalies => 15
  }

  /** Random draws each mock feature consumes (longitude, latitude, then one
      per randomised property). */
  function DrawsPerFeature(p: PresetId): nat {
    match p
    case Earthquakes => 4
    case CityTrees => 3
    case SatelliteAnomalies => 3
  }

  /** Two draws for the centre, then the per-feature draws. */
  function DrawsNeeded(p: PresetId): nat {
    2 + FeatureCount(p) * DrawsPerFeature(p)
  }

  /** Full longitude and latitude extent of the jitter around the centre. */
  function SpreadLon(p: PresetId): real {
    match p
    case Earthquakes => 8.0
    case CityTrees => 0.05
    case SatelliteAnomalies => 6.0
  }

  function SpreadLat(p: PresetId): real {
    match p
    case Earthquakes => 6.0
    case CityTrees => 0.05
    case SatelliteAnomalies => 4.0
  }

  /** Every draw is what `Math.random()` returns: in [0, 1). */
  predicate ValidDraws(draws: seq<real>) {
    forall i :: 0 <= i < |draws| ==> 0.0 <= draws[i] < 1.0
  }

  function CenterLon(draws: seq<real>): real requires |draws| >= 1 { -98.0 + draws[0] * 20.0 }
  function CenterLat(draws: seq<real>): real requires |draws| >= 2 { 38.0 + draws[1] * 10.0 }

  /** The box the jitter keeps every mock point in. */
  function MockArea(p: PresetId, draws: seq<real>): BBox
    requires |draws| >= 2
  {
    BBox(CenterLon(draws) - SpreadLon(p) / 2.0, CenterLat(draws) - SpreadLat(p) / 2.0,
         CenterLon(draws) + SpreadLon(p) / 2.0, CenterLat(draws) + SpreadLat(p) / 2.0)
  }

  const TreeNames: seq<string> := ["Oak", "Maple", "Pine", "Birch", "Willow"]
  const AnomalyTypes: seq<string> := ["thermal", "ndvi_drop", "flood"]

  /** The properties of mock feature `i`, given its property draws. */
  function MockProperties(p: PresetId, i: nat, d: seq<real>, nowMs: int, today: string): map<string, Json>
    requires |d| == DrawsPerFeature(p) - 2
    requires ValidDraws(d)
  {
    match p
    case Earthquakes =>
      map[
        "mag" := JStr(ToFixed(d[0] * 4.0 + 2.0, 1)),
        "place" := JStr("Mock earthquake " + NatToString(i + 1)),
        "time" := JNum((nowMs - i * 3600000) as real),
        "title" := JStr("M " + ToFixed(d[1] * 4.0 + 2.0, 1) + " - Mock")]
    case CityTrees =>
      map[
        "common_name" := JStr(TreeNames[i % 5]),
        "height_m" := JStr(ToFixed(d[0] * 15.0 + 3.0, 1)),
        "id" := JStr("tree-" + NatToString(i + 1))]
    case SatelliteAnomalies =>
      map[
        "anomaly_type" := JStr(AnomalyTypes[i % 3]),
        "confidence" := JStr(ToFixed(d[0] * 0.4 + 0.6, 2)),
        "date" := JStr(today)]
  }

  /** Mock feature `i`: a Point jittered around the centre. */
  function MockFeature(p: PresetId, i: nat, draws: seq<real>, nowMs: int, today: string): (f: Feature)
    requires i < FeatureCount(p) && |draws| >= DrawsNeeded(p) && ValidDraws(draws)
    ensures f.geometry.Some? && f.geometry.value.Point?
    ensures Inside(f.geometry.value.coordinates, MockArea(p, draws))
  {
    var k := DrawsPerFeature(p);
    var base := 2 + i * k;
    assert base + k <= DrawsNeeded(p) by {
      assert (i + 1) * k <= FeatureCount(p) * k;
    }
    var lon := CenterLon(draws) + (draws[base] - 0.5) * SpreadLon(p);
    var lat := CenterLat(draws) + (draws[base + 1] - 0.5) * SpreadLat(p);
    JitterBound(draws[base], SpreadLon(p));
    JitterBound(draws[base + 1], SpreadLat(p));
    Feature(Some(Point(Position(lon, lat))), MockProperties(p, i, draws[base + 2..base + k], nowMs, today))
  }

  lemma JitterBound(d: real, spread: real)
    requires 0.0 <= d < 1.0 && spread > 0.0
    ensures -spread / 2.0 <= (d - 0.5) * spread <= spread / 2.0
  {
  }

  /** `generateMockGeoJSON(preset)`: 24, 40 or 15 Point features, all inside
      the jitter box around the random centre, so never empty and always
      framed by a bounding box. */
  function GenerateMock(p: PresetId, draws: seq<real>, nowMs: int, today: string): (fc: FeatureCollection)
    requires |draws| >= DrawsNeeded(p) && ValidDraws(draws)
    ensures |fc.features| == FeatureCount(p) && |fc.features| > 0
    ensures forall i :: 0 <= i < |fc.features| ==>
              fc.features[i].geometry.Some? && fc.features[i].geometry.value.Point?
              && Inside(fc.features[i].geometry.value.coordinates, MockArea(p, draws))
    ensures ComputeBBox(fc.features).Some?
  {
    var n := FeatureCount(p);
    var fs := seq(n, i requires 0 <= i < n => MockFeature(p, i, draws, nowMs, today));
    assert Contribution(fs[0]).Some?;
    FeatureCollection(fs)
  }
}

=== FILE: openaq.dfy ===
/** The `useOpenAQ` hook (hooks/use-openaq.ts): conversion of an OpenAQ
    "latest" response into a Point FeatureCollection of PM2.5 readings, and
    the `refresh` state transition. */
module OpenAQ {
  import opened Wrappers
  import opened GeoJson
  import opened Http

  /** A value that may be `undefined` (`None`), `null` (`Some(JNull)`) or a
      JSON value of any type, since the API's payload is not checked. */
  type Loose = Option<Json>

  /** `x == null` in JavaScript: undefined or null. */
  predicate Nullish(x: Loose) {
    x.None? || x == Some(JNull)
  }

  /** `a ?? b`. */
  function Coalesce(a: Loose, b: Loose): Loose {
    if Nullish(a) then b else a
  }

  datatype Measurement = Measurement(parameter: Loose, parameterId: Loose, value: Loose)

  datatype Coordinates = Coordinates(latitude: Option<real>, longitude: Option<real>)

  /** One element of `results`; `None` fields are absent or null. */
  datatype Row = Row(
    coordinates: Option<Coordinates>,
    locationId: Option<string>,
    datetime: Option<string>,
    measurements: Option<seq<Measurement>>,
    value: Loose)

  /** `results` is `None` when the response, or its `results`, is null or absent. */
  datatype OpenAQResponse = OpenAQResponse(results: Option<seq<Row>>)

  /** The `find` predicate: parameter "pm25" or parameterId 2 (strict equality). */
  predicate IsPm25(m: Measurement) {
    m.parameter == Some(JStr("pm25")) || m.parameterId == Some(JNum(2.0))
  }

  /** `measurements.find(IsPm25)`: the first matching measurement. */
  function FindPm25(ms: seq<Measurement>): (r: Option<nat>)
    ensures r.Some? ==> r.value < |ms| && IsPm25(ms[r.value])
                        && forall j :: 0 <= j < r.value ==> !IsPm25(ms[j])
    ensures r.None? ==> forall j :: 0 <= j < |ms| ==> !IsPm25(ms[j])
  {
    if |ms| == 0 then None
    else if IsPm25(ms[0]) then Some(0)
    else
      match FindPm25(ms[1..])
      case Some(k) => Some(k + 1)
      case None => None
  }

  /** The PM2.5 value a row resolves to: with a non-empty `measurements`
      list, the first PM2.5 measurement's value, falling back to `row.value`
      when there is none or its value is nullish; otherwise `row.value`. */
  function ResolvePm25(row: Row): (v: Loose)
    ensures row.measurements.None? || |row.measurements.value| == 0 ==> v == row.value
    ensures row.measurements.Some? && |row.measurements.value| > 0 ==>
              match FindPm25(row.measurements.value)
              case None => v == row.value
              case Some(k) =>
                v == (if Nullish(row.measurements.value[k].value) then row.value else row.measurements.value[k].value)
  {
    if row.measurements.Some? && |row.measurements.value| > 0 then
      var found := FindPm25(row.measurements.value);
      var pmValue: Loose := if found.None? then None else row.measurements.value[found.value].value;
      Coalesce(pmValue, row.value)
    else row.value
  }

  /** The feature a row becomes, or `None` when it is skipped: no latitude or
      longitude, or a PM2.5 value that is missing or not a number. The point
      is `[lon, lat]`; `locationId` and `datetime` are copied when present. */
  function RowFeature(row: Row): (f: Option<Feature>)
    ensures f.Some? <==> row.coordinates.Some? && row.coordinates.value.latitude.Some?
                         && row.coordinates.value.longitude.Some?
                         && ResolvePm25(row).Some? && ResolvePm25(row).value.JNum?
    ensures f.Some? ==>
              && f.value.geometry == Some(Point(Position(row.coordinates.value.longitude.value, row.coordinates.value.latitude.value)))
              && "pm25" in f.value.properties && f.value.properties["pm25"] == ResolvePm25(row).value
              && ("locationId" in f.value.properties <==> row.locationId.Some?)
              && ("datetime" in f.value.properties <==> row.datetime.Some?)
              && (row.locationId.Some? ==> f.value.properties["locationId"] == JStr(row.locationId.value))
              && (row.datetime.Some? ==> f.value.properties["datetime"] == JStr(row.datetime.value))
  {
    if row.coordinates.None? then None
    else
      var lat := row.coordinates.value.latitude;
      var lon := row.coordinates.value.longitude;
      if lat.None? || lon.None? then None
      else
        var pm := ResolvePm25(row);
        if pm.None? || !pm.value.JNum? then None
        else
          var props := map["pm25" := pm.value];
          var props := if row.locationId.Some? then props["locationId" := JStr(row.locationId.value)] else props;
          var props := if row.datetime.Some? then props["datetime" := JStr(row.datetime.value)] else props;
          Some(Feature(Some(Point(Position(lon.value, lat.value))), props))
  }

  /** A feature produced by the conversion: a Point carrying a numeric `pm25`. */
  predicate IsReading(f: Feature) {
    && f.geometry.Some? && f.geometry.value.Point?
    && "pm25" in f.properties && f.properties["pm25"].JNum?
  }

  /** The `for (const row of results)` loop: one feature per accepted row, in
      row order; each feature is a reading made from one of the rows. */
  function ToFeatures(rows: seq<Row>): (fs: seq<Feature>)
    ensures |fs| <= |rows|
    ensures forall k :: 0 <= k < |fs| ==> IsReading(fs[k])
    ensures forall k :: 0 <= k < |fs| ==> exists i :: 0 <= i < |rows| && RowFeature(rows[i]) == Some(fs[k])
  {
    if |rows| == 0 then []
    else
      var prefix := rows[..|rows| - 1];
      var last := rows[|rows| - 1];
      var head := ToFeatures(prefix);
      assert forall k :: 0 <= k < |head| ==> exists i :: 0 <= i < |rows| && RowFeature(rows[i]) == Some(head[k]) by {
        forall k | 0 <= k < |head|
          ensures exists i :: 0 <= i < |rows| && RowFeature(rows[i]) == Some(head[k])
        {
          var i :| 0 <= i < |prefix| && RowFeature(prefix[i]) == Some(head[k]);
          assert rows[i] == prefix[i];
        }
      }
      head + (match RowFeature(last) case Some(f) => [f] case None => [])
  }

  /** `toGeoJSON(response)`: no `results` gives an empty collection. */
  function ToGeoJSON(resp: OpenAQResponse): (fc: FeatureCollection)
    ensures resp.results.None? ==> fc.features == []
    ensures resp.results.Some? ==> |fc.features| <= |resp.results.value|
    ensures resp.results.Some? ==> fc.features == ToFeatures(resp.results.value)
    ensures forall k :: 0 <= k < |fc.features| ==> IsReading(fc.features[k])
  {
    FeatureCollection(ToFeatures(resp.results.GetOr([])))
  }

  /** The conversion distributes over concatenation, so output order follows
      row order. */
  lemma {:induction false} ToFeaturesAppend(a: seq<Row>, b: seq<Row>)
    ensures ToFeatures(a + b) == ToFeatures(a) + ToFeatures(b)
  {
    if |b| == 0 {
      assert a + b == a;
    } else {
      var b' := b[..|b| - 1];
      assert (a + b)[..|a + b| - 1] == a + b';
      ToFeaturesAppend(a, b');
    }
  }

  /** Number of rows that produce a feature. */
  function AcceptedRows(rows: seq<Row>): nat {
    if |rows| == 0 then 0
    else AcceptedRows(rows[..|rows| - 1]) + (if RowFeature(rows[|rows| - 1]).Some? then 1 else 0)
  }

  /** Exactly one feature per accepted row. */
  lemma {:induction false} ToFeaturesCount(rows: seq<Row>)
    ensures |ToFeatures(rows)| == AcceptedRows(rows)
  {
    if |rows| > 0 {
      ToFeaturesCount(rows[..|rows| - 1]);
    }
  }

  /** A single row yields its own feature or nothing. */
  lemma SingleRow(row: Row)
    ensures ToFeatures([row]) == (match RowFeature(row) case Some(f) => [f] case None => [])
  {
    assert [row][..0] == [];
  }

  /** Rows without a latitude or a longitude produce no feature. */
  lemma MissingCoordinatesSkipped(row: Row)
    requires row.coordinates.None? || row.coordinates.value.latitude.None? || row.coordinates.value.longitude.None?
    ensures ToFeatures([row]) == []
  {
    SingleRow(row);
  }

  /** The state of the hook. */
  datatype AirState = AirState(data: Option<FeatureCollection>, loading: bool, error: Option<string>)

  /** `refresh()` with `resp` the outcome of fetching the latest readings:
      success stores the converted collection and no error; failure stores
      the error message and no data; loading ends either way. */
  function Refresh(s: AirState, resp: Response<OpenAQResponse>): (r: AirState)
    ensures !r.loading
    ensures resp.Body? ==> r.data == Some(ToGeoJSON(resp.value)) && r.error.None?
    ensures !resp.Body? ==> r.data.None? && r.error == Some(FailureMessage(resp))
  {
    var s := s.(loading := true, error := None);
    match resp
    case Body(json) => s.(data := Some(ToGeoJSON(json)), loading := false)
    case _ => s.(error := Some(FailureMessage(resp)), data := None, loading := false)
  }
}

=== FILE: strings.dfy ===
/** The handful of JavaScript string operations the dashboard relies on:
    `String(n)` of a non-negative or negative integer, `padStart(2, "0")`,
    `Number.prototype.toFixed` for non-negative values, and `String.prototype.trim`. */
module Strings {

  predicate IsDigit(c: char) {
    '0' <= c <= '9'
  }

  predicate AllDigits(s: string) {
    forall i :: 0 <= i < |s| ==> IsDigit(s[i])
  }

  function DigitChar(d: nat): (c: char)
    requires d < 10
    ensures IsDigit(c) && c as int - '0' as int == d
  {
    (d + '0' as int) as char
  }

  function DigitValue(c: char): (d: nat)
    requires IsDigit(c)
    ensures d < 10
  {
    c as int - '0' as int
  }

  function Pow10(k: nat): (p: nat)
    ensures p >= 1
  {
    if k == 0 then 1 else 10 * Pow10(k - 1)
  }

  /** `String(n)` for a non-negative integer: shortest decimal, no leading zero. */
  function NatToString(n: nat): (s: string)
    ensures |s| >= 1 && AllDigits(s)
    ensures |s| > 1 ==> s[0] != '0'
  {
    if n < 10 then [DigitChar(n)] else NatToString(n / 10) + [DigitChar(n % 10)]
  }

  /** The value of a string of decimal digits (leading zeros allowed). */
  function ParseDigits(s: string): nat
    requires AllDigits(s)
  {
    if |s| == 0 then 0 else ParseDigits(s[..|s| - 1]) * 10 + DigitValue(s[|s| - 1])
  }

  /** Reading back a printed number gives the number. */
  lemma {:induction false} ParseNatToString(n: nat)
    ensures ParseDigits(NatToString(n)) == n
  {
    if n >= 10 {
      var s := NatToString(n);
      assert s[..|s| - 1] == NatToString(n / 10);
      ParseNatToString(n / 10);
    }
  }

  lemma NatToStringInjective(a: nat, b: nat)
    ensures NatToString(a) == NatToString(b) ==> a == b
  {
    ParseNatToString(a);
    ParseNatToString(b);
  }

  /** A number below 10^k prints in at most k digits. */
  lemma {:induction false} NatToStringLength(n: nat, k: nat)
    requires k >= 1 && n < Pow10(k)
    ensures |NatToString(n)| <= k
  {
    if n >= 10 {
      NatToStringLength(n / 10, k - 1);
    }
  }

  lemma {:induction false} ParseAppend(a: string, b: string)
    requires AllDigits(a) && AllDigits(b)
    ensures AllDigits(a + b)
    ensures ParseDigits(a + b) == ParseDigits(a) * Pow10(|b|) + ParseDigits(b)
  {
    if |b| == 0 {
      assert a + b == a;
    } else {
      var b' := b[..|b| - 1];
      var ab := a + b;
      assert ab[..|ab| - 1] == a + b';
      assert ab[|ab| - 1] == b[|b| - 1];
      ParseAppend(a, b');
      var pa, pb', d := ParseDigits(a), ParseDigits(b'), DigitValue(b[|b| - 1]);
      var q := Pow10(|b'|);
      assert ParseDigits(ab) == (pa * q + pb') * 10 + d;
      assert ParseDigits(b) == pb' * 10 + d;
      assert Pow10(|b|) == q * 10;
      ShiftDigit(pa, q, pb', d);
    }
  }

  /** Appending a digit to the lower part of `pa * q + pb` scales both parts by ten. */
  lemma ShiftDigit(pa: int, q: int, pb: int, d: int)
    ensures (pa * q + pb) * 10 + d == pa * (q * 10) + (pb * 10 + d)
  {
  }

  lemma {:induction false} ParseZeros(z: string)
    requires forall i :: 0 <= i < |z| ==> z[i] == '0'
    ensures AllDigits(z) && ParseDigits(z) == 0
  {
    if |z| > 0 {
      ParseZeros(z[..|z| - 1]);
    }
  }

  /** `String(i)` for any integer (a minus sign before the digits when negative). */
  function IntToString(i: int): (s: string)
    ensures |s| >= 1
    ensures i >= 0 <==> s[0] != '-'
  {
    if i < 0 then "-" + NatToString(-i) else NatToString(i)
  }

  lemma IntToStringInjective(a: int, b: int)
    ensures IntToString(a) == IntToString(b) ==> a == b
  {
    if IntToString(a) == IntToString(b) {
      if a < 0 {
        assert IntToString(a)[1..] == NatToString(-a);
        assert IntToString(b)[1..] == NatToString(-b);
        NatToStringInjective(-a, -b);
      } else {
        NatToStringInjective(a, b);
      }
    }
  }

  function Zeros(k: nat): (z: string)
    ensures |z| == k && forall i :: 0 <= i < k ==> z[i] == '0'
  {
    if k == 0 then "" else "0" + Zeros(k - 1)
  }

  /** `s.padStart(width, "0")`. */
  function PadStartZeros(s: string, width: nat): (r: string)
    ensures |r| == if |s| < width then width else |s|
    ensures AllDigits(s) ==> AllDigits(r) && ParseDigits(r) == ParseDigits(s)
  {
    PadStartZerosParse(s, width);
    if |s| < width then Zeros(width - |s|) + s else s
  }

  lemma PadStartZerosParse(s: string, width: nat)
    ensures AllDigits(s) && |s| < width ==>
              AllDigits(Zeros(width - |s|) + s) && ParseDigits(Zeros(width - |s|) + s) == ParseDigits(s)
  {
    if AllDigits(s) && |s| < width {
      ParseZeros(Zeros(width - |s|));
      ParseAppend(Zeros(width - |s|), s);
    }
  }

  /** `String(n).padStart(2, "0")`: two digits for every n below 100. */
  function PadTwo(n: nat): (s: string)
    ensures AllDigits(s) && ParseDigits(s) == n
    ensures n < 100 ==> |s| == 2
  {
    PadTwoLength(n);
    ParseNatToString(n);
    PadStartZeros(NatToString(n), 2)
  }

  lemma PadTwoLength(n: nat)
    ensures n < 100 ==> |NatToString(n)| <= 2
  {
    if n < 100 {
      NatToStringLength(n, 2);
    }
  }

  /** Two-digit renderings of numbers below 100 are distinct. */
  lemma PadTwoInjective(a: nat, b: nat)
    ensures PadTwo(a) == PadTwo(b) ==> a == b
  {
  }

  /** The integer `toFixed` rounds to: the nearest integer to x * 10^digits,
      ties going up. */
  function RoundScaled(x: real, digits: nat): (n: int)
    ensures x * Pow10(digits) as real - 0.5 < n as real <= x * Pow10(digits) as real + 0.5
  {
    (x * Pow10(digits) as real + 0.5).Floor
  }

  /** `s` with the character `digits + 1` places from the end (the point) removed. */
  function WithoutPoint(s: string, digits: nat): string
    requires |s| >= digits + 1
  {
    s[..|s| - digits - 1] + s[|s| - digits..]
  }

  /** `x.toFixed(digits)` for `x >= 0` and `digits >= 1`: decimal digits with a
      point before the last `digits` of them, denoting x rounded to `digits`
      places. */
  function ToFixed(x: real, digits: nat): (s: string)
    requires x >= 0.0 && digits >= 1
    ensures |s| >= digits + 2 && s[|s| - digits - 1] == '.'
    ensures AllDigits(WithoutPoint(s, digits))
    ensures ParseDigits(WithoutPoint(s, digits)) == RoundScaled(x, digits)
  {
    var n: nat := RoundScaled(x, digits);
    FixedParts(n, digits);
    FixedText(n, digits)
  }

  /** The text of the scaled integer `n` with a point before its last `digits` digits. */
  function FixedText(n: nat, digits: nat): string
    requires digits >= 1
  {
    var p := Pow10(digits);
    DivModNat(n, p);
    var q: nat, m: nat := n / p, n % p;
    NatToString(q) + "." + PadStartZeros(NatToString(m), digits)
  }

  lemma FixedParts(n: nat, digits: nat)
    requires digits >= 1
    ensures |FixedText(n, digits)| >= digits + 2
    ensures FixedText(n, digits)[|FixedText(n, digits)| - digits - 1] == '.'
    ensures AllDigits(WithoutPoint(FixedText(n, digits), digits))
    ensures ParseDigits(WithoutPoint(FixedText(n, digits), digits)) == n
  {
    var p := Pow10(digits);
    DivModNat(n, p);
    var q: nat, m: nat := n / p, n % p;
    var whole := NatToString(q);
    var frac := PadStartZeros(NatToString(m), digits);
    FixedValue(q, m, digits, p);
    var s := whole + "." + frac;
    assert s == FixedText(n, digits);
    assert WithoutPoint(s, digits) == whole + frac by {
      assert s[..|s| - digits - 1] == whole;
      assert s[|s| - digits..] == frac;
    }
    assert q * p + m == n;
  }

  lemma DivModNat(n: nat, p: nat)
    requires p >= 1
    ensures 0 <= n / p && 0 <= n % p < p && (n / p) * p + n % p == n
  {
  }

  lemma FixedValue(q: nat, m: nat, digits: nat, p: nat)
    requires digits >= 1 && p == Pow10(digits) && m < p
    ensures |PadStartZeros(NatToString(m), digits)| == digits
    ensures AllDigits(NatToString(q) + PadStartZeros(NatToString(m), digits))
    ensures ParseDigits(NatToString(q) + PadStartZeros(NatToString(m), digits)) == q * p + m
  {
    var whole := NatToString(q);
    var frac := PadStartZeros(NatToString(m), digits);
    NatToStringLength(m, digits);
    ParseNatToString(m);
    ParseNatToString(q);
    ParseAppend(whole, frac);
  }

  /** The characters `String.prototype.trim` removes: ECMAScript WhiteSpace
      and LineTerminator code points. */
  predicate IsJsWhitespace(c: char) {
    || c == '\t' || c == '\n' || c == '\U{B}' || c == '\U{C}' || c == '\r' || c == ' '
    || c == '\U{A0}' || c == '\U{1680}' || ('\U{2000}' <= c <= '\U{200A}')
    || c == '\U{2028}' || c == '\U{2029}' || c == '\U{202F}' || c == '\U{205F}'
    || c == '\U{3000}' || c == '\U{FEFF}'
  }

  predicate AllWhitespace(s: string) {
    forall i :: 0 <= i < |s| ==> IsJsWhitespace(s[i])
  }

  /** Number of leading whitespace characters. */
  function LeadingWhitespace(s: string): (k: nat)
    ensures k <= |s| && AllWhitespace(s[..k])
    ensures k < |s| ==> !IsJsWhitespace(s[k])
  {
    if |s| == 0 || !IsJsWhitespace(s[0]) then 0
    else
      var k := 1 + LeadingWhitespace(s[1..]);
      assert s[..k] == [s[0]] + s[1..][..k - 1];
      k
  }

  /** Number of trailing whitespace characters. */
  function TrailingWhitespace(s: string): (k: nat)
    ensures k <= |s| && AllWhitespace(s[|s| - k..])
    ensures k < |s| ==> !IsJsWhitespace(s[|s| - k - 1])
  {
    if |s| == 0 || !IsJsWhitespace(s[|s| - 1]) then 0
    else
      var k := 1 + TrailingWhitespace(s[..|s| - 1]);
      assert s[|s| - k..] == s[..|s| - 1][|s| - k..] + [s[|s| - 1]];
      k
  }

  /** `s` is `r` surrounded by whitespace, `r` starting at `lo`. */
  predicate PaddedAt(s: string, r: string, lo: nat) {
    && lo + |r| <= |s| && s[lo..lo + |r|] == r
    && AllWhitespace(s[..lo]) && AllWhitespace(s[lo + |r|..])
  }

  /** `s.trim()`: `s` is the whitespace run, the result, and another whitespace
      run, and the result neither starts nor ends with whitespace. */
  function Trim(s: string): (r: string)
    ensures exists lo :: PaddedAt(s, r, lo)
    ensures |r| > 0 ==> !IsJsWhitespace(r[0]) && !IsJsWhitespace(r[|r| - 1])
    ensures |r| == 0 <==> AllWhitespace(s)
  {
    TrimPadded(s);
    TrimEnds(s);
    TrimEmpty(s);
    TrimText(s)
  }

  function TrimText(s: string): string {
    var rest := s[LeadingWhitespace(s)..];
    rest[..|rest| - TrailingWhitespace(rest)]
  }

  lemma TrimPadded(s: string)
    ensures PaddedAt(s, TrimText(s), LeadingWhitespace(s))
  {
    var lo := LeadingWhitespace(s);
    var rest := s[lo..];
    var hi := |rest| - TrailingWhitespace(rest);
    var r := rest[..hi];
    assert s[lo..lo + |r|] == r;
    assert s[lo + |r|..] == rest[hi..];
  }

  lemma TrimEnds(s: string)
    ensures var r := TrimText(s);
      |r| > 0 ==> !IsJsWhitespace(r[0]) && !IsJsWhitespace(r[|r| - 1])
  {
    var lo := LeadingWhitespace(s);
    var rest := s[lo..];
    var t := TrailingWhitespace(rest);
    var r := rest[..|rest| - t];
    if |r| > 0 {
      assert r[0] == s[lo];
      assert r[|r| - 1] == rest[|rest| - t - 1];
    }
  }

  lemma TrimEmpty(s: string)
    ensures |TrimText(s)| == 0 <==> AllWhitespace(s)
  {
    var lo := LeadingWhitespace(s);
    var rest := s[lo..];
    var t := TrailingWhitespace(rest);
    if t == |rest| {
      assert AllWhitespace(rest) by {
        assert rest[|rest| - t..] == rest;
      }
      assert lo == |s|;
      assert s[..lo] == s;
    }
  }

  /** Trimming twice is trimming once. */
  lemma TrimIdempotent(s: string)
    ensures Trim(Trim(s)) == Trim(s)
  {
    var r := Trim(s);
    var lo := LeadingWhitespace(r);
    if |r| > 0 {
      assert lo == 0;
      assert TrailingWhitespace(r) == 0;
    }
  }
}

=== FILE: timeline.dfy ===
/** The CO₂ timeline slider (components/map/timeline-slider.tsx): a window
    of the last 30 local days ending today, the lookup of a date's position
    in it, and the slider handler that clamps a position and emits the date
    there. "Today" is a parameter. */
module Timeline {
  import opened Calendar

  /** `MAX_INDEX`: the window's last position. */
  const MaxIndex: nat := 29

  /** The date `n` days before `d`. */
  function DaysBefore(d: Date, n: nat): (r: Date)
    requires Valid(d)
    ensures Valid(r)
    decreases n
  {
    if n == 0 then d else PrevDay(DaysBefore(d, n - 1))
  }

  /** The day at window position `i`: position 0 is 29 days ago, position 29
      is today. */
  function WindowDay(today: Date, i: nat): (r: Date)
    requires Valid(today) && i <= MaxIndex
    ensures Valid(r)
  {
    DaysBefore(today, MaxIndex - i)
  }

  /** `getDatesLast30Days`: the formatted days from 29 days ago to today. */
  function Window(today: Date): (w: seq<string>)
    requires Valid(today)
    ensures |w| == MaxIndex + 1
    ensures forall i :: 0 <= i < |w| ==> w[i] == Format(WindowDay(today, i))
  {
    seq(MaxIndex + 1, i requires 0 <= i <= MaxIndex => Format(WindowDay(today, i)))
  }

  /** The last entry is today. */
  lemma WindowEndsToday(today: Date)
    requires Valid(today)
    ensures Window(today)[MaxIndex] == Format(today)
  {
  }

  /** Neighbouring entries are consecutive calendar days. */
  lemma WindowConsecutive(today: Date, i: nat)
    requires Valid(today) && i < MaxIndex
    ensures NextDay(WindowDay(today, i)) == WindowDay(today, i + 1)
  {
    NextPrev(DaysBefore(today, MaxIndex - i - 1));
  }

  /** Going further back gives a strictly earlier day. */
  lemma {:induction false} DaysBeforeEarlier(d: Date, m: nat, n: nat)
    requires Valid(d) && m < n
    ensures Key(DaysBefore(d, n)) < Key(DaysBefore(d, m))
    decreases n
  {
    PrevDayEarlier(DaysBefore(d, n - 1));
    if m < n - 1 {
      DaysBeforeEarlier(d, m, n - 1);
    }
  }

  /** The window runs from oldest to newest. */
  lemma WindowOrdered(today: Date, i: nat, j: nat)
    requires Valid(today) && i < j <= MaxIndex
    ensures Key(WindowDay(today, i)) < Key(WindowDay(today, j))
  {
    DaysBeforeEarlier(today, MaxIndex - j, MaxIndex - i);
  }

  /** No date appears twice in the window. */
  lemma WindowDistinct(today: Date, i: nat, j: nat)
    requires Valid(today) && i <= MaxIndex && j <= MaxIndex && i != j
    ensures Window(today)[i] != Window(today)[j]
  {
    var a := WindowDay(today, i);
    var b := WindowDay(today, j);
    if i < j {
      WindowOrdered(today, i, j);
    } else {
      WindowOrdered(today, j, i);
    }
    FormatInjective(a, b);
  }

  /** `Array.prototype.indexOf`: the first position holding `s`, or -1. */
  function FirstIndex(w: seq<string>, s: string): (i: int)
    ensures -1 <= i < |w|
    ensures i == -1 <==> s !in w
    ensures 0 <= i ==> w[i] == s && s !in w[..i]
  {
    if |w| == 0 then -1
    else if w[0] == s then 0
    else
      var k := FirstIndex(w[1..], s);
      assert w == [w[0]] + w[1..];
      if k == -1 then -1
      else
        assert w[..k + 1] == [w[0]] + w[1..][..k];
        k + 1
  }

  /** `dateToIndex`: the position of `s` in the window, or the last position
      when the window does not hold it. */
  function DateToIndex(today: Date, s: string): (i: nat)
    requires Valid(today)
    ensures i <= MaxIndex
    ensures s in Window(today) ==> Window(today)[i] == s
    ensures s !in Window(today) ==> i == MaxIndex
  {
    var k := FirstIndex(Window(today), s);
    if k == -1 then MaxIndex else k
  }

  /** Looking up a window entry gives back its own position. */
  lemma DateToIndexExact(today: Date, i: nat)
    requires Valid(today) && i <= MaxIndex
    ensures DateToIndex(today, Window(today)[i]) == i
  {
    var k := DateToIndex(today, Window(today)[i]);
    if k != i {
      WindowDistinct(today, i, k);
    }
  }

  /** The badge text (`DATES_30[index] ?? value`): the selected date when it
      is in the window, today otherwise. */
  function DisplayDate(today: Date, value: string): (r: string)
    requires Valid(today)
    ensures r in Window(today)
    ensures value in Window(today) ==> r == value
    ensures value !in Window(today) ==> r == Format(today)
  {
    Window(today)[DateToIndex(today, value)]
  }

  /** `Math.min(MAX_INDEX, Math.max(MIN_INDEX, i))`. */
  function Clamp(i: int): (c: nat)
    ensures c <= MaxIndex
    ensures 0 <= i <= MaxIndex ==> c == i
    ensures i < 0 ==> c == 0
    ensures i > MaxIndex ==> c == MaxIndex
  {
    if i < 0 then 0 else if i > MaxIndex then MaxIndex else i
  }

  /** `handleSliderChange`: the date emitted for slider position `i`. The
      `?? value` fallback is never taken, as the clamped position is always
      inside the window. */
  function SliderChange(today: Date, value: string, i: int): (r: string)
    requires Valid(today)
    ensures r in Window(today)
  {
    Window(today)[Clamp(i)]
  }

  /** The date the slider emits sits at the clamped position: moving the
      slider and reading its position back agree. */
  lemma SliderRoundTrip(today: Date, value: string, i: int)
    requires Valid(today)
    ensures DateToIndex(today, SliderChange(today, value, i)) == Clamp(i)
  {
    DateToIndexExact(today, Clamp(i));
  }
}

=== FILE: tour.dfy ===
/** `startCinematicTour` (components/map/map-viewport.tsx): three camera
    flights (the Alps, New York, a global view), the second and third each
    issued from a one-shot `moveend` listener registered by the previous
    step. */
module Tour {
  import opened Wrappers
  import opened GeoJson

  /** The options of one `flyTo` call. */
  datatype Flight = Flight(center: Position, zoom: real, pitch: real, bearing: real, durationMs: nat)

  const TourDurationMs: nat := 4000

  const Alps: Flight := Flight(Position(7.74, 46.02), 12.0, 60.0, 0.0, TourDurationMs)
  const NewYork: Flight := Flight(Position(-74.006, 40.7128), 15.5, 55.0, -20.0, TourDurationMs)
  const Global: Flight := Flight(Position(0.0, 20.0), 2.5, 0.0, 0.0, TourDurationMs)

  /** The stops in the order they are flown. */
  const Stops: seq<Flight> := [Alps, NewYork, Global]

  /** The flights issued so far, and the stop a registered `once("moveend")`
      listener will fly to next (`None` when no listener is waiting). */
  datatype TourState = TourState(issued: seq<Flight>, next: Option<nat>)

  /** The tour's part of the world before it starts. */
  const Idle: TourState := TourState([], None)

  /** `startCinematicTour(map)`: with no map nothing happens; otherwise the
      first flight is issued and a listener waits for the end of the move. */
  function Start(mapPresent: bool): (s: TourState)
    ensures !mapPresent ==> s == Idle
    ensures mapPresent ==> s.issued == [Alps] && s.next == Some(1)
  {
    if !mapPresent then Idle else TourState([Stops[0]], Some(1))
  }

  /** A `moveend` event: a waiting listener fires once, issues its stop and,
      unless that was the last stop, registers the listener for the next. */
  function MoveEnd(s: TourState): (r: TourState)
    requires s.next.Some? ==> s.next.value < |Stops|
    ensures r.next.Some? ==> r.next.value < |Stops|
  {
    match s.next
    case None => s
    case Some(i) =>
      TourState(s.issued + [Stops[i]], if i + 1 < |Stops| then Some(i + 1) else None)
  }

  /** `n` successive `moveend` events. */
  function MoveEnds(s: TourState, n: nat): (r: TourState)
    requires s.next.Some? ==> s.next.value < |Stops|
    ensures r.next.Some? ==> r.next.value < |Stops|
    decreases n
  {
    if n == 0 then s else MoveEnds(MoveEnd(s), n - 1)
  }

  function MinNat(a: nat, b: nat): nat { if a <= b then a else b }

  /** The states the tour passes through: `k` stops flown and, while any
      remain, a listener waiting for stop `k`. */
  predicate Reached(s: TourState, k: nat) {
    && 1 <= k <= |Stops|
    && s.issued == Stops[..k]
    && s.next == (if k < |Stops| then Some(k) else None)
  }

  /** From `k` stops flown, `n` more `moveend` events fly the next stops in
      order and never more than the three. */
  lemma {:induction false} MoveEndsAdvance(s: TourState, k: nat, n: nat)
    requires Reached(s, k)
    ensures Reached(MoveEnds(s, n), MinNat(k + n, |Stops|))
    decreases n
  {
    if n > 0 {
      var s1 := MoveEnd(s);
      if k < |Stops| {
        assert Stops[..k] + [Stops[k]] == Stops[..k + 1];
        MoveEndsAdvance(s1, k + 1, n - 1);
      } else {
        assert s1 == s;
        MoveEndsAdvance(s1, k, n - 1);
      }
    }
  }

  /** After starting on a map and any number of `moveend` events, the
      flights issued are the first stops in the order Alps, New York,
      global, one more per event, at most three in all. */
  lemma TourIssuesPrefix(n: nat)
    ensures var s := MoveEnds(Start(true), n);
            s.issued == Stops[..MinNat(n + 1, 3)] && |s.issued| <= 3
  {
    assert Stops[..1] == [Alps];
    MoveEndsAdvance(Start(true), 1, n);
  }

  /** Without a map the tour issues no flight, however many moves end. */
  lemma {:induction false} NoMapNoFlights(n: nat)
    ensures MoveEnds(Start(false), n).issued == []
    decreases n
  {
    if n > 0 {
      NoMapNoFlights(n - 1);
    }
  }
}

=== FILE: viewport.dfy ===
/** `MapViewport` (components/map/map-viewport.tsx): what the map's `load`
    handler and the component's effects do to the engine's sources and
    layers. A map that is not loaded (or not yet created) is left alone by
    every effect. */
module Viewport {
  import opened Wrappers
  import opened GeoJson
  import opened Bounds
  import opened MapEngine

  const SentinelLayerId: string := "sentinel-layer"
  const EsriLayerId: string := "esri-layer"
  const TerrainSourceId: string := "terrain-source"
  const BuildingsLayerId: string := "3d-buildings"
  const Co2SourceId: string := "nasa-co2"
  const Co2LayerId: string := "co2-layer"
  const GeodataLayerId: string := "geodata-layer"
  const GeodataSourceId: string := "geodata"
  const OpenAQSourceId: string := "openaq"
  const OpenAQGlowLayerId: string := "openaq-glow"
  const OpenAQLayerId: string := "openaq-layer"
  const SentinelSourceId: string := "sentinel-raster"
  const EsriSourceId: string := "esri-raster"
  const BuildingsSourceId: string := "openfreemap"

  const SentinelTiles: string := "https://tiles.maps.eox.at/wmts/1.0.0/s2cloudless-2024_3857/default/GoogleMapsCompatible/{z}/{y}/{x}.jpg"
  const EsriTiles: string := "https://server.arcgisonline.com/ArcGIS/rest/services/World_Imagery/MapServer/tile/{z}/{y}/{x}"
  const TerrainUrl: string := "https://demotiles.maplibre.org/terrain-tiles/tiles.json"
  const OpenFreeMapUrl: string := "https://tiles.openfreemap.org/v1/openfreemap.json"

  const Co2UrlPrefix: string := "https://gibs.earthdata.nasa.gov/wmts/epsg3857/best/AIRS_L3_Carbon_Dioxide_IR_Daily_Surface_Concentration/default/"
  const Co2UrlSuffix: string := "/GoogleMapsCompatible_Level6/{z}/{y}/{x}.png"

  // ---------------------------------------------------------------- CO2 tiles

  /** `getNasaCo2TileUrl(time)`: the daily AIRS CO2 tile template for `time`. */
  function Co2TileUrl(time: string): (u: string)
    ensures |u| == |Co2UrlPrefix| + |time| + |Co2UrlSuffix|
    ensures u[..|Co2UrlPrefix|] == Co2UrlPrefix
    ensures u[|Co2UrlPrefix| + |time|..] == Co2UrlSuffix
  {
    Co2UrlPrefix + time + Co2UrlSuffix
  }

  /** The date segment of a CO2 tile template. */
  function Co2TimeOf(u: string): string
    requires |u| >= |Co2UrlPrefix| + |Co2UrlSuffix|
  {
    u[|Co2UrlPrefix|..|u| - |Co2UrlSuffix|]
  }

  /** The date can be read back from the template. */
  lemma Co2TimeRoundTrip(time: string)
    ensures Co2TimeOf(Co2TileUrl(time)) == time
  {
    var u := Co2TileUrl(time);
    assert u[|Co2UrlPrefix|..|u| - |Co2UrlSuffix|] == time;
  }

  /** Different dates request different tiles. */
  lemma Co2TileUrlInjective(a: string, b: string)
    ensures Co2TileUrl(a) == Co2TileUrl(b) ==> a == b
  {
    if Co2TileUrl(a) == Co2TileUrl(b) {
      Co2TimeRoundTrip(a);
      Co2TimeRoundTrip(b);
    }
  }

  // ---------------------------------------------------------------- load handler

  /** A label layer: a symbol layer whose `text-field` is set. */
  predicate IsLabel(l: Layer) {
    l.kind == Symbol && l.textField
  }

  /** Position of the first label layer. */
  function FirstLabel(ls: seq<Layer>): (r: Option<nat>)
    ensures r.Some? ==> r.value < |ls| && IsLabel(ls[r.value])
                        && forall j :: 0 <= j < r.value ==> !IsLabel(ls[j])
    ensures r.None? ==> forall j :: 0 <= j < |ls| ==> !IsLabel(ls[j])
  {
    if |ls| == 0 then None
    else if IsLabel(ls[0]) then Some(0)
    else
      match FirstLabel(ls[1..])
      case Some(k) => Some(k + 1)
      case None => None
  }

  /** The id of the first label layer, the anchor the base rasters and the
      buildings are inserted below. */
  function LabelAnchor(ls: seq<Layer>): (a: Option<string>)
    ensures a.Some? ==> HasId(ls, a.value)
  {
    match FirstLabel(ls)
    case Some(k) => Some(ls[k].id)
    case None => None
  }

  /** The `for` loop that looks for `beforeId`: stops at the first label. */
  method FindBeforeId(layers: seq<Layer>) returns (beforeId: Option<string>)
    ensures beforeId == LabelAnchor(layers)
  {
    beforeId := None;
    var i := 0;
    while i < |layers|
      invariant 0 <= i <= |layers|
      invariant forall j :: 0 <= j < i ==> !IsLabel(layers[j])
    {
      if layers[i].kind == Symbol && layers[i].textField {
        beforeId := Some(layers[i].id);
        return;
      }
      i := i + 1;
    }
  }

  const SentinelLayer: Layer := Layer(SentinelLayerId, Raster, Some(SentinelSourceId), false, Visible, 0.0)
  const EsriLayer: Layer := Layer(EsriLayerId, Raster, Some(EsriSourceId), false, Visible, 0.0)
  const BuildingsLayer: Layer := Layer(BuildingsLayerId, FillExtrusion, Some(BuildingsSourceId), false, Visible, 1.0)
  const Co2Layer: Layer := Layer(Co2LayerId, Raster, Some(Co2SourceId), false, Hidden, 0.7)

  /** A map the handler can run on without MapLibre rejecting a call: a layer
      of the handler's exists only together with its source, and when the
      CO2 layer is missing, its anchor (the buildings layer) is there as soon
      as the buildings source is. */
  predicate LoadSafe(e: Engine) {
    && (SentinelSourceId !in e.sources ==> !HasId(e.layers, SentinelLayerId))
    && (EsriSourceId !in e.sources ==> !HasId(e.layers, EsriLayerId))
    && OverlaySafe(e)
  }

  /** The part of `LoadSafe` the buildings and CO2 steps rely on. */
  predicate OverlaySafe(e: Engine) {
    && (BuildingsSourceId !in e.sources ==> !HasId(e.layers, BuildingsLayerId))
    && (BuildingsSourceId in e.sources && !HasId(e.layers, Co2LayerId) ==> HasId(e.layers, BuildingsLayerId))
  }

  /** `if (!getSource(id)) addSource(id, src)`. */
  function EnsureSource(e: Engine, id: string, src: Source): (r: Engine)
    ensures r.layers == e.layers
    ensures r.sources.Keys == e.sources.Keys + {id}
    ensures forall k :: k in e.sources ==> r.sources[k] == e.sources[k]
    ensures id !in e.sources ==> r.sources[id] == src
  {
    if id in e.sources then e else AddSource(e, id, src)
  }

  /** `if (!getSource(id)) { addSource(id, src); addLayer(l, before) }`. */
  function EnsureSourceAndLayer(e: Engine, id: string, src: Source, l: Layer, before: Option<string>): (r: Engine)
    requires l.source == Some(id)
    requires id !in e.sources ==> !HasId(e.layers, l.id)
    requires before.Some? ==> HasId(e.layers, before.value)
    ensures r.sources.Keys == e.sources.Keys + {id}
    ensures forall k :: k in e.sources ==> r.sources[k] == e.sources[k]
    ensures id in e.sources ==> r == e
    ensures id !in e.sources ==> r.sources[id] == src
    ensures id !in e.sources ==> r.layers == Splice(e.layers, AnchorPos(e.layers, before), [l])
    ensures forall x :: HasId(r.layers, x) <==> HasId(e.layers, x) || (id !in e.sources && x == l.id)
  {
    if id in e.sources then e
    else
      var e1 := AddSource(e, id, src);
      AddLayerIds(e1, l, before);
      AddLayer(e1, l, before)
  }

  lemma EnsureSourceWellFormed(e: Engine, id: string, src: Source)
    requires WellFormed(e)
    ensures WellFormed(EnsureSource(e, id, src))
  {
  }

  lemma EnsureSourceAndLayerWellFormed(e: Engine, id: string, src: Source, l: Layer, before: Option<string>)
    requires l.source == Some(id)
    requires id !in e.sources ==> !HasId(e.layers, l.id)
    requires before.Some? ==> HasId(e.layers, before.value)
    requires WellFormed(e)
    ensures WellFormed(EnsureSourceAndLayer(e, id, src, l, before))
  {
    if id !in e.sources {
      AddLayerWellFormed(AddSource(e, id, src), l, before);
    }
  }

  /** The layer ids and source ids the handler uses are pairwise distinct. */
  lemma HandlerIdsDistinct()
    ensures SentinelLayerId != EsriLayerId && SentinelLayerId != BuildingsLayerId && SentinelLayerId != Co2LayerId
    ensures EsriLayerId != BuildingsLayerId && EsriLayerId != Co2LayerId && BuildingsLayerId != Co2LayerId
    ensures TerrainSourceId != SentinelSourceId && TerrainSourceId != EsriSourceId
    ensures TerrainSourceId != Co2SourceId && TerrainSourceId != BuildingsSourceId
    ensures SentinelSourceId != EsriSourceId && SentinelSourceId != Co2SourceId && SentinelSourceId != BuildingsSourceId
    ensures EsriSourceId != Co2SourceId && EsriSourceId != BuildingsSourceId && Co2SourceId != BuildingsSourceId
  {
    assert SentinelLayerId[0] != EsriLayerId[0] && SentinelLayerId[0] != BuildingsLayerId[0] && SentinelLayerId[0] != Co2LayerId[0];
    assert EsriLayerId[0] != BuildingsLayerId[0] && EsriLayerId[0] != Co2LayerId[0] && BuildingsLayerId[0] != Co2LayerId[0];
    assert TerrainSourceId[0] != SentinelSourceId[0] && TerrainSourceId[0] != EsriSourceId[0];
    assert TerrainSourceId[0] != Co2SourceId[0] && TerrainSourceId[0] != BuildingsSourceId[0];
    assert SentinelSourceId[0] != EsriSourceId[0] && SentinelSourceId[0] != Co2SourceId[0] && SentinelSourceId[0] != BuildingsSourceId[0];
    assert EsriSourceId[0] != Co2SourceId[0] && EsriSourceId[0] != BuildingsSourceId[0] && Co2SourceId[0] != BuildingsSourceId[0];
  }

  /** `r` extends `e`: every source keeps its value and every layer id survives. */
  ghost predicate Grows(e: Engine, r: Engine) {
    && (forall k :: k in e.sources ==> k in r.sources && r.sources[k] == e.sources[k])
    && (forall x :: HasId(e.layers, x) ==> HasId(r.layers, x))
  }

  lemma GrowsTrans(a: Engine, b: Engine, c: Engine)
    requires Grows(a, b) && Grows(b, c)
    ensures Grows(a, c)
  {
  }

  /** The handler's steps up to the CO2 source: terrain, Sentinel-2, Esri. */
  function LoadBaseSteps(e: Engine, before: Option<string>, co2Time: string): Engine
    requires LoadSafe(e)
    requires before.Some? ==> HasId(e.layers, before.value)
  {
    HandlerIdsDistinct();
    var e1 := EnsureSource(e, TerrainSourceId, RasterDem(TerrainUrl));
    var e2 := EnsureSourceAndLayer(e1, SentinelSourceId, RasterTiles([SentinelTiles]), SentinelLayer, before);
    var e3 := EnsureSourceAndLayer(e2, EsriSourceId, RasterTiles([EsriTiles]), EsriLayer, before);
    EnsureSource(e3, Co2SourceId, RasterTiles([Co2TileUrl(co2Time)]))
  }

  lemma LoadBaseGrows(e: Engine, before: Option<string>, co2Time: string)
    requires LoadSafe(e)
    requires before.Some? ==> HasId(e.layers, before.value)
    ensures var r := LoadBaseSteps(e, before, co2Time);
            && Grows(e, r)
            && (forall x :: HasId(r.layers, x) ==> HasId(e.layers, x) || x == SentinelLayerId || x == EsriLayerId)
  {
    HandlerIdsDistinct();
    var e1 := EnsureSource(e, TerrainSourceId, RasterDem(TerrainUrl));
    var e2 := EnsureSourceAndLayer(e1, SentinelSourceId, RasterTiles([SentinelTiles]), SentinelLayer, before);
    var e3 := EnsureSourceAndLayer(e2, EsriSourceId, RasterTiles([EsriTiles]), EsriLayer, before);
    var r := EnsureSource(e3, Co2SourceId, RasterTiles([Co2TileUrl(co2Time)]));
    assert Grows(e, e1) && Grows(e1, e2) && Grows(e2, e3) && Grows(e3, r);
    GrowsTrans(e, e1, e2);
    GrowsTrans(e, e2, e3);
    GrowsTrans(e, e3, r);
  }

  lemma LoadBaseSafe(e: Engine, before: Option<string>, co2Time: string)
    requires LoadSafe(e)
    requires before.Some? ==> HasId(e.layers, before.value)
    ensures var r := LoadBaseSteps(e, before, co2Time);
            && LoadSafe(r)
            && TerrainSourceId in r.sources && SentinelSourceId in r.sources && EsriSourceId in r.sources
            && Co2SourceId in r.sources
            && (BuildingsSourceId in r.sources <==> BuildingsSourceId in e.sources)
  {
    HandlerIdsDistinct();
    LoadBaseGrows(e, before, co2Time);
  }

  /** The handler's steps up to the CO2 source: terrain, Sentinel-2, Esri. */
  function LoadBase(e: Engine, before: Option<string>, co2Time: string): (r: Engine)
    requires LoadSafe(e)
    requires before.Some? ==> HasId(e.layers, before.value)
    ensures LoadSafe(r) && Grows(e, r)
    ensures before.Some? ==> HasId(r.layers, before.value)
    ensures TerrainSourceId in r.sources && SentinelSourceId in r.sources && EsriSourceId in r.sources
    ensures Co2SourceId in r.sources
    ensures HasId(r.layers, Co2LayerId) <==> HasId(e.layers, Co2LayerId)
  {
    LoadBaseGrows(e, before, co2Time);
    LoadBaseSafe(e, before, co2Time);
    HandlerIdsDistinct();
    LoadBaseSteps(e, before, co2Time)
  }

  /** The buildings source and layer, then the CO2 layer below the buildings. */
  function LoadOverlays(e: Engine, before: Option<string>): (r: Engine)
    requires OverlaySafe(e) && Co2SourceId in e.sources
    requires before.Some? ==> HasId(e.layers, before.value)
    ensures Grows(e, r)
    ensures BuildingsSourceId in r.sources && HasId(r.layers, Co2LayerId)
    ensures r.sources.Keys == e.sources.Keys + {BuildingsSourceId}
  {
    HandlerIdsDistinct();
    var e5 := EnsureSourceAndLayer(e, BuildingsSourceId, VectorTiles(OpenFreeMapUrl), BuildingsLayer, before);
    if HasId(e5.layers, Co2LayerId) then e5
    else
      AddLayerIds(e5, Co2Layer, Some(BuildingsLayerId));
      AddLayer(e5, Co2Layer, Some(BuildingsLayerId))
  }

  /** The `load` handler with `co2Time` the initial CO2 date (`selectedDate`,
      or yesterday's ISO date when there is none). Every step is guarded by a
      presence check, so after it all the handler's sources and the CO2
      layer exist, nothing that existed is lost, and the map stays
      well-formed. */
  function OnLoad(e: Engine, co2Time: string): (r: Engine)
    requires LoadSafe(e)
    ensures Initialised(r)
    ensures forall k :: k in e.sources ==> k in r.sources && r.sources[k] == e.sources[k]
    ensures forall x :: HasId(e.layers, x) ==> HasId(r.layers, x)
  {
    var before := LabelAnchor(e.layers);
    var b := LoadBase(e, before, co2Time);
    var r := LoadOverlays(b, before);
    GrowsTrans(e, b, r);
    r
  }

  /** The handler keeps a well-formed map well-formed. */
  lemma OnLoadWellFormed(e: Engine, co2Time: string)
    requires LoadSafe(e) && WellFormed(e)
    ensures WellFormed(OnLoad(e, co2Time))
  {
    var before := LabelAnchor(e.layers);
    LoadBaseWellFormed(e, before, co2Time);
    LoadOverlaysWellFormed(LoadBase(e, before, co2Time), before);
  }

  lemma LoadBaseWellFormed(e: Engine, before: Option<string>, co2Time: string)
    requires LoadSafe(e) && WellFormed(e)
    requires before.Some? ==> HasId(e.layers, before.value)
    ensures WellFormed(LoadBase(e, before, co2Time))
  {
    HandlerIdsDistinct();
    var e1 := EnsureSource(e, TerrainSourceId, RasterDem(TerrainUrl));
    EnsureSourceWellFormed(e, TerrainSourceId, RasterDem(TerrainUrl));
    var e2 := EnsureSourceAndLayer(e1, SentinelSourceId, RasterTiles([SentinelTiles]), SentinelLayer, before);
    EnsureSourceAndLayerWellFormed(e1, SentinelSourceId, RasterTiles([SentinelTiles]), SentinelLayer, before);
    var e3 := EnsureSourceAndLayer(e2, EsriSourceId, RasterTiles([EsriTiles]), EsriLayer, before);
    EnsureSourceAndLayerWellFormed(e2, EsriSourceId, RasterTiles([EsriTiles]), EsriLayer, before);
    EnsureSourceWellFormed(e3, Co2SourceId, RasterTiles([Co2TileUrl(co2Time)]));
  }

  lemma LoadOverlaysWellFormed(e: Engine, before: Option<string>)
    requires OverlaySafe(e) && Co2SourceId in e.sources && WellFormed(e)
    requires before.Some? ==> HasId(e.layers, before.value)
    ensures WellFormed(LoadOverlays(e, before))
  {
    HandlerIdsDistinct();
    var e5 := EnsureSourceAndLayer(e, BuildingsSourceId, VectorTiles(OpenFreeMapUrl), BuildingsLayer, before);
    EnsureSourceAndLayerWellFormed(e, BuildingsSourceId, VectorTiles(OpenFreeMapUrl), BuildingsLayer, before);
    if !HasId(e5.layers, Co2LayerId) {
      AddLayerWellFormed(e5, Co2Layer, Some(BuildingsLayerId));
    }
  }

  /** Everything the handler creates is there. */
  predicate Initialised(e: Engine) {
    && TerrainSourceId in e.sources && SentinelSourceId in e.sources && EsriSourceId in e.sources
    && Co2SourceId in e.sources && BuildingsSourceId in e.sources
    && HasId(e.layers, Co2LayerId)
  }

  /** Running the handler on an initialised map changes nothing, so a second
      `load` is harmless. */
  lemma OnLoadIdempotent(e: Engine, t1: string, t2: string)
    requires LoadSafe(e)
    ensures LoadSafe(OnLoad(e, t1)) && OnLoad(OnLoad(e, t1), t2) == OnLoad(e, t1)
  {
  }

  /** A style with none of the handler's sources or layers. */
  predicate Fresh(e: Engine) {
    && WellFormed(e)
    && TerrainSourceId !in e.sources && SentinelSourceId !in e.sources && EsriSourceId !in e.sources
    && Co2SourceId !in e.sources && BuildingsSourceId !in e.sources
    && !HasId(e.layers, SentinelLayerId) && !HasId(e.layers, EsriLayerId)
    && !HasId(e.layers, BuildingsLayerId) && !HasId(e.layers, Co2LayerId)
  }

  /** Where the handler's block of layers lands: at the first label, or on top. */
  function InsertPoint(ls: seq<Layer>): nat {
    match FirstLabel(ls)
    case Some(k) => k
    case None => |ls|
  }

  /** On a fresh style the four layers are inserted as one block just below
      the first label (on top when there is no label), in the order Sentinel-2,
      Esri, CO2, buildings; both base rasters start transparent and the CO2
      layer starts hidden at 70% opacity. */
  lemma OnLoadFresh(e: Engine, t: string)
    requires Fresh(e)
    ensures OnLoad(e, t).layers == Splice(e.layers, InsertPoint(e.layers), [SentinelLayer, EsriLayer, Co2Layer, BuildingsLayer])
    ensures OnLoad(e, t).sources[Co2SourceId] == RasterTiles([Co2TileUrl(t)])
    ensures OnLoad(e, t).sources[TerrainSourceId] == RasterDem(TerrainUrl)
  {
    var before := LabelAnchor(e.layers);
    LoadBaseFresh(e, t);
    var b := LoadBase(e, before, t);
    LoadOverlaysFresh(b, before, e.layers, InsertPoint(e.layers));
  }

  /** Sentinel-2 then Esri, both at the insertion point. */
  lemma LoadBaseFresh(e: Engine, t: string)
    requires Fresh(e)
    ensures var b := LoadBase(e, LabelAnchor(e.layers), t);
            && b.layers == Splice(e.layers, InsertPoint(e.layers), [SentinelLayer, EsriLayer])
            && b.sources[Co2SourceId] == RasterTiles([Co2TileUrl(t)])
            && b.sources[TerrainSourceId] == RasterDem(TerrainUrl)
            && BuildingsSourceId !in b.sources
            && DistinctIds(b.layers)
  {
    HandlerIdsDistinct();
    var before := LabelAnchor(e.layers);
    LoadBaseFreshLayers(e, before, t);
    LoadBaseFreshSources(e, before, t);
  }

  /** The layer part of `LoadBaseFresh`. */
  lemma LoadBaseFreshLayers(e: Engine, before: Option<string>, t: string)
    requires Fresh(e) && before == LabelAnchor(e.layers)
    ensures var b := LoadBase(e, before, t);
            b.layers == Splice(e.layers, InsertPoint(e.layers), [SentinelLayer, EsriLayer]) && DistinctIds(b.layers)
  {
    HandlerIdsDistinct();
    var L := e.layers;
    var k := InsertPoint(L);
    var e1 := EnsureSource(e, TerrainSourceId, RasterDem(TerrainUrl));
    SentinelFresh(e1, before, L, k);
    var e2 := EnsureSourceAndLayer(e1, SentinelSourceId, RasterTiles([SentinelTiles]), SentinelLayer, before);
    EsriFresh(e2, before, L, k);
  }

  /** The source part of `LoadBaseFresh`. */
  lemma LoadBaseFreshSources(e: Engine, before: Option<string>, t: string)
    requires Fresh(e) && before == LabelAnchor(e.layers)
    ensures var b := LoadBase(e, before, t);
            && b.sources[Co2SourceId] == RasterTiles([Co2TileUrl(t)])
            && b.sources[TerrainSourceId] == RasterDem(TerrainUrl)
            && BuildingsSourceId !in b.sources
  {
    HandlerIdsDistinct();
  }

  lemma SentinelFresh(e1: Engine, before: Option<string>, L: seq<Layer>, k: nat)
    requires k <= |L| && e1.layers == L && DistinctIds(L)
    requires before.Some? ==> k < |L| && before.value == L[k].id
    requires before.None? ==> k == |L|
    requires SentinelSourceId !in e1.sources && !HasId(L, SentinelLayerId)
    ensures before.Some? ==> HasId(e1.layers, before.value)
    ensures var e2 := EnsureSourceAndLayer(e1, SentinelSourceId, RasterTiles([SentinelTiles]), SentinelLayer, before);
            e2.layers == Splice(L, k, [SentinelLayer]) && DistinctIds(e2.layers)
  {
    assert Splice(L, k, []) == L;
    AddAtAnchor(e1, SentinelSourceId, RasterTiles([SentinelTiles]), SentinelLayer, before, L, k, []);
    assert [] + [SentinelLayer] == [SentinelLayer];
  }

  lemma EsriFresh(e2: Engine, before: Option<string>, L: seq<Layer>, k: nat)
    requires k <= |L| && e2.layers == Splice(L, k, [SentinelLayer]) && DistinctIds(e2.layers)
    requires before.Some? ==> k < |L| && before.value == L[k].id
    requires before.None? ==> k == |L|
    requires EsriSourceId !in e2.sources && !HasId(e2.layers, EsriLayerId)
    ensures before.Some? ==> HasId(e2.layers, before.value)
    ensures var e3 := EnsureSourceAndLayer(e2, EsriSourceId, RasterTiles([EsriTiles]), EsriLayer, before);
            e3.layers == Splice(L, k, [SentinelLayer, EsriLayer]) && DistinctIds(e3.layers)
  {
    AddAtAnchor(e2, EsriSourceId, RasterTiles([EsriTiles]), EsriLayer, before, L, k, [SentinelLayer]);
    assert [SentinelLayer] + [EsriLayer] == [SentinelLayer, EsriLayer];
  }

  /** With `block` already inserted at the first label's position `k`, the
      guarded insertion of `l` below that label puts it at the end of the block. */
  lemma AddAtAnchor(e: Engine, id: string, src: Source, l: Layer, before: Option<string>, L: seq<Layer>, k: nat, block: seq<Layer>)
    requires k <= |L| && e.layers == Splice(L, k, block) && DistinctIds(e.layers)
    requires before.Some? ==> k < |L| && before.value == L[k].id
    requires before.None? ==> k == |L|
    requires l.source == Some(id) && id !in e.sources && !HasId(e.layers, l.id)
    ensures before.Some? ==> HasId(e.layers, before.value)
    ensures var r := EnsureSourceAndLayer(e, id, src, l, before);
            r.layers == Splice(L, k, block + [l]) && DistinctIds(r.layers)
  {
    StepAtAnchor(L, k, before, block, l);
  }

  /** With `block` already inserted at the first label's position `k`,
      inserting `l` below that label puts it at the end of the block. */
  lemma StepAtAnchor(L: seq<Layer>, k: nat, before: Option<string>, block: seq<Layer>, l: Layer)
    requires k <= |L| && DistinctIds(Splice(L, k, block))
    requires before.Some? ==> k < |L| && before.value == L[k].id
    requires before.None? ==> k == |L|
    requires !HasId(Splice(L, k, block), l.id)
    ensures before.Some? ==> HasId(Splice(L, k, block), before.value)
    ensures AnchorPos(Splice(L, k, block), before) == k + |block|
    ensures Splice(Splice(L, k, block), k + |block|, [l]) == Splice(L, k, block + [l])
    ensures DistinctIds(Splice(L, k, block + [l]))
  {
    var ls := Splice(L, k, block);
    if before.Some? {
      SpliceAfterBlock(L, k, block);
      IndexOfDistinct(ls, k + |block|);
    }
    SpliceSplice(L, k, block, [], [l]);
    assert block + [] == block;
    SpliceOneDistinct(ls, k + |block|, l);
  }

  /** The buildings at the insertion point, then the CO2 layer just below them. */
  lemma LoadOverlaysFresh(b: Engine, before: Option<string>, L: seq<Layer>, k: nat)
    requires k <= |L| && DistinctIds(b.layers) && Co2SourceId in b.sources
    requires b.layers == Splice(L, k, [SentinelLayer, EsriLayer])
    requires BuildingsSourceId !in b.sources && !HasId(b.layers, BuildingsLayerId) && !HasId(b.layers, Co2LayerId)
    requires before.Some? ==> k < |L| && before.value == L[k].id && HasId(b.layers, before.value)
    requires before.None? ==> k == |L|
    ensures LoadOverlays(b, before).layers == Splice(L, k, [SentinelLayer, EsriLayer, Co2Layer, BuildingsLayer])
  {
    HandlerIdsDistinct();
    AddAtAnchor(b, BuildingsSourceId, VectorTiles(OpenFreeMapUrl), BuildingsLayer, before, L, k, [SentinelLayer, EsriLayer]);
    var e5 := EnsureSourceAndLayer(b, BuildingsSourceId, VectorTiles(OpenFreeMapUrl), BuildingsLayer, before);
    AddBelow(e5, L, k, [SentinelLayer, EsriLayer], BuildingsLayer, Co2Layer);
    assert [SentinelLayer, EsriLayer] + [Co2Layer, BuildingsLayer] == [SentinelLayer, EsriLayer, Co2Layer, BuildingsLayer];
  }

  /** With `a + [b]` inserted at `k`, adding `c` below `b` puts it between. */
  lemma AddBelow(e: Engine, L: seq<Layer>, k: nat, a: seq<Layer>, b: Layer, c: Layer)
    requires k <= |L| && e.layers == Splice(L, k, a + [b]) && DistinctIds(e.layers)
    requires !HasId(e.layers, c.id) && (c.source.Some? ==> c.source.value in e.sources)
    ensures HasId(e.layers, b.id)
    ensures AddLayer(e, c, Some(b.id)).layers == Splice(L, k, a + [c, b])
  {
    var ls := e.layers;
    assert ls[k + |a|] == b;
    IndexOfDistinct(ls, k + |a|);
    SpliceSplice(L, k, a, [b], [c]);
    assert a + [c] + [b] == a + [c, b];
  }

  // ---------------------------------------------------------------- visibility effects

  /** `on ? "visible" : "none"`. */
  function VisibilityOf(on: bool): Visibility {
    if on then Visible else Hidden
  }

  /** A visibility effect for one layer: once the map is loaded and the layer
      exists, its `visibility` follows the flag; before load, or when the
      layer is absent, nothing happens. No other layer and no source changes. */
  function ToggleLayer(e: Engine, loaded: bool, id: string, on: bool): (r: Engine)
    ensures r.sources == e.sources && |r.layers| == |e.layers|
    ensures forall i :: 0 <= i < |e.layers| ==>
              r.layers[i] == if loaded && e.layers[i].id == id then e.layers[i].(visibility := VisibilityOf(on)) else e.layers[i]
  {
    if !loaded || !HasId(e.layers, id) then e
    else SetVisibility(e, id, VisibilityOf(on))
  }

  /** Only the last flag written to a layer counts. */
  lemma ToggleLastWins(e: Engine, id: string, a: bool, b: bool)
    ensures ToggleLayer(ToggleLayer(e, true, id, a), true, id, b) == ToggleLayer(e, true, id, b)
  {
    var r1 := ToggleLayer(ToggleLayer(e, true, id, a), true, id, b);
    var r2 := ToggleLayer(e, true, id, b);
    assert r1.layers == r2.layers;
  }

  /** A toggle keeps the layer ids and well-formedness. */
  lemma ToggleWellFormed(e: Engine, loaded: bool, id: string, on: bool)
    ensures SameIds(ToggleLayer(e, loaded, id, on).layers, e.layers)
    ensures WellFormed(e) ==> WellFormed(ToggleLayer(e, loaded, id, on))
  {
  }

  /** The 3D-buildings toggle. */
  function BuildingsEffect(e: Engine, loaded: bool, visible: bool): Engine {
    ToggleLayer(e, loaded, BuildingsLayerId, visible)
  }

  /** The CO2 overlay toggle. */
  function Co2VisibilityEffect(e: Engine, loaded: bool, enabled: bool): Engine {
    ToggleLayer(e, loaded, Co2LayerId, enabled)
  }

  /** The OpenAQ toggle: the glow layer, then the point layer, each skipped
      when absent. */
  function OpenAQVisibilityEffect(e: Engine, loaded: bool, enabled: bool): (r: Engine)
    ensures r.sources == e.sources && |r.layers| == |e.layers|
    ensures forall i :: 0 <= i < |e.layers| ==>
              r.layers[i] == if loaded && (e.layers[i].id == OpenAQGlowLayerId || e.layers[i].id == OpenAQLayerId)
                             then e.layers[i].(visibility := VisibilityOf(enabled)) else e.layers[i]
  {
    ToggleLayer(ToggleLayer(e, loaded, OpenAQGlowLayerId, enabled), loaded, OpenAQLayerId, enabled)
  }

  /** Turning a present layer on or off leaves it with that visibility. */
  lemma ToggleSetsNamed(e: Engine, id: string, on: bool)
    requires DistinctIds(e.layers) && HasId(e.layers, id)
    ensures HasId(ToggleLayer(e, true, id, on).layers, id)
    ensures LayerNamed(ToggleLayer(e, true, id, on).layers, id).visibility == VisibilityOf(on)
  {
    var k := IndexOf(e.layers, id);
    var r := ToggleLayer(e, true, id, on);
    assert r.layers[k].id == id;
    ToggleWellFormed(e, true, id, on);
    IndexOfDistinct(r.layers, k);
  }

  /** The load handler adds the CO2 layer hidden. */
  lemma OnLoadCo2Hidden(e: Engine, t: string)
    requires Fresh(e)
    ensures DistinctIds(OnLoad(e, t).layers) && HasId(OnLoad(e, t).layers, Co2LayerId)
    ensures LayerNamed(OnLoad(e, t).layers, Co2LayerId).visibility == Hidden
  {
    OnLoadFresh(e, t);
    var k := InsertPoint(e.layers);
    var r0 := OnLoad(e, t);
    SpliceAt(e.layers, k, [SentinelLayer, EsriLayer, Co2Layer, BuildingsLayer], 2);
    OnLoadWellFormed(e, t);
    IndexOfDistinct(r0.layers, k + 2);
  }

  /** The CO2 layer is created hidden, so it stays hidden until the toggle
      turns it on, and the toggle shows it. */
  lemma Co2ShownOnlyWhenEnabled(e: Engine, t: string, enabled: bool)
    requires Fresh(e)
    ensures var r := Co2VisibilityEffect(OnLoad(e, t), true, enabled);
            LayerNamed(r.layers, Co2LayerId).visibility == VisibilityOf(enabled)
    ensures LayerNamed(OnLoad(e, t).layers, Co2LayerId).visibility == Hidden
  {
    OnLoadCo2Hidden(e, t);
    ToggleSetsNamed(OnLoad(e, t), Co2LayerId, enabled);
  }

  // ---------------------------------------------------------------- CO2 date

  /** The `selectedDate` effect: once loaded and with a non-empty date, the
      CO2 tile source (a tile-list source) is pointed at that date's tiles;
      no layer changes and no other source changes. */
  function Co2DateEffect(e: Engine, loaded: bool, date: string): (r: Engine)
    ensures r.layers == e.layers && r.sources.Keys == e.sources.Keys
    ensures forall k :: k in e.sources && k != Co2SourceId ==> r.sources[k] == e.sources[k]
    ensures loaded && date != "" && Co2SourceId in e.sources && e.sources[Co2SourceId].RasterTiles? ==>
              r.sources[Co2SourceId] == RasterTiles([Co2TileUrl(date)])
    ensures !loaded || date == "" ==> r == e
  {
    if loaded && date != "" && Co2SourceId in e.sources && e.sources[Co2SourceId].RasterTiles? then
      SetTiles(e, Co2SourceId, [Co2TileUrl(date)])
    else e
  }

  /** On a map whose CO2 source is a tile list, the date the source then
      requests reads back as the selected date, and only the last date
      selected counts. */
  lemma Co2DateRoundTrip(e: Engine, d1: string, d2: string)
    requires Co2SourceId in e.sources && e.sources[Co2SourceId].RasterTiles?
    requires d1 != "" && d2 != ""
    ensures var r := Co2DateEffect(e, true, d1);
            && r.sources[Co2SourceId].RasterTiles?
            && |r.sources[Co2SourceId].tiles| == 1
            && Co2TimeOf(r.sources[Co2SourceId].tiles[0]) == d1
            && Co2DateEffect(r, true, d2) == Co2DateEffect(e, true, d2)
  {
    Co2TimeRoundTrip(d1);
    var r := Co2DateEffect(e, true, d1);
    assert r.sources[Co2SourceId] == RasterTiles([Co2TileUrl(d1)]);
    assert Co2DateEffect(r, true, d2).sources == Co2DateEffect(e, true, d2).sources;
  }

  /** The load handler creates the CO2 source as a tile list, so the date
      effect applies after a fresh load. */
  lemma Co2DateAppliesAfterLoad(e: Engine, t: string)
    requires Fresh(e)
    ensures Co2SourceId in OnLoad(e, t).sources && OnLoad(e, t).sources[Co2SourceId].RasterTiles?
  {
    OnLoadFresh(e, t);
  }

  // ---------------------------------------------------------------- camera

  /** `fitBounds` as the viewport issues it: the box's south-west and
      north-east corners and the camera options of `cinematicFlyTo`. */
  datatype CameraRequest = CameraRequest(
    sw: Position, ne: Position, padding: nat, maxZoom: real, pitch: real, bearing: real, durationMs: nat)

  /** `cinematicFlyTo(bbox)`. */
  function CinematicFlyTo(b: BBox): (c: CameraRequest)
    ensures c.sw == Position(b.minLon, b.minLat) && c.ne == Position(b.maxLon, b.maxLat)
    ensures c.padding == 80 && c.maxZoom == 14.0 && c.pitch == 45.0 && c.bearing == 0.0 && c.durationMs == 3200
  {
    CameraRequest(Position(b.minLon, b.minLat), Position(b.maxLon, b.maxLat), 80, 14.0, 45.0, 0.0, 3200)
  }

  /** The fly-to effect: a flight exactly when the map is loaded and a box is set. */
  function FlyToEffect(flyToBbox: Option<BBox>, loaded: bool): (c: Option<CameraRequest>)
    ensures c.Some? <==> flyToBbox.Some? && loaded
    ensures c.Some? ==> c.value == CinematicFlyTo(flyToBbox.value)
  {
    if flyToBbox.None? || !loaded then None else Some(CinematicFlyTo(flyToBbox.value))
  }

  /** The requested corners span the box: every point of an ordered box lies
      between them. */
  lemma FlyToFramesBox(b: BBox, p: Position)
    requires Inside(p, b)
    ensures var c := CinematicFlyTo(b);
            c.sw.lon <= p.lon <= c.ne.lon && c.sw.lat <= p.lat <= c.ne.lat
  {
  }

  // ---------------------------------------------------------------- overlays

  /** A collection worth drawing: present and non-empty. */
  predicate HasData(data: Option<FeatureCollection>) {
    data.Some? && |data.value.features| > 0
  }

  /** Only layers named in `ids` draw from source `src`. */
  predicate UsedOnlyBy(ls: seq<Layer>, src: string, ids: set<string>) {
    forall i :: 0 <= i < |ls| && ls[i].source == Some(src) ==> ls[i].id in ids
  }

  /** `if (getLayer(id)) removeLayer(id)`. */
  function DropLayer(e: Engine, id: string): (r: Engine)
    ensures r.sources == e.sources && r.layers == Without(e.layers, id)
  {
    if HasId(e.layers, id) then RemoveLayer(e, id)
    else
      WithoutAbsent(e.layers, id);
      e
  }

  /** `if (getSource(id)) removeSource(id)`, once no layer uses the source. */
  function DropSource(e: Engine, id: string): (r: Engine)
    requires forall i :: 0 <= i < |e.layers| ==> e.layers[i].source != Some(id)
    ensures r.layers == e.layers && r.sources == e.sources - {id}
  {
    if id in e.sources then RemoveSource(e, id) else e
  }

  /** Removing one of a source's users leaves only the others using it. */
  lemma WithoutUsers(ls: seq<Layer>, src: string, id: string, ids: set<string>)
    requires UsedOnlyBy(ls, src, ids)
    ensures UsedOnlyBy(Without(ls, id), src, ids - {id})
  {
    WithoutMembers(ls, id);
    var w := Without(ls, id);
    forall i | 0 <= i < |w| && w[i].source == Some(src)
      ensures w[i].id in ids - {id}
    {
      assert w[i] in ls;
    }
  }

  const GeodataLayer: Layer := Layer(GeodataLayerId, Circle, Some(GeodataSourceId), false, Visible, 1.0)

  /** The geodata effect: once loaded, the old geodata layer and source are
      removed, and when there is data to draw they are added again with the
      new data, the layer on top of the stack. */
  function ReconcileGeodata(e: Engine, loaded: bool, data: Option<FeatureCollection>): (r: Engine)
    requires UsedOnlyBy(e.layers, GeodataSourceId, {GeodataLayerId})
    ensures !loaded ==> r == e
    ensures loaded ==> Without(r.layers, GeodataLayerId) == Without(e.layers, GeodataLayerId)
    ensures loaded ==> (HasId(r.layers, GeodataLayerId) <==> HasData(data))
    ensures loaded ==> (GeodataSourceId in r.sources <==> HasData(data))
    ensures loaded && HasData(data) ==>
              r.sources[GeodataSourceId] == GeoJsonData(data.value) && r.layers[|r.layers| - 1] == GeodataLayer
    ensures loaded ==> r.sources - {GeodataSourceId} == e.sources - {GeodataSourceId}
  {
    if !loaded then e
    else
      var e1 := DropLayer(e, GeodataLayerId);
      WithoutUsers(e.layers, GeodataSourceId, GeodataLayerId, {GeodataLayerId});
      WithoutMembers(e.layers, GeodataLayerId);
      WithoutAbsent(e1.layers, GeodataLayerId);
      var e2 := DropSource(e1, GeodataSourceId);
      if !HasData(data) then e2
      else
        var e3 := AddSource(e2, GeodataSourceId, GeoJsonData(data.value));
        AddLayerIds(e3, GeodataLayer, None);
        SpliceWithout(e3.layers, |e3.layers|, GeodataLayer);
        AddLayer(e3, GeodataLayer, None)
  }

  /** Every other layer keeps its id, and the geodata source stays private
      to the geodata layer. */
  lemma ReconcileGeodataKeepsOthers(e: Engine, loaded: bool, data: Option<FeatureCollection>)
    requires UsedOnlyBy(e.layers, GeodataSourceId, {GeodataLayerId})
    ensures var r := ReconcileGeodata(e, loaded, data);
            && (forall x :: x != GeodataLayerId ==> (HasId(r.layers, x) <==> HasId(e.layers, x)))
            && UsedOnlyBy(r.layers, GeodataSourceId, {GeodataLayerId})
  {
    var r := ReconcileGeodata(e, loaded, data);
    if loaded {
      WithoutKeepsIds(e.layers, GeodataLayerId);
      WithoutKeepsIds(r.layers, GeodataLayerId);
      WithoutMembers(r.layers, GeodataLayerId);
      WithoutMembers(e.layers, GeodataLayerId);
      forall i | 0 <= i < |r.layers| && r.layers[i].source == Some(GeodataSourceId)
        ensures r.layers[i].id in {GeodataLayerId}
      {
        if r.layers[i].id != GeodataLayerId {
          assert r.layers[i] in Without(r.layers, GeodataLayerId);
          assert r.layers[i] in e.layers;
        }
      }
    }
  }

  /** Because the effect always removes before adding, a new collection
      replaces the previous one outright: running it on the map it produced
      gives the same map as running it on the original, and running it twice
      with the same data is running it once. */
  lemma ReconcileGeodataReplaces(e: Engine, d1: Option<FeatureCollection>, d2: Option<FeatureCollection>)
    requires UsedOnlyBy(e.layers, GeodataSourceId, {GeodataLayerId})
    ensures UsedOnlyBy(ReconcileGeodata(e, true, d1).layers, GeodataSourceId, {GeodataLayerId})
    ensures ReconcileGeodata(ReconcileGeodata(e, true, d1), true, d2) == ReconcileGeodata(e, true, d2)
  {
    ReconcileGeodataKeepsOthers(e, true, d1);
    var r1 := ReconcileGeodata(e, true, d1);
    ReconcileGeodataDependsOnRest(r1, e, d2);
  }

  /** The effect's result depends only on the rest of the map: the layers
      other than the geodata layer and the sources other than its source. */
  lemma ReconcileGeodataDependsOnRest(a: Engine, b: Engine, data: Option<FeatureCollection>)
    requires UsedOnlyBy(a.layers, GeodataSourceId, {GeodataLayerId})
    requires UsedOnlyBy(b.layers, GeodataSourceId, {GeodataLayerId})
    requires Without(a.layers, GeodataLayerId) == Without(b.layers, GeodataLayerId)
    requires a.sources - {GeodataSourceId} == b.sources - {GeodataSourceId}
    ensures ReconcileGeodata(a, true, data) == ReconcileGeodata(b, true, data)
  {
  }

  /** The OpenAQ layers, both drawing from the OpenAQ source. */
  function OpenAQGlowLayer(vis: Visibility): Layer {
    Layer(OpenAQGlowLayerId, Circle, Some(OpenAQSourceId), false, vis, 0.4)
  }

  function OpenAQPointLayer(vis: Visibility): Layer {
    Layer(OpenAQLayerId, Circle, Some(OpenAQSourceId), false, vis, 1.0)
  }

  /** The stack without either OpenAQ layer. */
  function WithoutOpenAQ(ls: seq<Layer>): (r: seq<Layer>)
    ensures !HasId(r, OpenAQLayerId) && !HasId(r, OpenAQGlowLayerId)
  {
    WithoutMembers(ls, OpenAQLayerId);
    WithoutMembers(Without(ls, OpenAQLayerId), OpenAQGlowLayerId);
    var w := Without(Without(ls, OpenAQLayerId), OpenAQGlowLayerId);
    assert !HasId(w, OpenAQLayerId) by {
      forall i | 0 <= i < |w|
        ensures w[i].id != OpenAQLayerId
      {
        assert w[i] in Without(ls, OpenAQLayerId);
      }
    }
    w
  }

  /** Removing the OpenAQ layers keeps every other id. */
  lemma WithoutOpenAQKeepsIds(ls: seq<Layer>)
    ensures forall x :: x != OpenAQLayerId && x != OpenAQGlowLayerId ==> (HasId(WithoutOpenAQ(ls), x) <==> HasId(ls, x))
  {
    WithoutKeepsIds(ls, OpenAQLayerId);
    WithoutKeepsIds(Without(ls, OpenAQLayerId), OpenAQGlowLayerId);
  }

  /** The buildings layer survives the removal of the OpenAQ layers. */
  lemma WithoutOpenAQKeepsBuildings(ls: seq<Layer>)
    ensures HasId(WithoutOpenAQ(ls), BuildingsLayerId) <==> HasId(ls, BuildingsLayerId)
  {
    OverlayIdsDistinct();
    WithoutOpenAQKeepsIds(ls);
  }

  /** Where the OpenAQ pair goes: at the buildings layer, i.e. just below it. */
  function OpenAQInsertPoint(ls: seq<Layer>): nat
    requires HasId(ls, BuildingsLayerId)
  {
    WithoutOpenAQKeepsBuildings(ls);
    IndexOf(WithoutOpenAQ(ls), BuildingsLayerId)
  }

  /** The overlay layer ids differ from each other and from the buildings layer. */
  lemma OverlayIdsDistinct()
    ensures OpenAQLayerId != OpenAQGlowLayerId
    ensures BuildingsLayerId != OpenAQLayerId && BuildingsLayerId != OpenAQGlowLayerId
    ensures GeodataLayerId != OpenAQLayerId && GeodataLayerId != OpenAQGlowLayerId
  {
    assert OpenAQLayerId[7] != OpenAQGlowLayerId[7];
    assert BuildingsLayerId[0] != OpenAQLayerId[0] && BuildingsLayerId[0] != OpenAQGlowLayerId[0];
    assert GeodataLayerId[0] != OpenAQLayerId[0] && GeodataLayerId[0] != OpenAQGlowLayerId[0];
  }

  /** The removal half of the OpenAQ effect. */
  function ClearOpenAQ(e: Engine): (r: Engine)
    requires UsedOnlyBy(e.layers, OpenAQSourceId, {OpenAQLayerId, OpenAQGlowLayerId})
    ensures r.layers == WithoutOpenAQ(e.layers) && r.sources == e.sources - {OpenAQSourceId}
  {
    var e1 := DropLayer(e, OpenAQLayerId);
    var e2 := DropLayer(e1, OpenAQGlowLayerId);
    WithoutUsers(e.layers, OpenAQSourceId, OpenAQLayerId, {OpenAQLayerId, OpenAQGlowLayerId});
    WithoutUsers(e1.layers, OpenAQSourceId, OpenAQGlowLayerId, {OpenAQLayerId, OpenAQGlowLayerId} - {OpenAQLayerId});
    DropSource(e2, OpenAQSourceId)
  }

  /** The adding half: the source, the glow layer below the buildings, the
      point layer below the glow; the pair lands as one block. */
  function AddOpenAQ(e: Engine, fc: FeatureCollection, vis: Visibility): (r: Engine)
    requires OpenAQSourceId !in e.sources && HasId(e.layers, BuildingsLayerId)
    requires !HasId(e.layers, OpenAQLayerId) && !HasId(e.layers, OpenAQGlowLayerId)
    ensures r.sources == e.sources[OpenAQSourceId := GeoJsonData(fc)]
    ensures r.layers == Splice(e.layers, IndexOf(e.layers, BuildingsLayerId), [OpenAQPointLayer(vis), OpenAQGlowLayer(vis)])
  {
    var e4 := AddSource(e, OpenAQSourceId, GeoJsonData(fc));
    AddPairBelow(e4, OpenAQGlowLayer(vis), OpenAQPointLayer(vis), BuildingsLayerId);
    AddLayer(AddLayer(e4, OpenAQGlowLayer(vis), Some(BuildingsLayerId)), OpenAQPointLayer(vis), Some(OpenAQGlowLayerId))
  }

  /** The OpenAQ effect, with `vis` the visibility the two layers are created
      with: once loaded, both layers and the source are removed; when there
      is data they are added again, the glow layer below the buildings and
      the point layer below the glow. Adding the glow layer names the
      buildings layer as its anchor, which must exist. */
  function ReconcileOpenAQWith(e: Engine, loaded: bool, data: Option<FeatureCollection>, vis: Visibility): (r: Engine)
    requires UsedOnlyBy(e.layers, OpenAQSourceId, {OpenAQLayerId, OpenAQGlowLayerId})
    requires loaded && HasData(data) ==> HasId(e.layers, BuildingsLayerId)
    ensures !loaded ==> r == e
    ensures loaded && !HasData(data) ==> r.layers == WithoutOpenAQ(e.layers)
    ensures loaded && HasData(data) ==>
              r.layers == Splice(WithoutOpenAQ(e.layers), OpenAQInsertPoint(e.layers), [OpenAQPointLayer(vis), OpenAQGlowLayer(vis)])
    ensures loaded ==> (OpenAQSourceId in r.sources <==> HasData(data))
    ensures loaded && HasData(data) ==> r.sources[OpenAQSourceId] == GeoJsonData(data.value)
    ensures loaded ==> r.sources - {OpenAQSourceId} == e.sources - {OpenAQSourceId}
    ensures loaded ==> forall i :: 0 <= i < |r.layers| && (r.layers[i].id == OpenAQGlowLayerId || r.layers[i].id == OpenAQLayerId) ==>
                         r.layers[i].visibility == vis
  {
    if !loaded then e
    else
      var c := ClearOpenAQ(e);
      RemoveTwice(e.sources, OpenAQSourceId);
      if !HasData(data) then c
      else
        WithoutOpenAQKeepsBuildings(e.layers);
        RemoveThenPut(e.sources, OpenAQSourceId, GeoJsonData(data.value));
        PairVisibility(WithoutOpenAQ(e.layers), OpenAQInsertPoint(e.layers), vis);
        AddOpenAQ(c, data.value, vis)
  }

  /** Removing a key twice is removing it once. */
  lemma RemoveTwice<V>(m: map<string, V>, k: string)
    ensures k !in m - {k} && (m - {k}) - {k} == m - {k}
  {
  }

  /** Removing a key and putting it back changes nothing else. */
  lemma RemoveThenPut<V>(m: map<string, V>, k: string, v: V)
    ensures var m' := (m - {k})[k := v]; k in m' && m'[k] == v && m' - {k} == m - {k}
  {
  }

  /** The OpenAQ effect as the component writes it: both layers are always
      created visible. */
  function ReconcileOpenAQ(e: Engine, loaded: bool, data: Option<FeatureCollection>): (r: Engine)
    requires UsedOnlyBy(e.layers, OpenAQSourceId, {OpenAQLayerId, OpenAQGlowLayerId})
    requires loaded && HasData(data) ==> HasId(e.layers, BuildingsLayerId)
    ensures loaded && HasData(data) ==> OpenAQGlowLayer(Visible) in r.layers && OpenAQPointLayer(Visible) in r.layers
  {
    var r := ReconcileOpenAQWith(e, loaded, data, Visible);
    if loaded && HasData(data) then
      assert r.layers[OpenAQInsertPoint(e.layers)] == OpenAQPointLayer(Visible);
      assert r.layers[OpenAQInsertPoint(e.layers) + 1] == OpenAQGlowLayer(Visible);
      r
    else r
  }

  /** With data to draw, the three layers sit together from the bottom up as
      point layer, glow layer, buildings; the rest of the stack keeps its
      order around them. */
  lemma ReconcileOpenAQOrder(e: Engine, data: Option<FeatureCollection>, vis: Visibility)
    requires UsedOnlyBy(e.layers, OpenAQSourceId, {OpenAQLayerId, OpenAQGlowLayerId})
    requires HasData(data) && HasId(e.layers, BuildingsLayerId)
    ensures var r := ReconcileOpenAQWith(e, true, data, vis);
            var k := OpenAQInsertPoint(e.layers);
            && k + 2 < |r.layers|
            && r.layers[k] == OpenAQPointLayer(vis)
            && r.layers[k + 1] == OpenAQGlowLayer(vis)
            && r.layers[k + 2].id == BuildingsLayerId
            && r.layers[..k] + r.layers[k + 2..] == WithoutOpenAQ(e.layers)
  {
    var w := WithoutOpenAQ(e.layers);
    var k := OpenAQInsertPoint(e.layers);
    var r := ReconcileOpenAQWith(e, true, data, vis);
    WithoutOpenAQKeepsBuildings(e.layers);
    assert r.layers == Splice(w, k, [OpenAQPointLayer(vis), OpenAQGlowLayer(vis)]);
    assert k < |w| && w[k].id == BuildingsLayerId;
    PairAt(w, k, OpenAQPointLayer(vis), OpenAQGlowLayer(vis));
  }

  /** A pair inserted at `k` sits at `k` and `k + 1`, with `w[k]` right above. */
  lemma PairAt(w: seq<Layer>, k: nat, a: Layer, b: Layer)
    requires k < |w|
    ensures var r := Splice(w, k, [a, b]);
            r[k] == a && r[k + 1] == b && r[k + 2] == w[k] && r[..k] + r[k + 2..] == w
  {
    var r := Splice(w, k, [a, b]);
    assert r[..k] == w[..k] && r[k + 2..] == w[k..];
    assert w[..k] + w[k..] == w;
  }

  /** Every layer of a spliced stack comes from the block or from the stack. */
  lemma SpliceOrigin(w: seq<Layer>, k: nat, block: seq<Layer>)
    requires k <= |w|
    ensures var r := Splice(w, k, block);
            forall i :: 0 <= i < |r| ==> r[i] in w || r[i] in block
  {
    var r := Splice(w, k, block);
    forall i | 0 <= i < |r|
      ensures r[i] in w || r[i] in block
    {
      if i < k {
        assert r[i] == w[i];
      } else if i >= k + |block| {
        assert r[i] == w[i - |block|];
      } else {
        assert r[i] == block[i - k];
      }
    }
  }

  /** Inserting layers whose ids are all in `ids` keeps every id outside `ids`. */
  lemma SpliceBlockIds(w: seq<Layer>, k: nat, block: seq<Layer>, ids: set<string>)
    requires k <= |w|
    requires forall j :: 0 <= j < |block| ==> block[j].id in ids
    ensures forall x :: x !in ids ==> (HasId(Splice(w, k, block), x) <==> HasId(w, x))
  {
    var r := Splice(w, k, block);
    SpliceKeepsIds(w, k, block);
    SpliceOrigin(w, k, block);
    forall x | x !in ids && HasId(r, x)
      ensures HasId(w, x)
    {
      var i :| 0 <= i < |r| && r[i].id == x;
      var j :| 0 <= j < |w| && w[j] == r[i];
    }
  }

  /** Inserting layers whose ids are all in `ids` keeps `src` private to `ids`. */
  lemma SpliceBlockPrivate(w: seq<Layer>, k: nat, block: seq<Layer>, src: string, ids: set<string>)
    requires k <= |w| && UsedOnlyBy(w, src, ids)
    requires forall j :: 0 <= j < |block| ==> block[j].id in ids
    ensures UsedOnlyBy(Splice(w, k, block), src, ids)
  {
    SpliceOrigin(w, k, block);
  }

  /** The OpenAQ effect keeps every other layer id, and keeps the OpenAQ
      source private to the two OpenAQ layers. */
  lemma ReconcileOpenAQKeepsOthers(e: Engine, loaded: bool, data: Option<FeatureCollection>, vis: Visibility)
    requires UsedOnlyBy(e.layers, OpenAQSourceId, {OpenAQLayerId, OpenAQGlowLayerId})
    requires loaded && HasData(data) ==> HasId(e.layers, BuildingsLayerId)
    ensures var r := ReconcileOpenAQWith(e, loaded, data, vis);
            && (forall x :: x != OpenAQLayerId && x != OpenAQGlowLayerId ==> (HasId(r.layers, x) <==> HasId(e.layers, x)))
            && UsedOnlyBy(r.layers, OpenAQSourceId, {OpenAQLayerId, OpenAQGlowLayerId})
  {
    ReconcileOpenAQKeepsIds(e, loaded, data, vis);
    ReconcileOpenAQPrivate(e, loaded, data, vis);
  }

  lemma ReconcileOpenAQKeepsIds(e: Engine, loaded: bool, data: Option<FeatureCollection>, vis: Visibility)
    requires UsedOnlyBy(e.layers, OpenAQSourceId, {OpenAQLayerId, OpenAQGlowLayerId})
    requires loaded && HasData(data) ==> HasId(e.layers, BuildingsLayerId)
    ensures var r := ReconcileOpenAQWith(e, loaded, data, vis);
            forall x :: x != OpenAQLayerId && x != OpenAQGlowLayerId ==> (HasId(r.layers, x) <==> HasId(e.layers, x))
  {
    if loaded {
      WithoutOpenAQKeepsIds(e.layers);
      if HasData(data) {
        PairKeepsIds(WithoutOpenAQ(e.layers), OpenAQInsertPoint(e.layers), vis);
      }
    }
  }

  /** Inserting the OpenAQ pair adds no other id. */
  lemma PairKeepsIds(w: seq<Layer>, k: nat, vis: Visibility)
    requires k <= |w|
    ensures forall x :: x != OpenAQLayerId && x != OpenAQGlowLayerId ==>
              (HasId(Splice(w, k, [OpenAQPointLayer(vis), OpenAQGlowLayer(vis)]), x) <==> HasId(w, x))
  {
    SpliceBlockIds(w, k, [OpenAQPointLayer(vis), OpenAQGlowLayer(vis)], {OpenAQLayerId, OpenAQGlowLayerId});
  }

  lemma ReconcileOpenAQPrivate(e: Engine, loaded: bool, data: Option<FeatureCollection>, vis: Visibility)
    requires UsedOnlyBy(e.layers, OpenAQSourceId, {OpenAQLayerId, OpenAQGlowLayerId})
    requires loaded && HasData(data) ==> HasId(e.layers, BuildingsLayerId)
    ensures UsedOnlyBy(ReconcileOpenAQWith(e, loaded, data, vis).layers, OpenAQSourceId, {OpenAQLayerId, OpenAQGlowLayerId})
  {
    if loaded {
      OpenAQRestPrivate(e.layers);
      if HasData(data) {
        PairPrivate(WithoutOpenAQ(e.layers), OpenAQInsertPoint(e.layers), vis);
      }
    }
  }

  /** Inserting the OpenAQ pair into a stack where nothing uses the OpenAQ
      source leaves the source used by the pair alone. */
  lemma PairPrivate(w: seq<Layer>, k: nat, vis: Visibility)
    requires k <= |w| && UsedOnlyBy(w, OpenAQSourceId, {})
    ensures UsedOnlyBy(Splice(w, k, [OpenAQPointLayer(vis), OpenAQGlowLayer(vis)]), OpenAQSourceId, {OpenAQLayerId, OpenAQGlowLayerId})
  {
    SpliceBlockPrivate(w, k, [OpenAQPointLayer(vis), OpenAQGlowLayer(vis)], OpenAQSourceId, {OpenAQLayerId, OpenAQGlowLayerId});
  }

  /** Once the OpenAQ layers are gone, no layer uses the OpenAQ source. */
  lemma OpenAQRestPrivate(ls: seq<Layer>)
    requires UsedOnlyBy(ls, OpenAQSourceId, {OpenAQLayerId, OpenAQGlowLayerId})
    ensures UsedOnlyBy(WithoutOpenAQ(ls), OpenAQSourceId, {})
  {
    var ids := {OpenAQLayerId, OpenAQGlowLayerId};
    WithoutUsers(ls, OpenAQSourceId, OpenAQLayerId, ids);
    WithoutUsers(Without(ls, OpenAQLayerId), OpenAQSourceId, OpenAQGlowLayerId, ids - {OpenAQLayerId});
    assert ids - {OpenAQLayerId} - {OpenAQGlowLayerId} == {};
  }

  /** Removing a freshly inserted pair gives back the stack. */
  lemma WithoutPair(w: seq<Layer>, k: nat, a: Layer, b: Layer)
    requires k <= |w| && !HasId(w, a.id) && !HasId(w, b.id) && a.id != b.id
    ensures Without(Without(Splice(w, k, [a, b]), a.id), b.id) == w
  {
    AbsentSlice(w, 0, k, a.id);
    AbsentSlice(w, k, |w|, a.id);
    AbsentSlice(w, 0, k, b.id);
    AbsentSlice(w, k, |w|, b.id);
    assert w[0..k] == w[..k] && w[k..|w|] == w[k..];
    var s := Splice(w, k, [a, b]);
    assert s == w[..k] + [a] + ([b] + w[k..]);
    WithoutMiddle(w[..k], a, [b] + w[k..]);
    assert Without(s, a.id) == w[..k] + [b] + w[k..];
    assert !HasId([b] + w[k..], a.id) by {
      forall i | 0 <= i < |[b] + w[k..]|
        ensures ([b] + w[k..])[i].id != a.id
      {
        if i > 0 {
          assert ([b] + w[k..])[i] == w[k..][i - 1];
        }
      }
    }
    WithoutMiddle(w[..k], b, w[k..]);
    assert w[..k] + w[k..] == w;
  }

  /** Removing before adding means new data replaces the old outright: the
      effect run on its own output equals the effect run on the original
      map, so running it twice with the same data is running it once. */
  lemma ReconcileOpenAQReplaces(e: Engine, d1: Option<FeatureCollection>, d2: Option<FeatureCollection>, vis: Visibility)
    requires UsedOnlyBy(e.layers, OpenAQSourceId, {OpenAQLayerId, OpenAQGlowLayerId})
    requires (HasData(d1) || HasData(d2)) ==> HasId(e.layers, BuildingsLayerId)
    ensures var r1 := ReconcileOpenAQWith(e, true, d1, vis);
            && UsedOnlyBy(r1.layers, OpenAQSourceId, {OpenAQLayerId, OpenAQGlowLayerId})
            && (HasData(d2) ==> HasId(r1.layers, BuildingsLayerId))
            && ReconcileOpenAQWith(r1, true, d2, vis) == ReconcileOpenAQWith(e, true, d2, vis)
  {
    ReconcileOpenAQKeepsOthers(e, true, d1, vis);
    var r1 := ReconcileOpenAQWith(e, true, d1, vis);
    var w := WithoutOpenAQ(e.layers);
    if HasData(d1) {
      WithoutPair(w, OpenAQInsertPoint(e.layers), OpenAQPointLayer(vis), OpenAQGlowLayer(vis));
    } else {
      WithoutAbsent(w, OpenAQLayerId);
      WithoutAbsent(w, OpenAQGlowLayerId);
    }
    assert WithoutOpenAQ(r1.layers) == w;
  }
  /** In a pair inserted into a stack without either name, the layers
      carrying those names are the pair's own. */
  lemma PairOnlyNames(w: seq<Layer>, k: nat, a: Layer, b: Layer)
    requires k <= |w| && !HasId(w, a.id) && !HasId(w, b.id)
    ensures var r := Splice(w, k, [a, b]);
            forall i :: 0 <= i < |r| && (r[i].id == a.id || r[i].id == b.id) ==> r[i] == a || r[i] == b
  {
  }

  /** The data refresh re-creates both OpenAQ layers visible whatever the
      toggle says, and the visibility effect, which runs only when `loaded`
      or the toggle changes, does not follow it: with the toggle off the
      refreshed map is not the map the toggle asks for. */
  lemma OpenAQRefreshIgnoresToggle(e: Engine, data: Option<FeatureCollection>)
    requires UsedOnlyBy(e.layers, OpenAQSourceId, {OpenAQLayerId, OpenAQGlowLayerId})
    requires HasData(data) && HasId(e.layers, BuildingsLayerId)
    ensures var r := ReconcileOpenAQ(e, true, data);
            OpenAQVisibilityEffect(r, true, false) != r
  {
    var r := ReconcileOpenAQ(e, true, data);
    ReconcileOpenAQOrder(e, data, Visible);
    var k := OpenAQInsertPoint(e.layers);
    assert r.layers[k] == OpenAQPointLayer(Visible);
    assert OpenAQVisibilityEffect(r, true, false).layers[k].visibility == Hidden;
  }

  /** The OpenAQ effect with the layers created in the state the toggle
      asks for: the toggle then has nothing left to change. */
  function ReconcileOpenAQShown(e: Engine, loaded: bool, data: Option<FeatureCollection>, enabled: bool): (r: Engine)
    requires UsedOnlyBy(e.layers, OpenAQSourceId, {OpenAQLayerId, OpenAQGlowLayerId})
    requires loaded && HasData(data) ==> HasId(e.layers, BuildingsLayerId)
    ensures OpenAQVisibilityEffect(r, loaded, enabled) == r
  {
    var r := ReconcileOpenAQWith(e, loaded, data, VisibilityOf(enabled));
    OpenAQShownSettled(e, loaded, data, enabled);
    r
  }

  lemma OpenAQShownSettled(e: Engine, loaded: bool, data: Option<FeatureCollection>, enabled: bool)
    requires UsedOnlyBy(e.layers, OpenAQSourceId, {OpenAQLayerId, OpenAQGlowLayerId})
    requires loaded && HasData(data) ==> HasId(e.layers, BuildingsLayerId)
    ensures var r := ReconcileOpenAQWith(e, loaded, data, VisibilityOf(enabled));
            OpenAQVisibilityEffect(r, loaded, enabled) == r
  {
    VisibilitySettled(ReconcileOpenAQWith(e, loaded, data, VisibilityOf(enabled)), loaded, enabled);
  }

  /** When both OpenAQ layers already have the toggle's visibility, the
      toggle effect changes nothing. */
  lemma VisibilitySettled(e: Engine, loaded: bool, enabled: bool)
    requires loaded ==> forall i :: 0 <= i < |e.layers| && (e.layers[i].id == OpenAQGlowLayerId || e.layers[i].id == OpenAQLayerId) ==>
                          e.layers[i].visibility == VisibilityOf(enabled)
    ensures OpenAQVisibilityEffect(e, loaded, enabled) == e
  {
    assert OpenAQVisibilityEffect(e, loaded, enabled).layers == e.layers;
  }

  /** In the OpenAQ pair inserted into a stack without OpenAQ layers, every
      layer carrying an OpenAQ id has the pair's visibility. */
  lemma PairVisibility(w: seq<Layer>, k: nat, vis: Visibility)
    requires k <= |w| && !HasId(w, OpenAQLayerId) && !HasId(w, OpenAQGlowLayerId)
    ensures var ls := Splice(w, k, [OpenAQPointLayer(vis), OpenAQGlowLayer(vis)]);
            forall i :: 0 <= i < |ls| && (ls[i].id == OpenAQGlowLayerId || ls[i].id == OpenAQLayerId) ==> ls[i].visibility == vis
  {
    PairOnlyNames(w, k, OpenAQPointLayer(vis), OpenAQGlowLayer(vis));
  }

  // ---------------------------------------------------------------- click

  /** A feature returned by the rendered-feature query. */
  datatype Hit = Hit(geometry: Option<Geometry>, properties: Option<map<string, Json>>)

  /** The click handler with `hits` the outcome of querying the geodata
      layer at the clicked point (`Err` when the query throws): the first
      hit's geometry and properties (empty when missing), or nothing when
      the geodata layer is absent, the query throws, nothing was hit, or the
      first hit has no geometry. */
  function OnClick(geodataLayerPresent: bool, hits: Result<seq<Hit>>): (f: Option<Feature>)
    ensures f.Some? <==> geodataLayerPresent && hits.Ok? && |hits.value| > 0 && hits.value[0].geometry.Some?
    ensures f.Some? ==> f.value.geometry == hits.value[0].geometry
                        && f.value.properties == hits.value[0].properties.GetOr(map[])
  {
    if !geodataLayerPresent then None
    else
      match hits
      case Err(_) => None
      case Ok(fs) =>
        if |fs| == 0 then None
        else if fs[0].geometry.None? then None
        else Some(Feature(fs[0].geometry, fs[0].properties.GetOr(map[])))
  }

  /** A click only ever reports a feature when the geodata layer is on the
      map, which after the geodata effect means exactly when there is data. */
  lemma ClickNeedsData(e: Engine, data: Option<FeatureCollection>, hits: Result<seq<Hit>>)
    requires UsedOnlyBy(e.layers, GeodataSourceId, {GeodataLayerId})
    ensures var r := ReconcileGeodata(e, true, data);
            OnClick(HasId(r.layers, GeodataLayerId), hits).Some? ==> HasData(data)
  {
  }
}

=== FILE: wrappers.dfy ===
/** Optional values and fallible results, standing in for the dashboard's
    `T | null` / `T | undefined` values and its thrown-and-caught errors. */
module Wrappers {

  /** `None` is JavaScript's `null` or `undefined`; `Some(v)` is a present value. */
  datatype Option<+T> = None | Some(value: T) {

    /** The nullish-coalescing operator `this ?? default`. */
    function GetOr(default: T): T {
      match this
      case Some(v) => v
      case None => default
    }
  }

  /** The outcome of a step that may throw: `Err` carries the error message. */
  datatype Result<+T> = Ok(value: T) | Err(message: string)
}
